=== FILE: README.md ===
# DevikaFile core, modelled in Dafny

This project models four parts of the DevikaFile agent framework and proves properties of them.

- **The web search engine** (`SearchEngine`). It holds a daily request quota backed by a one-line counter file. It tracks rate-limit incidents with an extended backoff, rotates DuckDuckGo regions round-robin, and draws user agents from a fixed pool without repeats. It extracts the `vqd` handshake token and the results payload from raw page bytes. It filters and normalises result rows, falls back to Tavily and Google, and produces placeholder results when searching is not allowed.
- **The configuration tree** (`Config`). This covers the built-in defaults, the recursive merge of the user's YAML over them, and dotted lookup with exact / UPPER / lower key precedence. It also covers attribute-style access, the environment-variable overrides and the two string-valued logging flags.
- **The LLM front door** (`LLM`). This covers the display-name model lookup and the order in which `inference` charges token usage around a model call.
- **The decision agent's response handling.** This covers the shape check and the defaulting parse.

The modules follow the source:

| Module | File | Contents |
|---|---|---|
| `Common` | `common.dfy` | `Option` and `Result` |
| `Values` | `values.dfy` | parsed JSON/YAML values and Python truthiness |
| `Text` | `text.dfy` | substring search, ASCII case mapping, `split`/`strip`, decimal digits, and the `<.*?>` tag stripper |
| `Identity` | `search_identity.dfy` | region rotation and the user-agent pool |
| `Incidents` | `search_incidents.dfy` | the rate-limit classifier and the incident tracker |
| `DailyCounter` | `search_counter.dfy` | the counter record |
| `Extraction` | `search_extract.dfy` | byte-pattern extraction |
| `Results` | `search_results.dfy` | row processing, normalisation and placeholders |
| `Search` | `search.dfy` | the engine's state machine: `search`, `_duckduckgo_search` and the fallback loop |
| `Config` | `config.dfy` | the configuration tree |
| `Llm` | `llm.dfy` | model lookup and token accounting |
| `Decision` | `decision.dfy` | `validate_response` and `parse_response` |

Everything outside the program's own logic is a parameter:

| Outside the program | Modelled as |
|---|---|
| the clock (`time.time`) | an integer `now` |
| today's date (`strftime`) | a string `today` |
| `random.choice` | an index `pick` |
| the iteration order of the used-agent `set` | a list `order` |
| the two DuckDuckGo HTTP replies | `Reply` values (status and body, or `Unreachable` for a transport exception) |
| the Tavily and Google adapters | a function from engine name to `Found(results)` or `Failed` |
| `bytes.decode`, `orjson.loads`, `json.loads`, `html.unescape`, `urllib.parse.unquote` | functions passed in |
| `tiktoken` | a token-count function |
| the per-project usage store | a function from the charge history to the latest total |
| the Azure OpenAI adapter | a function returning a `Result` |
| the counter file and `config.yaml` | their text, or their parsed value |
| the process environment | a map |

Exceptions that the source catches or that propagate are written out as `None`, `Failure`, `Failed`, `Crash` or `AllFailed`.

## Model

| member | source | states |
|---|---|---|
| Identity.RotateRegion | src/browser/search.py:80-82 | no region for an empty list; otherwise the next index wraps to 0 past the end, stays in range, and the region is the list entry at it |
| Identity.RoundRobin | src/browser/search.py:80-82 | after k rotations the index is (index + k) mod n, for any starting index |
| Identity.RotationPeriod | src/browser/search.py:80-82 | every n rotations bring the index back to where it started |
| Identity.FirstRotationSkipsFirstRegion | src/browser/search.py:80-82 | from the initial index 0, the first request uses regions[1 mod n], not the first region |
| Identity.Unused | src/browser/search.py:102 | an agent is available exactly when it is in the pool and not yet used, in pool order |
| Identity.Survivors | src/browser/search.py:104-106 | a used set of three or fewer is kept whole; a larger one is cut back to a subset of at most three agents |
| Identity.ThreeSurvive | src/browser/search.py:104-106 | when more than three agents are used, exactly three survive the cut |
| Identity.UserAgentsDiverse | src/browser/search.py:85-100 | the 14-entry pool holds more than three distinct agents |
| Identity.FreshUserAgent | src/browser/search.py:84-114 | with an agent available, an unused pool agent is handed out and added to the used set; when all of a diverse pool are used, the set is cut to the survivors and a non-surviving agent is handed out, leaving at most four used; an empty pool yields the fixed fallback agent and leaves the used set alone |
| Identity.SurvivorsLeaveChoice | src/browser/search.py:104-109 | after the cut, a diverse pool always has an unused agent, so the hard-coded fallback agent is never reached |
| Identity.AgentFromPool | src/browser/search.py:109-112 | in a diverse pool the agent handed out is a pool member and is recorded as used |
| Identity.UsedStaysInPool | src/browser/search.py:102-112 | the used set only ever holds pool agents |
| Identity.EveryUnusedAgentReachable | src/browser/search.py:109-111 | every unused agent is chosen by some random pick |
| Identity.NoRepeatBeforeExhaustion | src/browser/search.py:102-112 | no agent is handed out twice before the whole pool is used |
| Incidents.AnyTerm | src/browser/search.py:118 | true exactly when some term occurs in the text |
| Incidents.IsRateLimitError | src/browser/search.py:116-118 | true exactly when one of the seven terms occurs in the lower-cased message |
| Incidents.TermAtPositionClassifies | src/browser/search.py:116-118 | a message in which a term occurs, lower-cased, at a known position is a rate limit |
| Incidents.ClassifierIgnoresCase | src/browser/search.py:117 | upper-casing a message does not change its classification |
| Incidents.RateLimitTermRedundant | src/browser/search.py:118 | any text containing "ratelimit" contains "rate", so that term never decides anything |
| Incidents.StatusCodeClassifies | src/browser/search.py:118 | a message ending in status 202 is a rate limit |
| Incidents.SubstringMatchesInsideWords | src/browser/search.py:118 | "could not generate token" is a rate limit, because "rate" matches inside "generate" |
| Incidents.TimeoutIsNotRateLimit | src/browser/search.py:116-118 | the message "timeout" is not a rate limit |
| Incidents.Recent | src/browser/search.py:123 | keeps exactly the times no older than the window, in their original order |
| Incidents.RecentAppend | src/browser/search.py:123 | the window filter distributes over concatenation |
| Incidents.RecordIncident | src/browser/search.py:120-127 | the new time is kept last, every kept time lies in the window, and the backoff deadline becomes now + extended time exactly when the count reaches the threshold (else unchanged) |
| Incidents.BurstRetained | src/browser/search.py:120-124 | an ascending burst of incidents that fits in the window is retained in full, in order |
| Incidents.BurstArmsBackoff | src/browser/search.py:120-127 | a burst of at least the threshold count within the window arms the backoff until the last incident plus the extended time |
| Incidents.QuietSpellResets | src/browser/search.py:120-127 | an incident after a quiet spell longer than the window leaves a single incident and arms no backoff (threshold above 1) |
| Incidents.DefaultThreeStrikes | src/browser/search.py:120-130 | with the defaults, three incidents within ten minutes put the engine in backoff for thirty minutes after the third |
| DailyCounter.CounterRecord | src/browser/search.py:72-76 | the record is the date, a comma, then the decimal count |
| DailyCounter.LoadCount | src/browser/search.py:58-70 | a missing file loads as 0; a record of today (two comma-separated fields, today's date, then all digits) loads as the decimal value of its second field; anything else loads as 0 |
| DailyCounter.SaveLoadRoundTrip | src/browser/search.py:58-76 | a record saved today loads back as the saved count |
| DailyCounter.LoadsAs | src/browser/search.py:62-67 | any text that strips down to today's record loads as that record's count |
| DailyCounter.OtherDayLoadsZero | src/browser/search.py:64-67 | a record from another day loads as 0 |
| DailyCounter.TrailingNewlineTolerated | src/browser/search.py:62 | a trailing newline does not change what loads |
| DailyCounter.NonDigitCountLoadsZero | src/browser/search.py:66-68 | a non-digit count such as -5 loads as 0 |
| Extraction.SliceBetween | src/browser/search.py:299-302 | the slice runs from the first start marker plus the offset to the first end delimiter from there on |
| Extraction.SliceMissing | src/browser/search.py:299-304 | no slice exactly when the start marker is absent, or no end delimiter follows its first occurrence |
| Extraction.ExtractVqd | src/browser/search.py:296-306 | the token comes from the first pattern whose slice exists and decodes; a failed decode falls through to the next pattern |
| Extraction.MarkerLengths | src/browser/search.py:297-310 | every offset equals its start marker's length, so each token starts right after its marker |
| Extraction.DoubleQuotedForm | src/browser/search.py:297-302 | a page beginning `vqd="tok"` yields tok |
| Extraction.AmpersandForm | src/browser/search.py:297-302 | `vqd=tok&` with no double quote anywhere yields tok |
| Extraction.SingleQuotedForm | src/browser/search.py:297-302 | `vqd='tok'` with no double quote and no ampersand anywhere yields tok |
| Extraction.AmpersandPreemptsSingleQuote | src/browser/search.py:297-303 | in `vqd='tok'&…` the ampersand pattern wins, and the token keeps both quotes |
| Extraction.NoMarkerNoToken | src/browser/search.py:296-306 | a page without `vqd=` yields no token |
| Extraction.ExtractPayload | src/browser/search.py:308-316 | the payload is the bytes between `DDG.pageLayout.load('d',` and the next `);DDG.duckbar.load(` |
| Extraction.PayloadBetweenMarkers | src/browser/search.py:308-312 | a page laid out as start marker, payload, end marker yields exactly the payload |
| Text.StripTags | src/browser/search.py:322-323 | the lazy `<.*?>` removal never lengthens the text and leaves text without `<` unchanged |
| Text.StripTagsTagFree | src/browser/search.py:322-323 | the removal leaves no complete tag behind |
| Text.StripTagsIdempotent | src/browser/search.py:322-323 | stripping tags twice equals stripping once |
| Text.StripTagsPrefix | src/browser/search.py:322-323 | text before the first `<` passes through unchanged |
| Text.StripTagsKeepsText | src/browser/search.py:322-323 | in `a<t>b`, with no `<` in `a` and neither `>` nor a newline in `t`, the tag goes and `a` is kept in front of the stripped `b` |
| Text.UnclosedKept | src/browser/search.py:322-323 | a `<` that no `>` closes on its own line is kept, and stripping carries on after it |
| Results.Normalize | src/browser/search.py:322-323 | a falsy value normalises to ""; a truthy non-string raises; every string normalises, a non-empty one to the decoding of some tag-free text no longer than it, and a non-empty string without `<` is only unescaped |
| Results.NormalizeDropsTag | src/browser/search.py:322-323 | normalising `a<t>b` decodes `a` followed by the stripped `b`: the tag is dropped and the text around it kept |
| Results.NormalizeSeesTagFreeText | src/browser/search.py:322-323 | normalising a string gives what normalising it with its tags already removed gives |
| Results.NormalizeUrl | src/browser/search.py:318-320 | the empty URL stays empty; otherwise the decoder receives the URL with each space turned into `+` and every other character kept in its place |
| Results.NormalizeUrlSpaceIsPlus | src/browser/search.py:318-320 | a URL normalises as it would with its spaces already written as `+`, and a URL without spaces reaches the decoder unchanged |
| Results.RowOutcomes | src/browser/search.py:212-223 | a row is skipped exactly when its `u` is falsy, equals the Google query URL, or its body normalises to ""; a kept row's fields are the normalised title, URL and body |
| Results.Outcomes | src/browser/search.py:212-226 | one outcome per row, in row order |
| Results.Cap | src/browser/search.py:224-226 | the loop stops at max_results results, and at one result when max_results is not positive |
| Results.Collect | src/browser/search.py:211-226 | the results are a prefix of all kept rows, at most the cap, all of them when fewer; the loop fails exactly when some row raises while fewer than the cap results are held, so a row after the break is never read |
| Results.EarlyCrashFails | src/browser/search.py:211-226 | a row that raises before max_results results are kept makes the whole loop fail |
| Results.LaterRowsUnread | src/browser/search.py:224-226 | once the first rows give max_results results, the later rows, even ones that would raise, do not change the outcome |
| Results.TakesAreClean | src/browser/search.py:217-224 | no returned result carries an empty body |
| Results.Placeholders | src/browser/search.py:325-333 | max(0, max_results) results; the first is titled "Search result 1 for 'q'", the rest "Alternative search result for 'q'"; each has the fixed body and the placeholder link for the query |
| Results.PlaceholderHref | src/browser/search.py:331 | the link is the DuckDuckGo query prefix followed by the query with each space turned into `+` and every other character kept in its place |
| Results.PlaceholderHrefKeepsQuery | src/browser/search.py:331 | the query's non-space characters appear in the link, each in its place |
| Search.DefaultConfig | src/browser/search.py:26-40 | window 600, three incidents, 1800 s backoff, limit 100, rotate every 2, regions wt-wt, us-en, uk-en |
| Search.Init | src/browser/search.py:42-52 | fresh counters and tracker, with the daily count read back from the counter file |
| Search.PageRows | src/browser/search.py:208-212 | rows exist exactly when the payload between the markers parses to a non-empty JSON list, and they are that list |
| Search.RotateAgent | src/browser/search.py:199-203 | a fresh agent is drawn exactly when the request count is a multiple of the rotation setting; otherwise nothing changes, and only the used agents ever change |
| Search.DuckDuckGo | src/browser/search.py:175-235 | it answers exactly when every step goes through (both replies 200, a non-empty token, a region, a rotation setting, a non-empty row list, no row raising), and then with the row loop's results; the tracker is never touched; on success both counters rise by one and the counter file is rewritten with today's count; on failure the counters, the success time and the file are unchanged; a failure before the token or with no regions leaves the whole state as it was; once the token is found and a region exists the region index advances, and the used agents are refreshed exactly when the request count is a multiple of the rotation setting, whatever happens later |
| Search.RotatesOnCadence | src/browser/search.py:199-203 | on a request whose count is a multiple of the setting the agent sent is a pool member recorded as used, and a new one while unused agents remain; on any other request the used agents stay as they were |
| Search.DuckDuckGoResultsFromRows | src/browser/search.py:211-226 | every DuckDuckGo result is a kept row, in row order, at most the cap, and none has an empty body |
| Search.CallableNames | src/browser/search.py:161-168 | only enabled engines named tavily or google are called, in configuration order |
| Search.TryFallbacks | src/browser/search.py:161-173 | only callable engines are called, in order; the run ends AllFailed exactly when every callable engine was called and failed; an answer comes from the last engine called, after all earlier ones failed |
| Search.DisabledNeverCalled | src/browser/search.py:162 | a disabled engine is never called |
| Search.FirstAnswerWins | src/browser/search.py:161-171 | the first callable engine that answers supplies the results, and no later engine is called |
| Search.Attempted | src/browser/search.py:154-173 | DuckDuckGo is called first when it is the primary engine; its answer is returned as is; when it fails, or is not the primary, the fallback loop's outcome is returned and its engines follow DuckDuckGo among those called |
| Search.SearchOnce | src/browser/search.py:140-173 | with the quota spent or in backoff, the result is placeholders, no engine is called and the state is unchanged; with both gates open DuckDuckGo is tried first when it is the primary, its answer wins, and otherwise the fallback loop decides the outcome; the daily count rises by at most one and never past the limit; the tracker is never touched; "All search engines failed" comes only after the primary and every callable fallback were tried and failed |
| Search.OpenSearchAnswersFromRows | src/browser/search.py:154-157 | with both gates open and every DuckDuckGo step going through, the search answers with the collected rows, calls no fallback and counts one request |
| Search.QuotaCheckedFirst | src/browser/search.py:143-152 | the quota check answers before the backoff check when both apply |
| Search.QuotaNeverExceeded | src/browser/search.py:143-146 | starting within the limit, over any series of searches the daily count never exceeds the limit, and both counters rise together |
| Search.OverLimitFrozen | src/browser/search.py:143-146 | starting at or above the limit, as a loaded counter record can, no series of searches changes the state, so the count never moves |
| Search.BackoffHoldsEverything | src/browser/search.py:148-152 | while the backoff deadline lies ahead, no series of searches changes the state |
| Search.RestartRestoresCount | src/browser/search.py:58-76 | after a successful search, a restart on the same day reads the daily count back |
| Search.RegionIndexInRange | src/browser/search.py:80-82 | the region index stays a valid index |
| Search.UsedAgentsFromPool | src/browser/search.py:84-114 | the used set only ever holds agents of the built-in pool |
| Config.Merge | src/config.py:97-103 | every update key is present; keys only the defaults have are unchanged; a non-dict on either side is overwritten by the update |
| Config.MergeNested | src/config.py:99-100 | where both sides hold a dictionary, the entry is their recursive merge |
| Config.MergeIdempotent | src/config.py:97-103 | merging the same updates twice equals merging once |
| Config.UpdatesWin | src/config.py:97-103 | a non-dict leaf of the updates reads back unchanged after the merge |
| Config.DefaultsKeys | src/config.py:25-77 | the defaults hold exactly the eight sections LLM, SERVER, LOGGING, MEMORY, API_KEYS, API_ENDPOINTS, STORAGE and TIMEOUT |
| Config.UpdatesLand | src/config.py:97-103 | after a merge every key of either side is present, keys only the defaults have are kept, and each non-dict value of the updates, at the top level or one level down, reads back unchanged |
| Config.MergeUserConfig | src/config.py:21-81 | an empty or falsy file yields the defaults; a non-mapping file raises; for a mapping, every default section and every key of the file is present, default sections the file does not name are untouched, and each non-dict value of the file, at the top level or one level down, reads back unchanged |
| Config.Resolve | src/config.py:266-273 | the exact key, then the upper-case form, then the lower-case form; nothing when none is present |
| Config.Get | src/config.py:255-274 | a path without dots resolves one level, falling back to the default |
| Config.GetDescends | src/config.py:261-274 | `get("a.b")` is `get("b")` inside whatever `a` resolves to, or the default when that is missing or not a dictionary |
| Config.ServerPortDefault | src/config.py:255-274 | `get("server.port")` finds 8080 through the upper-case section |
| Config.LowerKeyFound | src/config.py:270-271 | the lower-case key is found when neither the exact key nor its upper-case form is present |
| Config.ExactKeyFirst | src/config.py:266-269 | the exact key wins over its upper-case twin |
| Config.Attribute | src/config.py:279-294 | attribute access raises exactly when the lookup finds nothing; dictionaries come back wrapped, other values plain |
| Config.NamespaceGet | src/config.py:341-365 | namespace `get` returns the default exactly when attribute access would raise |
| Config.AttributeMatchesGet | src/config.py:255-294 | attribute access and `get` agree on single names |
| Config.ApplyOne | src/config.py:322-329 | an unset or empty variable changes nothing; otherwise the section is created if missing and the key set to the variable's value, other keys untouched; a non-dict section raises |
| Config.OverridesLastWins | src/config.py:301-329 | each targeted entry ends up holding the value of the last applicable variable; untargeted entries are unchanged |
| Config.OverridesLeaveOtherSections | src/config.py:301-329 | sections no applicable variable names are unchanged |
| Config.OverridesFailIff | src/config.py:322-329 | the overrides raise exactly when an applicable variable names an existing non-dict section |
| Config.NoEnvNoChange | src/config.py:322-325 | an empty environment changes nothing |
| Config.OpenAiKeyBeatsAzureKey | src/config.py:301-329 | when both are set, OPENAI_API_KEY overrides AZURE_OPENAI_API_KEY |
| Config.LoadConfig | src/config.py:15-86 | loading fails exactly when the file is not a mapping, or when it sets a section that a set variable writes into to something other than a mapping; on success every default section and every section of the file is present, each entry a set variable targets holds the last such variable's value, every other entry of a mapping section is the merged one, and a section no set variable writes into is exactly the merged section, so a top-level setting of the file keeps its value there and no section appears |
| Config.ApplyEnvironment | src/config.py:301-329 | the override step fails exactly when the merge failed or an override raises; otherwise each targeted entry holds the last applicable variable's value, every other entry of a mapping section is as merged, and every section no set variable writes into is as merged, present exactly when it was |
| Config.LoadConfigKeepsTopLevel | src/config.py:81-86 | a top-level setting of the file that is not a mapping reads back after loading unless a set variable writes into that section |
| Config.LoadConfigKeepsUserKeys | src/config.py:81-86 | a setting the file makes inside a section reads back after loading unless a set variable targets it |
| Config.LoadConfigOverridesWin | src/config.py:301-329 | a set TAVILY_API_KEY is the loaded Tavily key whatever the file says |
| Config.EmptyFileAlwaysLoads | src/config.py:21-86 | an empty configuration file loads under any environment |
| Config.GetFlag | src/config.py:159-163 | the flag reads true exactly when it holds the string "true"; a missing LOGGING section or flag raises |
| Config.SetFlag | src/config.py:224-230 | the flag can be set exactly when LOGGING is a dictionary; it then holds "true" or "false" by the truth of the value; every other key of LOGGING and everything outside LOGGING is unchanged |
| Config.FlagRoundTrip | src/config.py:224-230 | setting a flag and reading it back gives the truth of the value set |
| Config.FlagsIndependent | src/config.py:224-230 | setting the prompts flag leaves the REST API flag as it was |
| Config.OnlyExactTrue | src/config.py:159-163 | "True" reads as false |
| Config.FlagsDefaultOff | src/config.py:37-42 | both flags read false in the defaults |
| Llm.FindIn | src/llm/llm.py:32-38 | a provider's listing is found exactly when some entry has the display name; among equal display names the last entry wins; with no such entry the earlier finding stands |
| Llm.ModelEnum | src/llm/llm.py:32-38 | a provider and API name exactly when some model has that display name, taken from such a listing |
| Llm.DisplayNameResolves | src/llm/llm.py:23-38 | "GPT-4o" maps to ("AZURE_OPENAI", "gpt-4o") |
| Llm.ApiNameDoesNotResolve | src/llm/llm.py:23-38 | the API name "gpt-4o" does not resolve |
| Llm.UpdateUsage | src/llm/llm.py:41-46 | one charge of the text's token count, then an emitted total of the store's latest value after that charge plus the count |
| Llm.UpdateUsageChargesOnce | src/llm/llm.py:41-43 | one usage update adds exactly one charge |
| Llm.Infer | src/llm/llm.py:48-64 | the prompt is charged first; an unknown model fails after that single charge; a model of another provider fails; a known Azure OpenAI model succeeds exactly when the adapter answers, with the adapter's response unchanged, and the response is charged second |
| Llm.InferCharges | src/llm/llm.py:48-64 | a call charges twice on success and once on failure |
| Llm.ApiNameRejectedAfterCharge | src/llm/llm.py:49-55 | asking for "gpt-4o" fails after charging the prompt |
| Llm.DisplayNameReachesAdapter | src/llm/llm.py:51-60 | asking for "GPT-4o" returns the adapter's answer for "gpt-4o" |
| Decision.ValidateResponse | src/agents/decision/decision.py:17-30 | the response is returned unchanged exactly when it parses to an object with string decision and reasoning fields; otherwise False |
| Decision.ParseResponse | src/agents/decision/decision.py:40-53 | an object yields its decision, reasoning and metadata, defaulting to "", "" and {}; anything else yields the apology |
| Decision.AcceptedParsesFaithfully | src/agents/decision/decision.py:17-47 | an accepted response parses to the very strings the check saw |
| Decision.UnparseableMeansApology | src/agents/decision/decision.py:20-53 | unparseable or non-object text is rejected and parses to the apology |
| Decision.ExtraKeysAllowed | src/agents/decision/decision.py:22-28 | extra keys do not affect acceptance |
| Decision.NonStringDecisionOnlyParses | src/agents/decision/decision.py:24-47 | a non-string decision is rejected, yet the parse passes it through |

## Left out

- HTTP, file access and the YAML/JSON parsers are left out: they are I/O or library code. Their results are parameters. `_save_request_count` becomes the `saved` field, and a failed write, which is only logged, is not modelled.
- Logging, `print`, `emit_agent`'s transport, and the `session_id` and `random_jitter` values are left out: nothing reads them.
- `time.time()` is an integer clock rather than a float, so sub-second incident times are not represented.
- `str.lower`, `str.upper` and `str.isdigit` are modelled on ASCII only; Unicode case mapping and Unicode digits are left out. `str.strip` uses Python's full `str.isspace` set.
- `_is_rate_limit_error` takes the exception's message rather than the exception. `str(exception)` is not modelled.
- The tracker helpers `_is_rate_limit_error` and `_record_rate_limit_incident` are standalone operations: `search()` never calls them, so only `_should_apply_extended_backoff` gates searching.
- `_get_success_interval` and `get_first_link` are left out: nothing in the modelled core reads them. `query_result` is not tracked.
- The Tavily and Google adapters' request building and response mapping are left out. They are network calls; each is a `Found`/`Failed` reply.
- `Search.TryFallbacks` does not model the `KeyError` raised when a fallback entry lacks `enabled`. That read sits outside the `try`, so the error escapes the loop. A missing `api_key` or `search_engine_id` raises inside the `try`; it is logged, the loop moves on, and the model's `Failed` reply for that engine covers it.
- `SearchEngine._load_config` (reading `config.yaml` raw, without defaults) and the `KeyError` for a missing `search_engines` section are left out. The configuration arrives as a `SearchConfig`.
- The daily counter is read only once, at start-up. A long-running engine does not reset it when the date changes. The counter is modelled as the code does it.
- `Results.Cap`: a `max_results` of zero or less still lets the row loop keep one result before its `>=` test stops it. The model does this as written.
- The user-agent strings are compared as opaque strings, so `UserAgentsDiverse` relies only on four of them differing.
- `Config.Attribute` does not model Python's ordinary attribute lookup, which runs before `__getattr__`. On `Config`, names such as `config` or `get` return the object's own members. On `_ConfigNamespace`, `_data` and `get` do the same. `__getitem__` is a plain dictionary read and is left out.
- `Config.Get` does not model a non-string path (`[path]`) or YAML keys that are not strings.
- `update_config`, `save_config` and the other per-key getters and setters are left out. They are the same merge and dictionary reads and writes over file I/O. `LoadConfig` does not model the `FileNotFoundError` for a missing file.
- The singleton construction of `Config` (`__new__`) is left out.
- `Llm.UpdateUsage`: the usage store (`AgentState`) is not part of this model. Its latest value is a function of the charge history.
- `LLM.list_models` and the constructor's reads of the logging and timeout settings are left out. They are plain reads.
- The `retry_wrapper` and `validate_responses` decorators, prompt formatting and `execute` are left out. Their code is not part of this model.

=== FILE: common.dfy ===
/** Failure-compatible wrappers shared by every module of the model. */
module Common {

  /** A value that may be absent: Python's `None` or a missing key. */
  datatype Option<+T> = None | Some(value: T) {
    function GetOr(default: T): T {
      match this
      case Some(v) => v
      case None => default
    }
  }

  /** The outcome of an operation that may raise: `Failure` carries the exception message. */
  datatype Result<+R> = Success(value: R) | Failure(error: string)
}

=== FILE: config.dfy ===
/**
 The configuration tree: the built-in defaults, the recursive merge of the
 user's YAML over them, dotted-path lookup with its exact / UPPER / lower key
 precedence, attribute-style access, the environment-variable overrides and
 the two string-valued logging flags. Reading and writing `config.yaml` and
 reading the environment are left to the caller: the parsed file arrives as a
 `Value` and the environment as a map.
 */
module Config {
  import opened Common
  import opened Values
  import opened Text

  /** A configuration section: keys to values. */
  type Tree = map<string, Value>

  // ---------------------------------------------------------------------------
  // Merging
  // ---------------------------------------------------------------------------

  /**
   `_update_nested_dict(d, u)`: every key of `u` lands in the result; where
   both sides hold a dictionary the two are merged recursively, otherwise
   `u`'s value replaces `d`'s; keys only `d` has are left alone.
   */
  function Merge(d: Tree, u: Tree): (r: Tree)
    ensures r.Keys == d.Keys + u.Keys
    ensures forall k :: k in d && k !in u ==> r[k] == d[k]
    ensures forall k :: k in u && !(k in d && d[k].Dict? && u[k].Dict?) ==> r[k] == u[k]
    ensures forall k :: k in u && k in d && d[k].Dict? && u[k].Dict? ==> r[k].Dict?
    decreases Dict(u)
  {
    map k | k in d.Keys + u.Keys ::
      if k in u then
        if k in d && d[k].Dict? && u[k].Dict? then
          assert Dict(u[k].fields) == u[k];
          Dict(Merge(d[k].fields, u[k].fields))
        else u[k]
      else d[k]
  }

  /** Where both sides hold a dictionary, the merged entry is their recursive merge. */
  lemma MergeNested(d: Tree, u: Tree, k: string)
    requires k in u && k in d && d[k].Dict? && u[k].Dict?
    ensures Merge(d, u)[k] == Dict(Merge(d[k].fields, u[k].fields))
  {
  }

  /** Merging nothing changes nothing. */
  lemma MergeEmpty(d: Tree)
    ensures Merge(d, map[]) == d
  {
  }

  /** A tree merged with itself is itself. */
  lemma {:induction false} MergeSelf(d: Tree)
    ensures Merge(d, d) == d
    decreases Dict(d)
  {
    var r := Merge(d, d);
    forall k | k in d ensures r[k] == d[k] {
      if d[k].Dict? {
        assert Dict(d[k].fields) == d[k];
        MergeNested(d, d, k);
        MergeSelf(d[k].fields);
      }
    }
  }

  /** Applying the same updates twice is the same as applying them once. */
  lemma {:induction false} MergeIdempotent(d: Tree, u: Tree)
    ensures Merge(Merge(d, u), u) == Merge(d, u)
    decreases Dict(u)
  {
    var once := Merge(d, u);
    var twice := Merge(once, u);
    forall k | k in twice.Keys ensures k in once && twice[k] == once[k] {
      if k in u && k in d && d[k].Dict? && u[k].Dict? {
        assert Dict(u[k].fields) == u[k];
        MergeNested(d, u, k);
        MergeNested(once, u, k);
        MergeIdempotent(d[k].fields, u[k].fields);
      } else if k in u && u[k].Dict? {
        MergeNested(once, u, k);
        MergeSelf(u[k].fields);
      }
    }
    assert twice.Keys == once.Keys;
  }

  /** Every leaf of the updates wins: a non-dictionary update value reads back unchanged. */
  lemma {:induction false} UpdatesWin(d: Tree, u: Tree, k: string, j: string)
    requires k in u && u[k].Dict? && j in u[k].fields && !u[k].fields[j].Dict?
    ensures Merge(d, u)[k].Dict? && j in Merge(d, u)[k].fields
    ensures Merge(d, u)[k].fields[j] == u[k].fields[j]
  {
    if k in d && d[k].Dict? {
      MergeNested(d, u, k);
    }
  }

  // ---------------------------------------------------------------------------
  // Defaults and loading
  // ---------------------------------------------------------------------------

  /** The default configuration, section by section. */
  const Defaults: Tree := map[
    "LLM" := Dict(LlmDefaults),
    "SERVER" := Dict(ServerDefaults),
    "LOGGING" := Dict(LoggingDefaults),
    "MEMORY" := Dict(MemoryDefaults),
    "API_KEYS" := Dict(ApiKeyDefaults),
    "API_ENDPOINTS" := Dict(EndpointDefaults),
    "STORAGE" := Dict(StorageDefaults),
    "TIMEOUT" := Dict(TimeoutDefaults)
  ]

  const LlmDefaults: Tree :=
    map["model" := Str("gpt-4"), "temperature" := Float(0.7), "max_tokens" := Int(2048), "api_key" := Str("")]

  const ServerDefaults: Tree := map["host" := Str("0.0.0.0"), "port" := Int(8080), "debug" := Bool(true)]

  const LoggingDefaults: Tree := map[
    "level" := Str("INFO"), "file" := Str("logs/app.log"),
    "LOG_REST_API" := Str("false"), "LOG_PROMPTS" := Str("false")]

  const MemoryDefaults: Tree := map["enabled" := Bool(true), "type" := Str("local")]

  const ApiKeyDefaults: Tree := map[
    "BING" := Str(""), "GOOGLE_SEARCH" := Str(""), "GOOGLE_SEARCH_ENGINE_ID" := Str(""),
    "CLAUDE" := Str(""), "OPENAI" := Str(""), "GEMINI" := Str(""), "MISTRAL" := Str(""),
    "GROQ" := Str(""), "NETLIFY" := Str(""), "TAVILY" := Str("")]

  const EndpointDefaults: Tree := map[
    "BING" := Str("https://api.bing.microsoft.com/v7.0/search"),
    "GOOGLE" := Str("https://www.googleapis.com/customsearch/v1"),
    "GOOGLE_SEARCH" := Str("https://www.googleapis.com/customsearch/v1"),
    "LM_STUDIO" := Str("http://localhost:1234/v1"),
    "OPENAI" := Str("https://api.openai.com/v1")]

  const StorageDefaults: Tree := map[
    "LOGS_DIR" := Str("logs"), "SCREENSHOTS_DIR" := Str("data/screenshots"),
    "PDFS_DIR" := Str("data/pdfs"), "PROJECTS_DIR" := Str("data/projects"),
    "REPOS_DIR" := Str("data/repos"), "SQLITE_DB" := Str("data/database.sqlite")]

  const TimeoutDefaults: Tree := map["INFERENCE" := Int(30)]

  const DefaultSections: set<string> :=
    {"LLM", "SERVER", "LOGGING", "MEMORY", "API_KEYS", "API_ENDPOINTS", "STORAGE", "TIMEOUT"}

  /** The default configuration has exactly the eight sections. */
  lemma DefaultsKeys()
    ensures Defaults.Keys == DefaultSections
  {
  }

  /**
   The merge step of `_load_config`: an empty or falsy file counts as `{}`; a
   file whose top level is not a mapping makes the merge raise (`Failure`).
   */
  function MergeUserConfig(user: Value): (r: Result<Tree>)
    ensures r.Success? <==> !Truthy(user) || user.Dict?
    ensures r.Success? ==> DefaultSections <= r.value.Keys
    ensures !Truthy(user) ==> r == Success(Defaults)
    ensures user.Dict? ==> r.Success? && Landed(Defaults, user.fields, r.value)
  {
    DefaultsKeys();
    MergeFile(Defaults, user)
  }

  /** The same step over any defaults `d`. */
  function MergeFile(d: Tree, user: Value): (r: Result<Tree>)
    ensures r.Success? <==> !Truthy(user) || user.Dict?
    ensures r.Success? ==> d.Keys <= r.value.Keys
    ensures !Truthy(user) ==> r == Success(d)
    ensures user.Dict? ==> r.Success? && Landed(d, user.fields, r.value)
  {
    if !Truthy(user) then
      MergeEmpty(d);
      Success(Merge(d, map[]))
    else if user.Dict? then
      UpdatesLand(d, user.fields);
      Success(Merge(d, user.fields))
    else Failure("configuration file is not a mapping")
  }

  /**
   The updates `u` have landed on `d` in `r`: every key of either is present,
   keys only `d` has are kept, and every non-dictionary leaf of `u`, at the
   top or one level down, reads back unchanged.
   */
  predicate Landed(d: Tree, u: Tree, r: Tree) {
    && r.Keys == d.Keys + u.Keys
    && (forall s :: s in d && s !in u ==> r[s] == d[s])
    && (forall s :: s in u && !u[s].Dict? ==> r[s] == u[s])
    && (forall k, j :: k in u && u[k].Dict? && j in u[k].fields && !u[k].fields[j].Dict? ==>
         r[k].Dict? && j in r[k].fields && r[k].fields[j] == u[k].fields[j])
  }

  /** A merge lands its updates. */
  lemma UpdatesLand(d: Tree, u: Tree)
    ensures Landed(d, u, Merge(d, u))
  {
    forall k, j | k in u && u[k].Dict? && j in u[k].fields && !u[k].fields[j].Dict?
      ensures Merge(d, u)[k].Dict? && j in Merge(d, u)[k].fields && Merge(d, u)[k].fields[j] == u[k].fields[j]
    {
      UpdatesWin(d, u, k, j);
    }
  }

  // ---------------------------------------------------------------------------
  // Dotted lookup
  // ---------------------------------------------------------------------------

  /** One level of lookup: the exact key, then its upper-case form, then its lower-case form. */
  function Resolve(fields: Tree, part: string): (r: Option<Value>)
    ensures r.None? <==> part !in fields && Upper(part) !in fields && Lower(part) !in fields
    ensures part in fields ==> r == Some(fields[part])
    ensures part !in fields && Upper(part) in fields ==> r == Some(fields[Upper(part)])
    ensures part !in fields && Upper(part) !in fields && Lower(part) in fields ==> r == Some(fields[Lower(part)])
    ensures r.Some? ==> r.value in fields.Values
  {
    if part in fields then Some(fields[part])
    else if Upper(part) in fields then Some(fields[Upper(part)])
    else if Lower(part) in fields then Some(fields[Lower(part)])
    else None
  }

  /** The walk of `get` from `cur` along `parts`; `default` as soon as a level is missing or not a dictionary. */
  function Walk(cur: Value, parts: seq<string>, default: Value): (r: Value)
    ensures |parts| > 0 && !cur.Dict? ==> r == default
    ensures |parts| == 1 && cur.Dict? ==> r == Resolve(cur.fields, parts[0]).GetOr(default)
    decreases |parts|
  {
    if |parts| == 0 then cur
    else if !cur.Dict? then default
    else match Resolve(cur.fields, parts[0])
      case None => default
      case Some(v) => Walk(v, parts[1..], default)
  }

  /** The lower-case key is the last resort: `PORT` finds `port` when neither `PORT` nor its upper-case form is present. */
  lemma LowerKeyFound(v: Value)
    ensures Resolve(map["port" := v], "PORT") == Some(v)
  {
    assert Upper("PORT")[0] == 'P';
    assert Lower("PORT") == "port";
  }

  /** `Config.get(path, default)`: split the path at dots and walk the tree. */
  function Get(config: Tree, path: string, default: Value): (r: Value)
    ensures '.' !in path ==> r == Resolve(config, path).GetOr(default)
  {
    var parts := Split(path, '.');
    if '.' !in path then
      SplitNoSep(path, '.');
      assert parts[1..] == [];
      Walk(Dict(config), parts, default)
    else Walk(Dict(config), parts, default)
  }

  /** A dotted path descends one level: `get("a.b")` is `get("b")` inside whatever `a` resolves to. */
  lemma GetDescends(config: Tree, a: string, b: string, default: Value)
    requires '.' !in a
    ensures Get(config, a + "." + b, default) ==
      match Resolve(config, a)
      case Some(Dict(inner)) => Get(inner, b, default)
      case _ => default
  {
    SplitCons(a, b, '.');
    assert a + "." + b == a + ['.'] + b;
    var rest := Split(b, '.');
    assert Split(a + "." + b, '.')[1..] == rest;
  }

  /** `"server"` is the lower-case form of the default section `SERVER`. */
  lemma UpperServer()
    ensures Upper("server") == "SERVER"
  {
  }

  /** `"server"` resolves to the default `SERVER` section through its upper-case form. */
  lemma ServerResolves()
    ensures Resolve(Defaults, "server") == Some(Defaults["SERVER"])
  {
    UpperServer();
    assert "server" !in Defaults by { assert "server"[0] == 's'; }
  }

  /** Lower-case paths find the upper-case default sections: `get("server.port")` is 8080. */
  lemma ServerPortDefault()
    ensures Get(Defaults, "server.port", Null) == Int(8080)
  {
    ServerResolves();
    ServerPort();
    ServerPortPath();
    GetInside(Defaults, "server", "port", ServerDefaults, Null);
  }

  /** The default server section lists port 8080. */
  lemma ServerPort()
    ensures Get(ServerDefaults, "port", Null) == Int(8080)
  {
  }

  lemma ServerPortPath()
    ensures "server.port" == "server" + "." + "port"
  {
  }

  /** `get("a.b")` is `get("b")` inside the dictionary `a` resolves to. */
  lemma GetInside(config: Tree, a: string, b: string, inner: Tree, default: Value)
    requires '.' !in a && Resolve(config, a) == Some(Dict(inner))
    ensures Get(config, a + "." + b, default) == Get(inner, b, default)
  {
    GetDescends(config, a, b, default);
  }

  /** The exact key wins over its upper-case twin. */
  lemma ExactKeyFirst(fields: Tree, part: string, v: Value, w: Value)
    requires Upper(part) != part
    ensures Resolve(fields[part := v][Upper(part) := w], part) == Some(v)
  {
  }

  // ---------------------------------------------------------------------------
  // Attribute access
  // ---------------------------------------------------------------------------

  /** What attribute access yields: a namespace over a nested dictionary, or a plain value. */
  datatype Attr = Namespace(fields: Tree) | Plain(value: Value)

  /**
   `Config.__getattr__` and `_ConfigNamespace.__getattr__`: the same three-way
   precedence as `get`, dictionaries wrapped for further dotted access, and
   `AttributeError` (`Failure`) when nothing matches.
   */
  function Attribute(fields: Tree, item: string): (r: Result<Attr>)
    ensures r.Failure? <==> Resolve(fields, item).None?
    ensures r.Success? && r.value.Namespace? ==> Resolve(fields, item) == Some(Dict(r.value.fields))
    ensures r.Success? && r.value.Plain? ==> Resolve(fields, item) == Some(r.value.value) && !r.value.value.Dict?
  {
    match Resolve(fields, item)
    case None => Failure("No attribute '" + item + "' in config section")
    case Some(v) => if v.Dict? then Success(Namespace(v.fields)) else Success(Plain(v))
  }

  /** `_ConfigNamespace.get(key, default)`: attribute access with `AttributeError` turned into `default`. */
  function NamespaceGet(fields: Tree, key: string, default: Attr): (r: Attr)
    ensures Resolve(fields, key).None? ==> r == default
    ensures Resolve(fields, key).Some? ==> Attribute(fields, key) == Success(r)
  {
    match Attribute(fields, key)
    case Failure(_) => default
    case Success(a) => a
  }

  /** Attribute access and `get` agree on single-level names. */
  lemma AttributeMatchesGet(fields: Tree, item: string, default: Value)
    requires '.' !in item && Resolve(fields, item).Some?
    ensures Attribute(fields, item).Success?
    ensures var a := Attribute(fields, item).value;
      Get(fields, item, default) == (if a.Namespace? then Dict(a.fields) else a.value)
  {
  }

  // ---------------------------------------------------------------------------
  // Environment overrides
  // ---------------------------------------------------------------------------

  /** One row of the override table: the variable and the `(section, key)` it writes. */
  datatype Override = Override(variable: string, section: string, key: string)

  /** The table of `_apply_env_overrides`, in its order. */
  const EnvMap: seq<Override> := [
    Override("AZURE_OPENAI_API_KEY", "API_KEYS", "OPENAI"),
    Override("OPENAI_API_KEY", "API_KEYS", "OPENAI"),
    Override("AZURE_OPENAI_ENDPOINT", "API_ENDPOINTS", "OPENAI"),
    Override("AZURE_OPENAI_DEPLOYMENT", "LLM", "model"),
    Override("GOOGLE_API_KEY", "API_KEYS", "GOOGLE_SEARCH"),
    Override("GOOGLE_CSE_ID", "API_KEYS", "GOOGLE_SEARCH_ENGINE_ID"),
    Override("TAVILY_API_KEY", "API_KEYS", "TAVILY")
  ]

  /** `os.getenv(variable)` is set and non-empty. */
  predicate Applies(o: Override, env: map<string, string>) {
    o.variable in env && env[o.variable] != ""
  }

  /** An applicable override whose section exists but is not a dictionary: item assignment raises. */
  predicate Blocked(config: Tree, o: Override, env: map<string, string>) {
    Applies(o, env) && o.section in config && !config[o.section].Dict?
  }

  /** One row: skip unset variables, create a missing section, then write the key. */
  function ApplyOne(config: Tree, o: Override, env: map<string, string>): (r: Option<Tree>)
    ensures r.None? <==> Blocked(config, o, env)
    ensures r.Some? && !Applies(o, env) ==> r.value == config
    ensures r.Some? ==> r.value.Keys == config.Keys + (if Applies(o, env) then {o.section} else {})
    ensures r.Some? ==> forall s :: s in config && s != o.section ==> r.value[s] == config[s]
    ensures r.Some? && Applies(o, env) ==>
      && r.value[o.section].Dict?
      && r.value[o.section].fields.Keys == (if o.section in config then config[o.section].fields.Keys else {}) + {o.key}
      && r.value[o.section].fields[o.key] == Str(env[o.variable])
      && forall j :: j in r.value[o.section].fields && j != o.key ==>
           r.value[o.section].fields[j] == config[o.section].fields[j]
  {
    if !Applies(o, env) then Some(config)
    else
      var section := if o.section in config then config[o.section] else Dict(map[]);
      if !section.Dict? then None
      else Some(config[o.section := Dict(section.fields[o.key := Str(env[o.variable])])])
  }

  /** `_apply_env_overrides`: the rows in table order; `None` when one of them raises. */
  function ApplyOverrides(config: Tree, table: seq<Override>, env: map<string, string>): Option<Tree>
    decreases |table|
  {
    if |table| == 0 then Some(config)
    else match ApplyOne(config, table[0], env)
      case None => None
      case Some(next) => ApplyOverrides(next, table[1..], env)
  }

  /** The value that ends up at `(section, key)`: the last applicable row targeting it. */
  function Winner(table: seq<Override>, env: map<string, string>, section: string, key: string): Option<string>
    decreases |table|
  {
    if |table| == 0 then None
    else
      var later := Winner(table[1..], env, section, key);
      if later.Some? then later
      else if Applies(table[0], env) && table[0].section == section && table[0].key == key then
        Some(env[table[0].variable])
      else None
  }

  /** The entry at `(section, key)`, when the section is a dictionary holding the key. */
  function Entry(config: Tree, section: string, key: string): Option<Value> {
    if section in config && config[section].Dict? && key in config[section].fields then
      Some(config[section].fields[key])
    else None
  }

  /** A row leaves every other row's blocked status as it was, unless it raised itself. */
  lemma ApplyOneKeepsBlocked(config: Tree, o: Override, p: Override, env: map<string, string>)
    requires ApplyOne(config, o, env).Some?
    ensures Blocked(ApplyOne(config, o, env).value, p, env) <==> Blocked(config, p, env)
  {
  }

  /**
   The overrides raise exactly when some applicable row names a section that
   exists and is not a dictionary: a row only ever creates or extends
   dictionaries, so the rows before it cannot cause or prevent that.
   */
  lemma {:induction false} OverridesFailIff(config: Tree, table: seq<Override>, env: map<string, string>)
    ensures ApplyOverrides(config, table, env).None? <==>
      exists k :: 0 <= k < |table| && Blocked(config, table[k], env)
    decreases |table|
  {
    if |table| > 0 && !Blocked(config, table[0], env) {
      var next := ApplyOne(config, table[0], env).value;
      OverridesFailIff(next, table[1..], env);
      forall k | 0 <= k < |table| ensures Blocked(config, table[k], env) <==> (k > 0 && Blocked(next, table[1..][k - 1], env)) {
        if k > 0 {
          assert table[1..][k - 1] == table[k];
          ApplyOneKeepsBlocked(config, table[0], table[k], env);
        }
      }
      if exists k :: 0 <= k < |table| && Blocked(config, table[k], env) {
        var k :| 0 <= k < |table| && Blocked(config, table[k], env);
        assert Blocked(next, table[1..][k - 1], env);
      }
    }
  }

  /**
   After the overrides, each targeted entry holds the value of the last
   applicable row for it, and every entry no applicable row targets is as it was.
   */
  lemma {:induction false} OverridesLastWins(config: Tree, table: seq<Override>, env: map<string, string>, section: string, key: string)
    requires ApplyOverrides(config, table, env).Some?
    ensures var r := ApplyOverrides(config, table, env).value;
      Winner(table, env, section, key).Some? ==> Entry(r, section, key) == Some(Str(Winner(table, env, section, key).value))
    ensures var r := ApplyOverrides(config, table, env).value;
      Winner(table, env, section, key).None? ==> Entry(r, section, key) == Entry(config, section, key)
    decreases |table|
  {
    if |table| > 0 {
      var next := ApplyOne(config, table[0], env).value;
      OverridesLastWins(next, table[1..], env, section, key);
    }
  }

  /** Sections no applicable row names are left exactly as they were. */
  lemma {:induction false} OverridesLeaveOtherSections(config: Tree, table: seq<Override>, env: map<string, string>, section: string)
    requires ApplyOverrides(config, table, env).Some?
    requires forall k :: 0 <= k < |table| && Applies(table[k], env) ==> table[k].section != section
    ensures var r := ApplyOverrides(config, table, env).value;
      (section in r <==> section in config) && (section in config ==> r[section] == config[section])
    decreases |table|
  {
    if |table| > 0 {
      var next := ApplyOne(config, table[0], env).value;
      forall k | 0 <= k < |table[1..]| && Applies(table[1..][k], env) ensures table[1..][k].section != section {
        assert table[1..][k] == table[k + 1];
      }
      OverridesLeaveOtherSections(next, table[1..], env, section);
    }
  }

  /** With nothing set in the environment the configuration is untouched. */
  lemma {:induction false} NoEnvNoChange(config: Tree, table: seq<Override>)
    ensures ApplyOverrides(config, table, map[]) == Some(config)
    decreases |table|
  {
    if |table| > 0 {
      NoEnvNoChange(config, table[1..]);
    }
  }

  /** When both OpenAI variables are set, `OPENAI_API_KEY` is the one that sticks. */
  lemma OpenAiKeyBeatsAzureKey(config: Tree, env: map<string, string>)
    requires ApplyOverrides(config, EnvMap, env).Some?
    requires Applies(EnvMap[1], env)
    ensures Entry(ApplyOverrides(config, EnvMap, env).value, "API_KEYS", "OPENAI") == Some(Str(env["OPENAI_API_KEY"]))
  {
    OverridesLastWins(config, EnvMap, env, "API_KEYS", "OPENAI");
    var rest := EnvMap[2..];
    LaterRowsMissOpenAiKey();
    UntargetedHasNoWinner(rest, env, "API_KEYS", "OPENAI");
    assert EnvMap[1..][1..] == rest;
  }

  /** No row after `OPENAI_API_KEY` writes the OpenAI key. */
  lemma LaterRowsMissOpenAiKey()
    ensures forall i :: 2 <= i < |EnvMap| ==> EnvMap[i].section != "API_KEYS" || EnvMap[i].key != "OPENAI"
  {
    assert "API_ENDPOINTS"[4] != "API_KEYS"[4];
    assert "LLM"[0] != "API_KEYS"[0];
    assert "GOOGLE_SEARCH"[0] != "OPENAI"[0];
    assert "GOOGLE_SEARCH_ENGINE_ID"[0] != "OPENAI"[0];
    assert "TAVILY"[0] != "OPENAI"[0];
  }

  /** A table none of whose rows targets `(section, key)` has no winner there. */
  lemma {:induction false} UntargetedHasNoWinner(table: seq<Override>, env: map<string, string>, section: string, key: string)
    requires forall i :: 0 <= i < |table| ==> table[i].section != section || table[i].key != key
    ensures Winner(table, env, section, key).None?
    decreases |table|
  {
    if |table| > 0 {
      assert forall i :: 0 <= i < |table[1..]| ==> table[1..][i] == table[i + 1];
      UntargetedHasNoWinner(table[1..], env, section, key);
    }
  }

  /**
   An applicable override row names a section that the user's file sets to
   something other than a mapping.
   */
  predicate UserBlocksOverride(user: Value, env: map<string, string>) {
    user.Dict? &&
    exists k :: 0 <= k < |EnvMap| && Applies(EnvMap[k], env)
      && EnvMap[k].section in user.fields && !user.fields[EnvMap[k].section].Dict?
  }

  /**
   `_load_config` after the file is parsed: merge over the defaults, then
   apply the overrides. Loading fails exactly when the file is not a mapping,
   or when it replaces a section that a set variable writes into by something
   that is not a mapping. On success every default section and every section
   of the file is present, each entry a set variable targets holds the last
   such variable's value, every other entry is the merged one, and a section
   no set variable writes into is exactly the merged section.
   */
  function LoadConfig(user: Value, env: map<string, string>): (r: Result<Tree>)
    ensures r.Success? ==> DefaultSections <= r.value.Keys
    ensures r.Failure? <==> (Truthy(user) && !user.Dict?) || UserBlocksOverride(user, env)
    ensures r.Failure? <==>
      MergeUserConfig(user).Failure? || ApplyOverrides(MergeUserConfig(user).value, EnvMap, env).None?
    ensures r.Success? ==> MergeUserConfig(user).Success? && Overridden(MergeUserConfig(user).value, env, r.value)
  {
    LoadFailsIff(user, env);
    ApplyEnvironment(MergeUserConfig(user), env)
  }

  /** The override step of `_load_config`, once the merge has gone through. */
  function ApplyEnvironment(merged: Result<Tree>, env: map<string, string>): (r: Result<Tree>)
    ensures r.Failure? <==> merged.Failure? || ApplyOverrides(merged.value, EnvMap, env).None?
    ensures r.Success? ==> merged.Success? && Overridden(merged.value, env, r.value)
  {
    match merged
    case Failure(e) => Failure(e)
    case Success(config) =>
      match ApplyOverrides(config, EnvMap, env)
      case None => Failure("configuration section is not a mapping")
      case Some(result) =>
        OverridesWinEverywhere(config, env);
        Success(result)
  }

  /** The overrides fail exactly when the user's file blocks one of them. */
  lemma LoadFailsIff(user: Value, env: map<string, string>)
    ensures MergeUserConfig(user).Success? ==>
      (ApplyOverrides(MergeUserConfig(user).value, EnvMap, env).None? <==> UserBlocksOverride(user, env))
  {
    if MergeUserConfig(user).Failure? { return; }
    var merged := MergeUserConfig(user).value;
    OverrideSectionsAreDictionaries();
    OverridesFailIff(merged, EnvMap, env);
    if user.Dict? {
      OnlyUpdatesBlock(Defaults, user.fields, EnvMap, env);
    } else {
      NothingBlocksDefaults(EnvMap, env);
    }
  }

  /**
   Over a tree whose targeted sections are all dictionaries, a merged tree
   blocks a row exactly when the updates replace its section by a non-mapping.
   */
  lemma OnlyUpdatesBlock(d: Tree, u: Tree, table: seq<Override>, env: map<string, string>)
    requires forall k :: 0 <= k < |table| ==> table[k].section in d && d[table[k].section].Dict?
    ensures forall k :: 0 <= k < |table| ==>
      (Blocked(Merge(d, u), table[k], env) <==>
       Applies(table[k], env) && table[k].section in u && !u[table[k].section].Dict?)
  {
  }

  /** The default sections the table targets block no row. */
  lemma NothingBlocksDefaults(table: seq<Override>, env: map<string, string>)
    requires forall k :: 0 <= k < |table| ==> table[k].section in Defaults && Defaults[table[k].section].Dict?
    ensures forall k :: 0 <= k < |table| ==> !Blocked(Defaults, table[k], env)
  {
  }

  /**
   `r` is `config` with the environment applied: no section is lost, each
   entry a set variable targets holds the last such variable's value, every
   other entry is as it was, and a section no set variable writes into is
   as it was, present exactly when it was before.
   */
  ghost predicate Overridden(config: Tree, env: map<string, string>, r: Tree) {
    && config.Keys <= r.Keys
    && (forall s, k :: Winner(EnvMap, env, s, k).Some? ==> Entry(r, s, k) == Some(Str(Winner(EnvMap, env, s, k).value)))
    && (forall s, k :: Winner(EnvMap, env, s, k).None? ==> Entry(r, s, k) == Entry(config, s, k))
    && (forall s :: Untargeted(env, s) ==> (s in r <==> s in config) && (s in config ==> r[s] == config[s]))
  }

  /** No override row that applies writes into section `s`. */
  ghost predicate Untargeted(env: map<string, string>, s: string) {
    forall i :: 0 <= i < |EnvMap| && Applies(EnvMap[i], env) ==> EnvMap[i].section != s
  }

  /** What `OverridesLastWins` says, for every target at once. */
  lemma OverridesWinEverywhere(config: Tree, env: map<string, string>)
    requires ApplyOverrides(config, EnvMap, env).Some?
    ensures Overridden(config, env, ApplyOverrides(config, EnvMap, env).value)
  {
    OverridesKeepSections(config, EnvMap, env);
    forall s, k {
      OverridesLastWins(config, EnvMap, env, s, k);
    }
    forall s | Untargeted(env, s) {
      OverridesLeaveOtherSections(config, EnvMap, env, s);
    }
  }

  /**
   A setting the user's file makes inside a section reads back after loading
   unless a set variable targets it.
   */
  lemma LoadConfigKeepsUserKeys(user: Value, env: map<string, string>, s: string, j: string)
    requires user.Dict? && LoadConfig(user, env).Success?
    requires s in user.fields && user.fields[s].Dict? && j in user.fields[s].fields && !user.fields[s].fields[j].Dict?
    requires Winner(EnvMap, env, s, j).None?
    ensures Entry(LoadConfig(user, env).value, s, j) == Some(user.fields[s].fields[j])
  {
    var merged := MergeUserConfig(user).value;
    assert Entry(merged, s, j) == Some(user.fields[s].fields[j]);
  }

  /** A top-level setting of the file that is not a mapping reads back after loading unless a set variable writes into it. */
  lemma LoadConfigKeepsTopLevel(user: Value, env: map<string, string>, s: string)
    requires user.Dict? && LoadConfig(user, env).Success?
    requires s in user.fields && !user.fields[s].Dict? && Untargeted(env, s)
    ensures s in LoadConfig(user, env).value && LoadConfig(user, env).value[s] == user.fields[s]
  {
  }

  /** A set `TAVILY_API_KEY` ends up as the Tavily key, whatever the file says. */
  lemma LoadConfigOverridesWin(user: Value, env: map<string, string>)
    requires LoadConfig(user, env).Success?
    requires "TAVILY_API_KEY" in env && env["TAVILY_API_KEY"] != ""
    ensures Entry(LoadConfig(user, env).value, "API_KEYS", "TAVILY") == Some(Str(env["TAVILY_API_KEY"]))
  {
    LastRowWins(EnvMap, env);
  }

  /** A row that applies is the winner for its target when it is the table's last row. */
  lemma {:induction false} LastRowWins(table: seq<Override>, env: map<string, string>)
    requires |table| > 0 && Applies(table[|table| - 1], env)
    ensures var last := table[|table| - 1];
      Winner(table, env, last.section, last.key) == Some(env[last.variable])
    decreases |table|
  {
    if |table| > 1 {
      assert table[1..][|table[1..]| - 1] == table[|table| - 1];
      LastRowWins(table[1..], env);
    }
  }

  /** The overrides never remove a section. */
  lemma {:induction false} OverridesKeepSections(config: Tree, table: seq<Override>, env: map<string, string>)
    requires ApplyOverrides(config, table, env).Some?
    ensures config.Keys <= ApplyOverrides(config, table, env).value.Keys
    decreases |table|
  {
    if |table| > 0 {
      OverridesKeepSections(ApplyOne(config, table[0], env).value, table[1..], env);
    }
  }

  /** The sections the override table writes are all dictionaries in the defaults. */
  lemma OverrideSectionsAreDictionaries()
    ensures forall k :: 0 <= k < |EnvMap| ==> EnvMap[k].section in Defaults && Defaults[EnvMap[k].section].Dict?
  {
  }

  /** An empty configuration file loads under every environment. */
  lemma EmptyFileAlwaysLoads(env: map<string, string>)
    ensures LoadConfig(Null, env).Success?
  {
    OverrideSectionsAreDictionaries();
    OverridesFailIff(Defaults, EnvMap, env);
  }

  // ---------------------------------------------------------------------------
  // Logging flags
  // ---------------------------------------------------------------------------

  const RestApiFlag := "LOG_REST_API"
  const PromptsFlag := "LOG_PROMPTS"

  /**
   `get_logging_rest_api` / `get_logging_prompts`: true only for the exact
   string `"true"`; a missing `LOGGING` section or flag raises (`None`).
   */
  function GetFlag(config: Tree, flag: string): (r: Option<bool>)
    ensures r.Some? <==> "LOGGING" in config && config["LOGGING"].Dict? && flag in config["LOGGING"].fields
    ensures r == Some(true) ==> config["LOGGING"].fields[flag] == Str("true")
    ensures r.Some? ==> (r.value <==> config["LOGGING"].fields[flag] == Str("true"))
  {
    if "LOGGING" in config && config["LOGGING"].Dict? && flag in config["LOGGING"].fields then
      Some(config["LOGGING"].fields[flag] == Str("true"))
    else None
  }

  /**
   `set_logging_rest_api(value)` / `set_logging_prompts(value)`: store `"true"`
   or `"false"` by the truth of `value`; a missing `LOGGING` section raises.
   */
  function SetFlag(config: Tree, flag: string, value: Value): (r: Option<Tree>)
    ensures r.Some? <==> "LOGGING" in config && config["LOGGING"].Dict?
    ensures r.Some? ==> r.value.Keys == config.Keys
    ensures r.Some? ==> forall s :: s in config && s != "LOGGING" ==> r.value[s] == config[s]
    ensures r.Some? ==> Entry(r.value, "LOGGING", flag) == Some(Str(if Truthy(value) then "true" else "false"))
    ensures r.Some? ==> forall j :: j != flag ==> Entry(r.value, "LOGGING", j) == Entry(config, "LOGGING", j)
  {
    if "LOGGING" in config && config["LOGGING"].Dict? then
      var section := config["LOGGING"].fields;
      Some(config["LOGGING" := Dict(section[flag := Str(if Truthy(value) then "true" else "false")])])
    else None
  }

  /** Round trip: setting a flag and reading it back gives the truth of the value set. */
  lemma FlagRoundTrip(config: Tree, flag: string, value: Value)
    requires SetFlag(config, flag, value).Some?
    ensures GetFlag(SetFlag(config, flag, value).value, flag) == Some(Truthy(value))
  {
  }

  /** Setting one flag leaves the other as it was. */
  lemma FlagsIndependent(config: Tree, value: Value)
    requires SetFlag(config, PromptsFlag, value).Some?
    ensures GetFlag(SetFlag(config, PromptsFlag, value).value, RestApiFlag) == GetFlag(config, RestApiFlag)
  {
  }

  /** Only the exact lower-case string reads as true: `"True"` reads as false. */
  lemma OnlyExactTrue(config: Tree, flag: string)
    requires "LOGGING" in config && config["LOGGING"].Dict?
    ensures GetFlag(config["LOGGING" := Dict(config["LOGGING"].fields[flag := Str("True")])], flag) == Some(false)
  {
    assert Str("True") != Str("true") by { assert "True"[0] != "true"[0]; }
  }

  /** Out of the box both flags read as false. */
  lemma FlagsDefaultOff()
    ensures GetFlag(Defaults, RestApiFlag) == Some(false)
    ensures GetFlag(Defaults, PromptsFlag) == Some(false)
  {
    assert Str("false") != Str("true") by { assert "false"[0] != "true"[0]; }
  }
}

=== FILE: decision.dfy ===
/**
 The decision agent's handling of the model's answer: the shape check that
 accepts a JSON object carrying string `decision` and `reasoning` fields, and
 the forgiving parse that fills in defaults. JSON parsing itself is left to
 the caller: `parse` returns the decoded value, or `None` when the text is
 not JSON.
 */
module Decision {
  import opened Common
  import opened Values

  /** `validate_response`'s answer: `False`, or the response text itself. */
  datatype Verdict = Rejected | Accepted(response: string)

  /** The field is present and holds a string. */
  predicate HasText(fields: map<string, Value>, key: string) {
    key in fields && fields[key].Str?
  }

  /** `validate_response(response)`. */
  function ValidateResponse(response: string, parse: string -> Option<Value>): (r: Verdict)
    ensures r.Accepted? <==>
      parse(response).Some? && parse(response).value.Dict? &&
      HasText(parse(response).value.fields, "decision") && HasText(parse(response).value.fields, "reasoning")
    ensures r.Accepted? ==> r.response == response
  {
    match parse(response)
    case None => Rejected
    case Some(data) =>
      if !data.Dict? then Rejected
      else if !HasText(data.fields, "decision") then Rejected
      else if !HasText(data.fields, "reasoning") then Rejected
      else Accepted(response)
  }

  /** The structured decision `parse_response` returns. */
  datatype Parsed = Parsed(decision: Value, reasoning: Value, metadata: Value)

  const Apology := "I apologize, but I encountered an error while making the decision."

  /** What `parse_response` returns when the text is not JSON or not an object. */
  const Fallback := Parsed(Str(""), Str(Apology), Dict(map[]))

  /** `data.get(key, default)`. */
  function Field(fields: map<string, Value>, key: string, default: Value): (r: Value)
    ensures key in fields ==> r == fields[key]
    ensures key !in fields ==> r == default
  {
    DictGet(fields, key).GetOr(default)
  }

  /**
   `parse_response(response)`: the three fields of a JSON object, defaulting
   to `""`, `""` and `{}`; the apology when parsing fails or the value has no
   `.get` (any non-object).
   */
  function ParseResponse(response: string, parse: string -> Option<Value>): (r: Parsed)
    ensures parse(response).None? || !parse(response).value.Dict? ==> r == Fallback
    ensures parse(response).Some? && parse(response).value.Dict? ==>
      var fields := parse(response).value.fields;
      && r.decision == Field(fields, "decision", Str(""))
      && r.reasoning == Field(fields, "reasoning", Str(""))
      && r.metadata == Field(fields, "metadata", Dict(map[]))
  {
    match parse(response)
    case Some(Dict(fields)) =>
      Parsed(Field(fields, "decision", Str("")), Field(fields, "reasoning", Str("")), Field(fields, "metadata", Dict(map[])))
    case _ => Fallback
  }

  /** An accepted response parses to the very strings the check saw, never to the apology. */
  lemma AcceptedParsesFaithfully(response: string, parse: string -> Option<Value>)
    requires ValidateResponse(response, parse).Accepted?
    ensures var fields := parse(response).value.fields;
      ParseResponse(response, parse).decision == fields["decision"] &&
      ParseResponse(response, parse).reasoning == fields["reasoning"]
    ensures ParseResponse(response, parse).decision.Str? && ParseResponse(response, parse).reasoning.Str?
  {
  }

  /** Whatever the check rejects because the text is unparseable or not an object parses to the apology. */
  lemma UnparseableMeansApology(response: string, parse: string -> Option<Value>)
    requires parse(response).None? || !parse(response).value.Dict?
    ensures ValidateResponse(response, parse) == Rejected
    ensures ParseResponse(response, parse).reasoning == Str(Apology)
  {
  }

  /** Extra keys do not matter to the check. */
  lemma ExtraKeysAllowed(fields: map<string, Value>, key: string, v: Value, response: string, parse: string -> Option<Value>)
    requires key != "decision" && key != "reasoning"
    requires parse(response) == Some(Dict(fields[key := v]))
    requires HasText(fields, "decision") && HasText(fields, "reasoning")
    ensures ValidateResponse(response, parse) == Accepted(response)
  {
  }

  /** A non-string decision is rejected by the check, yet passed through by the parse. */
  lemma NonStringDecisionOnlyParses(fields: map<string, Value>, response: string, parse: string -> Option<Value>)
    requires "decision" in fields && !fields["decision"].Str?
    requires parse(response) == Some(Dict(fields))
    ensures ValidateResponse(response, parse) == Rejected
    ensures ParseResponse(response, parse).decision == fields["decision"]
  {
  }
}

=== FILE: llm.dfy ===
/**
 The LLM front door: the display-name lookup of the model table, the token
 accounting around every call, and the order of those effects in
 `inference`. Token counting, the per-project usage store and the model
 adapter are outside this model: they arrive as functions, and the effects
 on the usage store and the UI channel are recorded as a log of events.
 */
module Llm {
  import opened Common

  /** A provider and its models, each a `(display name, API name)` pair. */
  type Provider = (string, seq<(string, string)>)

  /** `self.models`: one Azure OpenAI model. */
  const Models: seq<Provider> := [("AZURE_OPENAI", [("GPT-4o", "gpt-4o")])]

  /** `(provider, API name)` for the display name `name` at `(i, j)` of `models`. */
  predicate Lists(models: seq<Provider>, name: string, i: int, j: int) {
    0 <= i < |models| && 0 <= j < |models[i].1| && models[i].1[j].0 == name
  }

  /** The models of one provider, in order, last entry winning among equal display names. */
  function FindIn(provider: string, entries: seq<(string, string)>, name: string, found: Option<(string, string)>): (r: Option<(string, string)>)
    ensures r.Some? <==> found.Some? || exists j :: 0 <= j < |entries| && entries[j].0 == name
    ensures r.Some? && r != found ==>
      exists j :: 0 <= j < |entries| && entries[j].0 == name && r.value == (provider, entries[j].1)
    ensures (forall j :: 0 <= j < |entries| ==> entries[j].0 != name) ==> r == found
    ensures forall j ::
      (0 <= j < |entries| && entries[j].0 == name && forall j' :: j < j' < |entries| ==> entries[j'].0 != name) ==>
        r == Some((provider, entries[j].1))
    decreases |entries|
  {
    if |entries| == 0 then found
    else
      var next := if entries[0].0 == name then Some((provider, entries[0].1)) else found;
      var r := FindIn(provider, entries[1..], name, next);
      assert forall j :: 0 < j < |entries| ==> entries[j] == entries[1..][j - 1];
      r
  }

  /** The dictionary comprehension of `model_enum`, built provider by provider. */
  function FindAll(models: seq<Provider>, name: string, found: Option<(string, string)>): (r: Option<(string, string)>)
    ensures r.Some? <==> found.Some? || exists i, j :: Lists(models, name, i, j)
    ensures r.Some? && r != found ==>
      exists i, j :: Lists(models, name, i, j) && r.value == (models[i].0, models[i].1[j].1)
    decreases |models|
  {
    if |models| == 0 then found
    else
      var next := FindIn(models[0].0, models[0].1, name, found);
      var r := FindAll(models[1..], name, next);
      assert r.Some? <==> found.Some? || exists i, j :: Lists(models, name, i, j) by {
        if exists i, j :: Lists(models, name, i, j) {
          var i, j :| Lists(models, name, i, j);
          if i > 0 { assert Lists(models[1..], name, i - 1, j); }
        }
        if exists i, j :: Lists(models[1..], name, i, j) {
          var i, j :| Lists(models[1..], name, i, j);
          assert Lists(models, name, i + 1, j);
        }
        if next.Some? && found.None? {
          var j :| 0 <= j < |models[0].1| && models[0].1[j].0 == name;
          assert Lists(models, name, 0, j);
        }
      }
      assert r.Some? && r != found ==>
        exists i, j :: Lists(models, name, i, j) && r.value == (models[i].0, models[i].1[j].1) by {
        if r.Some? && r != found {
          if r != next {
            var i, j :| Lists(models[1..], name, i, j) && r.value == (models[1..][i].0, models[1..][i].1[j].1);
            assert Lists(models, name, i + 1, j);
          } else {
            var j :| 0 <= j < |models[0].1| && models[0].1[j].0 == name && r.value == (models[0].0, models[0].1[j].1);
            assert Lists(models, name, 0, j);
          }
        }
      }
      r
  }

  /**
   `model_enum(model_name)`: the provider and API name listed under the
   display name, or `None` (`(None, None)`) when no model has that display
   name; a missing `model_id` is looked up like any other key and misses.
   */
  function ModelEnum(models: seq<Provider>, modelId: Option<string>): (r: Option<(string, string)>)
    ensures modelId.None? ==> r.None?
    ensures modelId.Some? ==> (r.Some? <==> exists i, j :: Lists(models, modelId.value, i, j))
    ensures r.Some? ==> exists i, j :: Lists(models, modelId.value, i, j) && r.value == (models[i].0, models[i].1[j].1)
  {
    if modelId.None? then None else FindAll(models, modelId.value, None)
  }

  /** The only model is looked up by its display name. */
  lemma DisplayNameResolves()
    ensures ModelEnum(Models, Some("GPT-4o")) == Some(("AZURE_OPENAI", "gpt-4o"))
  {
    assert Lists(Models, "GPT-4o", 0, 0);
  }

  /** The API name is not a display name, so it does not resolve. */
  lemma ApiNameDoesNotResolve()
    ensures ModelEnum(Models, Some("gpt-4o")) == None
  {
    assert "gpt-4o" != "GPT-4o" by { assert "gpt-4o"[0] != "GPT-4o"[0]; }
  }

  // ---------------------------------------------------------------------------
  // Token accounting
  // ---------------------------------------------------------------------------

  /** What the accounting does: charge the usage store, or emit a running total to the UI. */
  datatype Event = Charge(project: string, tokens: nat) | Emit(total: int)

  /**
   The collaborators: the tokenizer's count, the usage store's latest value
   for a project after a given history of charges, and the model adapter.
   */
  datatype Services = Services(
    count: string -> nat,
    latest: (seq<Event>, string) -> int,
    adapter: (string, string) -> Result<string>)

  /**
   `update_global_token_usage(text, project)`: charge the store with the
   text's token count, then emit the store's latest value plus that count.
   */
  function UpdateUsage(s: Services, log: seq<Event>, text: string, project: string): (r: seq<Event>)
    ensures |r| == |log| + 2 && r[..|log|] == log
    ensures r[|log|] == Charge(project, s.count(text))
    ensures r[|log| + 1] == Emit(s.latest(r[..|log| + 1], project) + s.count(text))
  {
    var n := s.count(text);
    var charged := log + [Charge(project, n)];
    assert charged[..|log|] == log;
    charged + [Emit(s.latest(charged, project) + n)]
  }

  /** The number of charges in a log. */
  function Charges(log: seq<Event>): nat {
    if |log| == 0 then 0 else Charges(log[..|log| - 1]) + (if log[|log| - 1].Charge? then 1 else 0)
  }

  /** One usage update adds exactly one charge. */
  lemma {:induction false} UpdateUsageChargesOnce(s: Services, log: seq<Event>, text: string, project: string)
    ensures Charges(UpdateUsage(s, log, text, project)) == Charges(log) + 1
  {
    var r := UpdateUsage(s, log, text, project);
    assert r[..|r| - 1][..|r| - 2] == log;
  }

  /** The outcome of `inference`, with the events it caused. */
  datatype Inference = Inference(result: Result<string>, log: seq<Event>)

  /**
   `inference(prompt, project)`: charge the prompt, then look the model up
   (an unknown model or provider raises `ValueError`), call the adapter (its
   exception propagates), and charge the response before returning it.
   */
  function Infer(s: Services, log: seq<Event>, modelId: Option<string>, prompt: string, project: string): (r: Inference)
    ensures |r.log| >= |log| + 2 && r.log[..|log|] == log
    ensures r.log[|log|] == Charge(project, s.count(prompt))
    ensures ModelEnum(Models, modelId).None? ==> r.result.Failure?
    ensures r.result.Failure? <==> |r.log| == |log| + 2
    ensures r.result.Success? ==>
      && ModelEnum(Models, modelId).Some?
      && r.result == s.adapter(ModelEnum(Models, modelId).value.1, prompt)
      && |r.log| == |log| + 4
      && r.log[|log| + 2] == Charge(project, s.count(r.result.value))
    ensures var found := ModelEnum(Models, modelId);
      found.Some? && found.value.0 == "AZURE_OPENAI" && s.adapter(found.value.1, prompt).Success? ==>
        r.result == s.adapter(found.value.1, prompt)
    ensures var found := ModelEnum(Models, modelId);
      found.Some? && found.value.0 != "AZURE_OPENAI" ==> r.result.Failure?
  {
    var charged := UpdateUsage(s, log, prompt, project);
    match ModelEnum(Models, modelId)
    case None => Inference(Failure("Model not supported"), charged)
    case Some((provider, apiName)) =>
      if provider != "AZURE_OPENAI" then Inference(Failure("Unsupported model enum: " + provider), charged)
      else
        match s.adapter(apiName, prompt)
        case Failure(e) => Inference(Failure(e), charged)
        case Success(response) =>
          var done := UpdateUsage(s, charged, response, project);
          assert done[..|log|] == log;
          Inference(Success(response), done)
  }

  /** A call charges the store twice when it succeeds and once, for the prompt, when it fails. */
  lemma InferCharges(s: Services, log: seq<Event>, modelId: Option<string>, prompt: string, project: string)
    ensures var r := Infer(s, log, modelId, prompt, project);
      Charges(r.log) == Charges(log) + (if r.result.Success? then 2 else 1)
  {
    var charged := UpdateUsage(s, log, prompt, project);
    UpdateUsageChargesOnce(s, log, prompt, project);
    var r := Infer(s, log, modelId, prompt, project);
    if r.result.Success? {
      UpdateUsageChargesOnce(s, charged, r.result.value, project);
    }
  }

  /** Asking for the model by its API name is rejected after the prompt has been charged. */
  lemma ApiNameRejectedAfterCharge(s: Services, log: seq<Event>, prompt: string, project: string)
    ensures var r := Infer(s, log, Some("gpt-4o"), prompt, project);
      r.result.Failure? && r.log == log + [Charge(project, s.count(prompt)), r.log[|log| + 1]]
  {
    ApiNameDoesNotResolve();
    var r := Infer(s, log, Some("gpt-4o"), prompt, project);
    assert r.log == r.log[..|log|] + [r.log[|log|], r.log[|log| + 1]];
  }

  /** With the display name, the adapter is asked for the API name and its answer comes back unchanged. */
  lemma DisplayNameReachesAdapter(s: Services, log: seq<Event>, prompt: string, project: string)
    ensures Infer(s, log, Some("GPT-4o"), prompt, project).result == s.adapter("gpt-4o", prompt)
  {
    DisplayNameResolves();
  }
}

=== FILE: search.dfy ===
/**
 The search engine front door: the two admission gates (daily quota, then the
 extended-backoff deadline), the DuckDuckGo scraping path with its persistent
 side effects, and the ordered fallback engines. The network, the clock, the
 random choices and the library decoders are all part of the `World` a call
 runs in.
 */
module Search {
  import opened Common
  import opened Values
  import opened Text
  import opened Identity
  import opened Incidents
  import opened DailyCounter
  import opened Extraction
  import opened Results

  // ---------------------------------------------------------------------------
  // Configuration, state and the outside world
  // ---------------------------------------------------------------------------

  /** One entry of `search_engines.fallbacks`: the engine's name and its `enabled` flag. */
  datatype Fallback = Fallback(name: string, enabled: bool)

  /** The settings the engine reads at start-up. */
  datatype SearchConfig = SearchConfig(
    primary: string,
    fallbacks: seq<Fallback>,
    policy: BackoffPolicy,
    dailyLimit: int,
    rotateEvery: int,
    regions: seq<string>)

  /** The `duckduckgo` section's defaults, for a given engine list. */
  function DefaultConfig(primary: string, fallbacks: seq<Fallback>): (r: SearchConfig)
    ensures r.policy == BackoffPolicy(600, 3, 1800)
    ensures r.dailyLimit == 100 && r.rotateEvery == 2 && r.regions == ["wt-wt", "us-en", "uk-en"]
  {
    SearchConfig(primary, fallbacks, DefaultPolicy, 100, 2, DefaultRegions)
  }

  /**
   The engine's mutable fields: the incident tracker, both request counters,
   the used user agents, the region index, the last success time, and the
   counter file's text (`None` while there is no file).
   */
  datatype SearchState = SearchState(
    tracker: Tracker,
    dailyCount: nat,
    requestCount: nat,
    used: set<string>,
    regionIndex: int,
    lastSuccess: int,
    saved: Option<string>)

  /** `__init__`: fresh tracking fields, and the daily count read back from the counter file. */
  function Init(saved: Option<string>, today: string): (r: SearchState)
    ensures r.requestCount == 0 && r.regionIndex == 0 && r.used == {} && r.lastSuccess == 0
    ensures r.tracker == InitialTracker && r.saved == saved
    ensures r.dailyCount == LoadCount(saved, today)
  {
    SearchState(InitialTracker, LoadCount(saved, today), 0, {}, 0, 0, saved)
  }

  /** An HTTP exchange: a status and body, or an exception raised by the transport. */
  datatype Reply = Reply(status: int, content: seq<byte>) | Unreachable

  /** What an engine adapter yields: a result list, or an exception. */
  datatype EngineReply = Found(results: seq<SearchResult>) | Failed

  /**
   Everything a call depends on beyond the engine's own state: the clock, the
   date, the two DuckDuckGo replies, the random choices, the fallback adapters
   and the library decoders.
   */
  datatype World = World(
    now: int,
    today: string,
    handshake: Reply,
    resultsPage: Reply,
    pick: nat,
    order: seq<string>,
    fallback: string -> EngineReply,
    decode: seq<byte> -> Option<string>,
    parseJson: seq<byte> -> Option<Value>,
    codecs: Codecs)

  // ---------------------------------------------------------------------------
  // DuckDuckGo
  // ---------------------------------------------------------------------------

  /**
   `_text_extract_json` followed by the loop's iteration: the payload must
   parse to a truthy value, and only a list can be walked row by row (iterating
   a dictionary or a string yields strings, on which `row.get` raises).
   */
  function PageRows(page: seq<byte>, parseJson: seq<byte> -> Option<Value>): (r: Option<seq<Value>>)
    ensures r.Some? ==> |r.value| > 0
    ensures r.Some? <==>
      && ExtractPayload(page).Some?
      && parseJson(ExtractPayload(page).value).Some?
      && parseJson(ExtractPayload(page).value).value.List?
      && |parseJson(ExtractPayload(page).value).value.items| > 0
    ensures r.Some? ==> parseJson(ExtractPayload(page).value) == Some(List(r.value))
    ensures ExtractPayload(page).None? ==> r.None?
  {
    match ExtractPayload(page)
    case None => None
    case Some(slice) =>
      match parseJson(slice)
      case None => None
      case Some(data) =>
        if !Truthy(data) then None
        else if data.List? then Some(data.items)
        else None
  }

  /** The state after a call and what the engine yielded. */
  datatype Attempt = Attempt(st: SearchState, reply: EngineReply)

  /** The header rotation: a fresh agent every `rotateEvery` successful requests. */
  function RotateAgent(st: SearchState, rotateEvery: int, w: World): (r: SearchState)
    requires rotateEvery != 0
    ensures r == st.(used := r.used)
    ensures st.requestCount % rotateEvery != 0 ==> r == st
    ensures st.requestCount % rotateEvery == 0 ==> r.used == FreshUserAgent(UserAgents, st.used, w.order, w.pick).used
    ensures r.used == st.used || r.used == FreshUserAgent(UserAgents, st.used, w.order, w.pick).used
  {
    if st.requestCount % rotateEvery == 0 then
      st.(used := FreshUserAgent(UserAgents, st.used, w.order, w.pick).used)
    else st
  }

  /** The handshake answered 200 and carried a non-empty `vqd` token. */
  predicate TokenFound(w: World) {
    && w.handshake.Reply? && w.handshake.status == 200
    && ExtractVqd(w.handshake.content, w.decode).Some?
    && ExtractVqd(w.handshake.content, w.decode).value != ""
  }

  /**
   Every step of `_duckduckgo_search` goes through: the token, a region, a
   usable rotation setting, a 200 results page whose payload is a non-empty
   list, and a row loop in which no row raises.
   */
  predicate Passes(cfg: SearchConfig, w: World, query: string, maxResults: int) {
    && TokenFound(w)
    && |cfg.regions| > 0 && cfg.rotateEvery != 0
    && w.resultsPage.Reply? && w.resultsPage.status == 200
    && PageRows(w.resultsPage.content, w.parseJson).Some?
    && Collect(PageRows(w.resultsPage.content, w.parseJson).value, query, maxResults, w.codecs).Some?
  }

  /**
   `_duckduckgo_search`: handshake, token, region, user agent, results page,
   payload and row loop, in that order. The region index and the used agents
   change as soon as those steps are reached and stay changed when a later
   step fails; the counters move, and the counter file is rewritten, only on
   success.
   */
  function DuckDuckGo(cfg: SearchConfig, st: SearchState, w: World, query: string, maxResults: int): (r: Attempt)
    ensures r.st.tracker == st.tracker
    ensures r.reply.Found? ==>
      && r.st.dailyCount == st.dailyCount + 1
      && r.st.requestCount == st.requestCount + 1
      && r.st.lastSuccess == w.now
      && r.st.saved == Some(CounterRecord(w.today, r.st.dailyCount))
    ensures r.reply.Failed? ==>
      && r.st.dailyCount == st.dailyCount
      && r.st.requestCount == st.requestCount
      && r.st.lastSuccess == st.lastSuccess
      && r.st.saved == st.saved
    ensures r.reply.Found? ==>
      && w.handshake.Reply? && w.handshake.status == 200
      && w.resultsPage.Reply? && w.resultsPage.status == 200
      && ExtractVqd(w.handshake.content, w.decode).Some?
      && ExtractVqd(w.handshake.content, w.decode).value != ""
      && |r.reply.results| <= Cap(maxResults)
    ensures r.reply.Found? <==> Passes(cfg, w, query, maxResults)
    ensures r.reply.Found? ==>
      r.reply.results == Collect(PageRows(w.resultsPage.content, w.parseJson).value, query, maxResults, w.codecs).value
    ensures r.st.regionIndex == st.regionIndex || (|cfg.regions| > 0 && r.st.regionIndex == (st.regionIndex + 1) % |cfg.regions|)
    ensures TokenFound(w) && |cfg.regions| > 0 ==> r.st.regionIndex == (st.regionIndex + 1) % |cfg.regions|
    ensures !(TokenFound(w) && |cfg.regions| > 0) ==> r.st == st && r.reply.Failed?
    ensures r.st.used == st.used || r.st.used == FreshUserAgent(UserAgents, st.used, w.order, w.pick).used
    ensures TokenFound(w) && |cfg.regions| > 0 && cfg.rotateEvery != 0 ==>
      r.st.used == (if st.requestCount % cfg.rotateEvery == 0 then FreshUserAgent(UserAgents, st.used, w.order, w.pick).used else st.used)
  {
    match w.handshake
    case Unreachable => Attempt(st, Failed)
    case Reply(status, content) =>
      if status != 200 then Attempt(st, Failed)
      else match ExtractVqd(content, w.decode)
        case None => Attempt(st, Failed)
        case Some(vqd) =>
          if vqd == "" then Attempt(st, Failed)
          else match RotateRegion(cfg.regions, st.regionIndex)
            case None => Attempt(st, Failed)
            case Some(choice) =>
              var st1 := st.(regionIndex := choice.index);
              if cfg.rotateEvery == 0 then Attempt(st1, Failed)
              else
                var st2 := RotateAgent(st1, cfg.rotateEvery, w);
                match w.resultsPage
                case Unreachable => Attempt(st2, Failed)
                case Reply(status2, page) =>
                  if status2 != 200 then Attempt(st2, Failed)
                  else match PageRows(page, w.parseJson)
                    case None => Attempt(st2, Failed)
                    case Some(rows) =>
                      match Collect(rows, query, maxResults, w.codecs)
                      case None => Attempt(st2, Failed)
                      case Some(results) =>
                        var count := st2.dailyCount + 1;
                        var st3 := st2.(
                          lastSuccess := w.now,
                          requestCount := st2.requestCount + 1,
                          dailyCount := count,
                          saved := Some(CounterRecord(w.today, count)));
                        Attempt(st3, Found(results))
  }

  /**
   The user agent is refreshed on every `rotateEvery`-th successful request
   and only then: on such a request the agent sent is a pool member recorded
   as used, and it is one not used before while any such remains; on every
   other request the used agents stay as they were.
   */
  lemma RotatesOnCadence(cfg: SearchConfig, st: SearchState, w: World, query: string, maxResults: int)
    requires TokenFound(w) && |cfg.regions| > 0 && cfg.rotateEvery != 0
    ensures var r := DuckDuckGo(cfg, st, w, query, maxResults);
      var choice := FreshUserAgent(UserAgents, st.used, w.order, w.pick);
      st.requestCount % cfg.rotateEvery == 0 ==>
        && choice.agent in UserAgents && choice.agent in r.st.used
        && (|Unused(UserAgents, st.used)| > 0 ==> choice.agent !in st.used && r.st.used == st.used + {choice.agent})
    ensures st.requestCount % cfg.rotateEvery != 0 ==> DuckDuckGo(cfg, st, w, query, maxResults).st.used == st.used
  {
    UserAgentsDiverse();
    AgentFromPool(UserAgents, st.used, w.order, w.pick);
  }

  /**
   Every DuckDuckGo result is a row the filter keeps, in row order: the
   results are a prefix of the kept rows, at most the cap, and none has an
   empty body.
   */
  lemma DuckDuckGoResultsFromRows(cfg: SearchConfig, st: SearchState, w: World, query: string, maxResults: int)
    requires DuckDuckGo(cfg, st, w, query, maxResults).reply.Found?
    ensures PageRows(w.resultsPage.content, w.parseJson).Some?
    ensures var rows := PageRows(w.resultsPage.content, w.parseJson).value;
      var res := DuckDuckGo(cfg, st, w, query, maxResults).reply.results;
      && res <= Takes(Outcomes(rows, query, w.codecs))
      && |res| <= Cap(maxResults)
      && forall k :: 0 <= k < |res| ==> res[k].body != ""
  {
    var rows := PageRows(w.resultsPage.content, w.parseJson).value;
    var res := DuckDuckGo(cfg, st, w, query, maxResults).reply.results;
    var all := Takes(Outcomes(rows, query, w.codecs));
    TakesAreClean(rows, query, w.codecs);
    assert forall k :: 0 <= k < |res| ==> res[k] == all[k];
  }

  // ---------------------------------------------------------------------------
  // Fallbacks
  // ---------------------------------------------------------------------------

  /** An engine the loop would call: enabled, and one of the two it knows. */
  predicate Callable(f: Fallback) {
    f.enabled && (f.name == "tavily" || f.name == "google")
  }

  /** The names of the engines the loop would call, in configuration order. */
  function CallableNames(fbs: seq<Fallback>): (r: seq<string>)
    ensures |r| <= |fbs|
    decreases |fbs|
  {
    if |fbs| == 0 then []
    else if Callable(fbs[0]) then [fbs[0].name] + CallableNames(fbs[1..])
    else CallableNames(fbs[1..])
  }

  /** How a search ended: with results (real or placeholder), or with "All search engines failed". */
  datatype Outcome = Answered(results: seq<SearchResult>) | AllFailed

  /** The outcome of the fallback loop and the engines it called, in order. */
  datatype FallbackRun = FallbackRun(outcome: Outcome, called: seq<string>)

  /** All of `names` fail. */
  predicate AllFail(names: seq<string>, fallback: string -> EngineReply) {
    forall k :: 0 <= k < |names| ==> fallback(names[k]).Failed?
  }

  /**
   What the fallback loop promises over the callable engines `names`: it calls
   a prefix of them; it fails exactly when it called them all and all failed;
   and when it answers, every engine before the last one called failed and the
   last one supplied the results.
   */
  predicate FallbackSpec(r: FallbackRun, names: seq<string>, fallback: string -> EngineReply) {
    && r.called <= names
    && (r.outcome.AllFailed? <==> r.called == names && AllFail(r.called, fallback))
    && (r.outcome.Answered? ==>
      && |r.called| > 0
      && AllFail(r.called[..|r.called| - 1], fallback)
      && fallback(r.called[|r.called| - 1]) == Found(r.outcome.results))
  }

  /**
   The fallback loop: skip disabled and unknown engines, call the others in
   order, and stop at the first one that answers.
   */
  function TryFallbacks(fbs: seq<Fallback>, fallback: string -> EngineReply): (r: FallbackRun)
    ensures FallbackSpec(r, CallableNames(fbs), fallback)
    decreases |fbs|
  {
    if |fbs| == 0 then FallbackRun(AllFailed, [])
    else if !Callable(fbs[0]) then TryFallbacks(fbs[1..], fallback)
    else
      var name := fbs[0].name;
      match fallback(name)
      case Found(results) =>
        AnswerFirst(name, results, CallableNames(fbs[1..]), fallback);
        FallbackRun(Answered(results), [name])
      case Failed =>
        var rest := TryFallbacks(fbs[1..], fallback);
        FailThenRest(name, rest, CallableNames(fbs[1..]), fallback);
        FallbackRun(rest.outcome, [name] + rest.called)
  }

  /** An engine that answers first ends the loop with its results. */
  lemma AnswerFirst(name: string, results: seq<SearchResult>, names: seq<string>, fallback: string -> EngineReply)
    requires fallback(name) == Found(results)
    ensures FallbackSpec(FallbackRun(Answered(results), [name]), [name] + names, fallback)
  {
    assert [name][..0] == [];
    assert [name][0] == name;
  }

  /** An engine that fails hands the loop on to the engines after it. */
  lemma FailThenRest(name: string, rest: FallbackRun, names: seq<string>, fallback: string -> EngineReply)
    requires fallback(name).Failed? && FallbackSpec(rest, names, fallback)
    ensures FallbackSpec(FallbackRun(rest.outcome, [name] + rest.called), [name] + names, fallback)
  {
    var called := [name] + rest.called;
    assert called[1..] == rest.called;
    assert AllFail(called, fallback) <==> AllFail(rest.called, fallback) by {
      if AllFail(rest.called, fallback) {
        forall k | 0 <= k < |called| ensures fallback(called[k]).Failed? {
          if k > 0 { assert called[k] == rest.called[k - 1]; }
        }
      }
    }
    if rest.outcome.Answered? {
      var pre := called[..|called| - 1];
      assert pre == [name] + rest.called[..|rest.called| - 1];
      forall k | 0 <= k < |pre| ensures fallback(pre[k]).Failed? {
        if k > 0 { assert pre[k] == rest.called[..|rest.called| - 1][k - 1]; }
      }
    }
  }

  /** A disabled engine is never called, whatever the others answer. */
  lemma {:induction false} DisabledNeverCalled(fbs: seq<Fallback>, fallback: string -> EngineReply, name: string)
    requires forall k :: 0 <= k < |fbs| && fbs[k].name == name ==> !fbs[k].enabled
    ensures name !in TryFallbacks(fbs, fallback).called
    decreases |fbs|
  {
    if |fbs| > 0 {
      forall k | 0 <= k < |fbs[1..]| && fbs[1..][k].name == name ensures !fbs[1..][k].enabled {
        assert fbs[1..][k] == fbs[k + 1];
      }
      DisabledNeverCalled(fbs[1..], fallback, name);
    }
  }

  /** The first callable engine that answers is the one whose results are returned. */
  lemma {:induction false} FirstAnswerWins(fbs: seq<Fallback>, fallback: string -> EngineReply, k: nat)
    requires k < |CallableNames(fbs)|
    requires AllFail(CallableNames(fbs)[..k], fallback)
    requires fallback(CallableNames(fbs)[k]).Found?
    ensures TryFallbacks(fbs, fallback) == FallbackRun(Answered(fallback(CallableNames(fbs)[k]).results), CallableNames(fbs)[..k + 1])
    decreases |fbs|
  {
    var names := CallableNames(fbs);
    var later := CallableNames(fbs[1..]);
    if !Callable(fbs[0]) {
      assert names == later;
      FirstAnswerWins(fbs[1..], fallback, k);
    } else if k > 0 {
      assert names == [fbs[0].name] + later;
      assert fallback(names[..k][0]).Failed?;
      var pre := later[..k - 1];
      assert AllFail(pre, fallback) by {
        forall m | 0 <= m < |pre| ensures fallback(pre[m]).Failed? {
          assert pre[m] == names[..k][m + 1];
        }
      }
      FirstAnswerWins(fbs[1..], fallback, k - 1);
      assert names[..k + 1] == [fbs[0].name] + later[..k];
    }
  }

  // ---------------------------------------------------------------------------
  // search
  // ---------------------------------------------------------------------------

  /** The state after a search, how it ended, and the engines it called. */
  datatype Step = Step(st: SearchState, outcome: Outcome, called: seq<string>)

  const PrimaryName := "duckduckgo"

  /** Neither gate refuses the search: the quota is not used up and no backoff is in force. */
  predicate Open(cfg: SearchConfig, st: SearchState, w: World) {
    st.dailyCount < cfg.dailyLimit && !InBackoff(st.tracker, w.now)
  }

  /**
   The part of `search` past both gates: DuckDuckGo when it is the primary
   engine, its exception caught, then the fallback loop.
   */
  function Attempted(cfg: SearchConfig, st: SearchState, w: World, query: string, maxResults: int): (r: Step)
    ensures r.st.tracker == st.tracker
    ensures r.st.requestCount - st.requestCount == r.st.dailyCount - st.dailyCount
    ensures r.outcome.AllFailed? ==>
      && r.st.dailyCount == st.dailyCount
      && AllFail(CallableNames(cfg.fallbacks), w.fallback)
      && r.called == (if cfg.primary == PrimaryName then [PrimaryName] else []) + CallableNames(cfg.fallbacks)
    ensures forall k :: 0 <= k < |r.called| ==>
      r.called[k] == PrimaryName || r.called[k] in CallableNames(cfg.fallbacks)
    ensures r.st.dailyCount == st.dailyCount || r.st.dailyCount == st.dailyCount + 1
    ensures cfg.primary == PrimaryName ==>
      var d := DuckDuckGo(cfg, st, w, query, maxResults);
      var fb := TryFallbacks(cfg.fallbacks, w.fallback);
      && r.st == d.st
      && (d.reply.Found? ==> r.outcome == Answered(d.reply.results) && r.called == [PrimaryName])
      && (d.reply.Failed? ==> r.outcome == fb.outcome && r.called == [PrimaryName] + fb.called)
    ensures cfg.primary != PrimaryName ==>
      var fb := TryFallbacks(cfg.fallbacks, w.fallback);
      r == Step(st, fb.outcome, fb.called)
  {
    var primaryRun := if cfg.primary == PrimaryName then DuckDuckGo(cfg, st, w, query, maxResults) else Attempt(st, Failed);
    var tried := if cfg.primary == PrimaryName then [PrimaryName] else [];
    match primaryRun.reply
    case Found(results) => Step(primaryRun.st, Answered(results), tried)
    case Failed =>
      var fb := TryFallbacks(cfg.fallbacks, w.fallback);
      assert forall k :: 0 <= k < |fb.called| ==> fb.called[k] in CallableNames(cfg.fallbacks);
      Step(primaryRun.st, fb.outcome, tried + fb.called)
  }

  /**
   `search`: the daily quota is checked first, then the extended backoff; a
   refused search answers with placeholders and touches nothing. Otherwise
   DuckDuckGo is tried when it is the primary engine, then the fallbacks.
   */
  function SearchOnce(cfg: SearchConfig, st: SearchState, w: World, query: string, maxResults: int): (r: Step)
    ensures st.dailyCount >= cfg.dailyLimit ==> r == Step(st, Answered(Placeholders(query, maxResults)), [])
    ensures InBackoff(st.tracker, w.now) ==> r == Step(st, Answered(Placeholders(query, maxResults)), [])
    ensures r.st.dailyCount == st.dailyCount || (r.st.dailyCount == st.dailyCount + 1 <= cfg.dailyLimit)
    ensures r.st.tracker == st.tracker
    ensures r.st.requestCount - st.requestCount == r.st.dailyCount - st.dailyCount
    ensures r.outcome.AllFailed? ==>
      && r.st.dailyCount == st.dailyCount
      && AllFail(CallableNames(cfg.fallbacks), w.fallback)
      && r.called == (if cfg.primary == PrimaryName then [PrimaryName] else []) + CallableNames(cfg.fallbacks)
    ensures forall k :: 0 <= k < |r.called| ==>
      r.called[k] == PrimaryName || r.called[k] in CallableNames(cfg.fallbacks)
    ensures Open(cfg, st, w) && cfg.primary == PrimaryName ==>
      var d := DuckDuckGo(cfg, st, w, query, maxResults);
      var fb := TryFallbacks(cfg.fallbacks, w.fallback);
      && r.st == d.st
      && (d.reply.Found? ==> r.outcome == Answered(d.reply.results) && r.called == [PrimaryName])
      && (d.reply.Failed? ==> r.outcome == fb.outcome && r.called == [PrimaryName] + fb.called)
    ensures Open(cfg, st, w) && cfg.primary != PrimaryName ==>
      var fb := TryFallbacks(cfg.fallbacks, w.fallback);
      r == Step(st, fb.outcome, fb.called)
  {
    if st.dailyCount >= cfg.dailyLimit then Step(st, Answered(Placeholders(query, maxResults)), [])
    else if InBackoff(st.tracker, w.now) then Step(st, Answered(Placeholders(query, maxResults)), [])
    else Attempted(cfg, st, w, query, maxResults)
  }

  /**
   With both gates open and DuckDuckGo as the primary engine, a search whose
   every DuckDuckGo step goes through answers with the rows the loop collects,
   and calls no fallback.
   */
  lemma OpenSearchAnswersFromRows(cfg: SearchConfig, st: SearchState, w: World, query: string, maxResults: int)
    requires Open(cfg, st, w) && cfg.primary == PrimaryName
    requires Passes(cfg, w, query, maxResults)
    ensures var r := SearchOnce(cfg, st, w, query, maxResults);
      && r.outcome == Answered(Collect(PageRows(w.resultsPage.content, w.parseJson).value, query, maxResults, w.codecs).value)
      && r.called == [PrimaryName]
      && r.st.dailyCount == st.dailyCount + 1
  {
    var d := DuckDuckGo(cfg, st, w, query, maxResults);
    assert d.reply.Found?;
  }

  /** The quota check wins even when the backoff is also in force. */
  lemma QuotaCheckedFirst(cfg: SearchConfig, st: SearchState, w: World, query: string, maxResults: int)
    requires st.dailyCount >= cfg.dailyLimit && InBackoff(st.tracker, w.now)
    ensures SearchOnce(cfg, st, w, query, maxResults).called == []
    ensures SearchOnce(cfg, st, w, query, maxResults).st == st
    ensures |SearchOnce(cfg, st, w, query, maxResults).outcome.results| == (if maxResults > 0 then maxResults else 0)
  {
  }

  // ---------------------------------------------------------------------------
  // Runs of searches
  // ---------------------------------------------------------------------------

  /** One call to `search`: the world it meets and its arguments. */
  datatype Request = Request(w: World, query: string, maxResults: int)

  /** The state after a series of searches. */
  function Run(cfg: SearchConfig, st: SearchState, reqs: seq<Request>): SearchState
    decreases |reqs|
  {
    if |reqs| == 0 then st
    else
      var q := reqs[0];
      Run(cfg, SearchOnce(cfg, st, q.w, q.query, q.maxResults).st, reqs[1..])
  }

  /**
   However the searches go, the daily count never passes the limit it started
   under, the two counters advance in step, and the backoff deadline is never
   moved: `search` does not record incidents.
   */
  lemma {:induction false} QuotaNeverExceeded(cfg: SearchConfig, st: SearchState, reqs: seq<Request>)
    requires st.dailyCount <= cfg.dailyLimit
    ensures Run(cfg, st, reqs).dailyCount <= cfg.dailyLimit
    ensures Run(cfg, st, reqs).dailyCount >= st.dailyCount
    ensures Run(cfg, st, reqs).requestCount - st.requestCount == Run(cfg, st, reqs).dailyCount - st.dailyCount
    ensures Run(cfg, st, reqs).tracker == st.tracker
    decreases |reqs|
  {
    if |reqs| > 0 {
      var q := reqs[0];
      var next := SearchOnce(cfg, st, q.w, q.query, q.maxResults).st;
      QuotaNeverExceeded(cfg, next, reqs[1..]);
    }
  }

  /**
   A daily count loaded at or above the limit never moves: every search is
   answered by the quota check, and nothing in the state changes.
   */
  lemma {:induction false} OverLimitFrozen(cfg: SearchConfig, st: SearchState, reqs: seq<Request>)
    requires st.dailyCount >= cfg.dailyLimit
    ensures Run(cfg, st, reqs) == st
    decreases |reqs|
  {
    if |reqs| > 0 {
      OverLimitFrozen(cfg, st, reqs[1..]);
    }
  }

  /** While the backoff deadline lies ahead of every call, no search reaches an engine or changes the state. */
  lemma {:induction false} BackoffHoldsEverything(cfg: SearchConfig, st: SearchState, reqs: seq<Request>)
    requires forall k :: 0 <= k < |reqs| ==> InBackoff(st.tracker, reqs[k].w.now)
    ensures Run(cfg, st, reqs) == st
    decreases |reqs|
  {
    if |reqs| > 0 {
      var q := reqs[0];
      forall k | 0 <= k < |reqs[1..]| ensures InBackoff(st.tracker, reqs[1..][k].w.now) {
        assert reqs[1..][k] == reqs[k + 1];
      }
      BackoffHoldsEverything(cfg, st, reqs[1..]);
    }
  }

  /** After a successful search the counter file, read back the same day, restores the daily count. */
  lemma RestartRestoresCount(cfg: SearchConfig, st: SearchState, w: World, query: string, maxResults: int)
    requires DateStamp(w.today)
    requires DuckDuckGo(cfg, st, w, query, maxResults).reply.Found?
    ensures var after := DuckDuckGo(cfg, st, w, query, maxResults).st;
      Init(after.saved, w.today).dailyCount == after.dailyCount
  {
    var after := DuckDuckGo(cfg, st, w, query, maxResults).st;
    SaveLoadRoundTrip(w.today, after.dailyCount);
  }

  /** The region index stays a valid index of the region list. */
  lemma RegionIndexInRange(cfg: SearchConfig, st: SearchState, w: World, query: string, maxResults: int)
    requires 0 <= st.regionIndex < |cfg.regions|
    ensures var r := SearchOnce(cfg, st, w, query, maxResults).st;
      0 <= r.regionIndex < |cfg.regions| && cfg.regions[r.regionIndex] in cfg.regions
  {
  }

  /** The used set only ever holds agents of the built-in pool. */
  lemma UsedAgentsFromPool(cfg: SearchConfig, st: SearchState, w: World, query: string, maxResults: int)
    requires forall a :: a in st.used ==> a in UserAgents
    ensures forall a :: a in SearchOnce(cfg, st, w, query, maxResults).st.used ==> a in UserAgents
  {
    SearchOnceUsed(cfg, st, w, query, maxResults);
    assert Diverse(UserAgents) by { UserAgentsDiverse(); }
    UsedStaysInPool(UserAgents, st.used, w.order, w.pick);
  }

  /** A search leaves the used set alone or replaces it by one fresh-agent step. */
  lemma SearchOnceUsed(cfg: SearchConfig, st: SearchState, w: World, query: string, maxResults: int)
    ensures var used := SearchOnce(cfg, st, w, query, maxResults).st.used;
      used == st.used || used == FreshUserAgent(UserAgents, st.used, w.order, w.pick).used
  {
    if st.dailyCount < cfg.dailyLimit && !InBackoff(st.tracker, w.now) && cfg.primary == PrimaryName {
      var primaryRun := DuckDuckGo(cfg, st, w, query, maxResults);
      assert SearchOnce(cfg, st, w, query, maxResults).st == primaryRun.st;
    }
  }
}

=== FILE: search_counter.dfy ===
/**
 The daily request counter's on-disk record: the text `"<date>,<count>"`,
 written after every successful search and read back once at start-up, where
 it only counts when it was written today. File access is left to the caller:
 the stored text arrives as an `Option` (`None` when the file is absent or
 unreadable).
 */
module DailyCounter {
  import opened Common
  import opened Text

  /** `time.strftime('%Y-%m-%d')`: four digits, a dash, two digits, a dash, two digits. */
  predicate DateStamp(d: string) {
    && |d| == 10 && d[4] == '-' && d[7] == '-'
    && forall i :: 0 <= i < 10 && i != 4 && i != 7 ==> IsDigit(d[i])
  }

  /** `_save_request_count`: the text written to the counter file. */
  function CounterRecord(today: string, count: nat): (r: string)
    ensures |r| == |today| + 1 + |DecimalString(count)|
    ensures r[..|today|] == today && r[|today|] == ','
  {
    today + "," + DecimalString(count)
  }

  /** The text holds a record of `today`: two comma-separated fields, today's date, then a string of digits. */
  predicate IsRecordOf(text: string, today: string) {
    var fields := Split(Strip(text), ',');
    |fields| == 2 && fields[0] == today && IsDigits(fields[1])
  }

  /**
   `_load_request_count`: strip the text, split it at commas, and accept it
   only when there are exactly two fields, the first is today's date and the
   second is all digits; anything else loads as 0.
   */
  function LoadCount(stored: Option<string>, today: string): (r: nat)
    ensures stored.None? ==> r == 0
    ensures r > 0 ==> |Split(Strip(stored.value), ',')| == 2 && Split(Strip(stored.value), ',')[0] == today
    ensures r > 0 ==> stored.Some? && IsRecordOf(stored.value, today)
    ensures stored.Some? && IsRecordOf(stored.value, today) ==> r == DigitsValue(Split(Strip(stored.value), ',')[1])
  {
    match stored
    case None => 0
    case Some(text) =>
      var fields := Split(Strip(text), ',');
      if |fields| == 2 && fields[0] == today && IsDigits(fields[1]) then DigitsValue(fields[1])
      else 0
  }

  /** How a saved record splits: the date, then the decimal count. */
  lemma RecordFields(day: string, count: nat)
    requires DateStamp(day)
    ensures Strip(CounterRecord(day, count)) == CounterRecord(day, count)
    ensures Split(Strip(CounterRecord(day, count)), ',') == [day, DecimalString(count)]
  {
    var digits := DecimalString(count);
    assert ',' !in digits && !IsSpace(digits[|digits| - 1]) by {
      forall i | 0 <= i < |digits| ensures digits[i] != ',' && !IsSpace(digits[i]) {
        assert IsDigit(digits[i]);
      }
    }
    DateRecordFields(day, digits);
  }

  /** A date, a comma and a comma-free field ending in a non-space strip to themselves and split back apart. */
  lemma DateRecordFields(day: string, tail: string)
    requires DateStamp(day) && |tail| > 0 && ',' !in tail && !IsSpace(tail[|tail| - 1])
    ensures Strip(day + "," + tail) == day + "," + tail
    ensures Split(day + "," + tail, ',') == [day, tail]
  {
    var s := day + "," + tail;
    assert Strip(s) == s by {
      assert s[0] == day[0] && IsDigit(day[0]) && s[|s| - 1] == tail[|tail| - 1];
      StripUnchanged(s);
    }
    NoCommaInDate(day);
    SplitAtComma(day, tail);
  }

  lemma SplitAtComma(a: string, b: string)
    requires ',' !in a && ',' !in b
    ensures Split(a + "," + b, ',') == [a, b]
  {
    assert a + "," + b == a + [','] + b;
    SplitCons(a, b, ',');
    SplitNoSep(b, ',');
  }

  /** Round trip: a record saved today loads back as the count that was saved. */
  lemma SaveLoadRoundTrip(today: string, count: nat)
    requires DateStamp(today)
    ensures LoadCount(Some(CounterRecord(today, count)), today) == count
  {
    RecordFields(today, count);
    LoadsAs(CounterRecord(today, count), today, count);
  }

  /** Any text that strips down to today's record loads as its count. */
  lemma LoadsAs(text: string, today: string, count: nat)
    requires DateStamp(today) && Strip(text) == CounterRecord(today, count)
    ensures LoadCount(Some(text), today) == count
  {
    var fields := Split(Strip(text), ',');
    assert fields == [today, DecimalString(count)] by { RecordFields(today, count); }
    DecimalRoundTrip(count);
  }

  /** A record saved on another day loads as 0: the count starts afresh each day. */
  lemma OtherDayLoadsZero(day: string, today: string, count: nat)
    requires DateStamp(day) && day != today
    ensures LoadCount(Some(CounterRecord(day, count)), today) == 0
  {
    RecordFields(day, count);
  }

  /** A trailing newline, as an editor may leave, is stripped before parsing. */
  lemma TrailingNewlineTolerated(today: string, count: nat)
    requires DateStamp(today)
    ensures LoadCount(Some(CounterRecord(today, count) + "\n"), today) == count
  {
    var s := CounterRecord(today, count);
    assert Strip(s + "\n") == s by {
      RecordFields(today, count);
      assert IsDigit(s[0]) && IsDigit(s[|s| - 1]);
      StripTrailingNewline(s);
    }
    LoadsAs(s + "\n", today, count);
  }

  /** A count that is not all digits, such as a negative one, loads as 0. */
  lemma NonDigitCountLoadsZero(today: string)
    requires DateStamp(today)
    ensures LoadCount(Some(today + "," + "-5"), today) == 0
  {
    NegativeRecordFields(today);
    assert !IsDigits("-5") by { assert !IsDigit("-5"[0]); }
  }

  /** How the record with a negative count splits: the date, then `-5`. */
  lemma NegativeRecordFields(today: string)
    requires DateStamp(today)
    ensures Split(Strip(today + "," + "-5"), ',') == [today, "-5"]
  {
    DateRecordFields(today, "-5");
  }

  lemma NoCommaInDate(d: string)
    requires DateStamp(d)
    ensures ',' !in d
  {
    forall i | 0 <= i < |d| ensures d[i] != ',' {
      if i != 4 && i != 7 { assert IsDigit(d[i]); }
    }
  }
}

=== FILE: search_extract.dfy ===
/**
 Byte-pattern extraction from DuckDuckGo's two replies: the anti-automation
 token (`vqd`) embedded in the handshake page, and the JSON row payload
 embedded between two fixed script markers of the results page.
 */
module Extraction {
  import opened Common
  import opened Text

  /** One delimiter pattern: a start marker, how far past its position the token begins, and the end delimiter. */
  datatype Pattern = Pattern(start: seq<byte>, offset: nat, end: seq<byte>)

  const DoubleQuoted: Pattern := Pattern(Ascii("vqd=\""), 5, Ascii("\""))
  const Ampersand: Pattern := Pattern(Ascii("vqd="), 4, Ascii("&"))
  const SingleQuoted: Pattern := Pattern(Ascii("vqd='"), 5, Ascii("'"))

  /** The token patterns in the order they are tried. */
  const VqdPatterns: seq<Pattern> := [DoubleQuoted, Ampersand, SingleQuoted]

  const PageLayoutMarker: seq<byte> := Ascii("DDG.pageLayout.load('d',")
  const DuckbarMarker: seq<byte> := Ascii(");DDG.duckbar.load(")
  const Payload: Pattern := Pattern(PageLayoutMarker, 24, DuckbarMarker)

  /**
   `html[start:end]` where `start` is the first occurrence of the start marker
   plus the offset and `end` the first end delimiter at or after `start`;
   `None` when either `index` call would raise.
   */
  function SliceBetween(html: seq<byte>, p: Pattern): (r: Option<seq<byte>>)
    ensures r.Some? ==> exists i :: FirstFrom(html, p.start, 0, i) && exists j ::
      EndsAt(html, p, i, j) && r.value == html[i + p.offset..j]
  {
    match IndexFrom(html, p.start, 0)
    case None => None
    case Some(i) =>
      assert FirstFrom(html, p.start, 0, i);
      match IndexFrom(html, p.end, i + p.offset)
      case None => None
      case Some(j) =>
        assert EndsAt(html, p, i, j);
        Some(html[i + p.offset..j])
  }

  /** A slice is missing exactly when the start marker is absent or no end delimiter follows its first occurrence. */
  lemma SliceMissing(html: seq<byte>, p: Pattern)
    ensures SliceBetween(html, p).None? <==>
      || (forall i :: 0 <= i ==> !OccursAt(html, p.start, i))
      || (exists i :: FirstFrom(html, p.start, 0, i) && NoEndAfter(html, p, i))
  {
    match IndexFrom(html, p.start, 0)
    case None =>
    case Some(i) =>
      assert FirstFrom(html, p.start, 0, i);
      forall i' | FirstFrom(html, p.start, 0, i') ensures i' == i {
        assert !(i' < i) && !(i < i');
      }
      if IndexFrom(html, p.end, i + p.offset).None? {
        assert NoEndAfter(html, p, i);
      } else {
        assert !NoEndAfter(html, p, i);
      }
  }

  /** `i` is the first occurrence of `pat` at or after `from`. */
  predicate FirstFrom(s: seq<byte>, pat: seq<byte>, from: int, i: int) {
    && from <= i
    && OccursAt(s, pat, i)
    && forall k :: from <= k < i ==> !OccursAt(s, pat, k)
  }

  /** With the start marker at `i`, the slice ends at `j`: the first end delimiter from `i + offset` on. */
  predicate EndsAt(s: seq<byte>, p: Pattern, i: int, j: int) {
    FirstFrom(s, p.end, i + p.offset, j)
  }

  /** With the start marker at `i`, no end delimiter follows. */
  ghost predicate NoEndAfter(s: seq<byte>, p: Pattern, i: int) {
    forall j :: i + p.offset <= j ==> !OccursAt(s, p.end, j)
  }

  /** What pattern `k` yields: its slice, decoded; `None` when either step raises `ValueError`. */
  function TokenFrom(html: seq<byte>, decode: seq<byte> -> Option<string>, k: nat): Option<string>
    requires k < |VqdPatterns|
  {
    match SliceBetween(html, VqdPatterns[k])
    case None => None
    case Some(b) => decode(b)
  }

  /** The pattern loop from position `k` on: the first pattern that yields a token wins. */
  function TryPatterns(html: seq<byte>, decode: seq<byte> -> Option<string>, k: nat): (r: Option<string>)
    requires k <= |VqdPatterns|
    ensures r.Some? ==> exists m :: k <= m < |VqdPatterns| && TokenFrom(html, decode, m) == r
                                    && forall n :: k <= n < m ==> TokenFrom(html, decode, n).None?
    ensures r.None? ==> forall m :: k <= m < |VqdPatterns| ==> TokenFrom(html, decode, m).None?
    decreases |VqdPatterns| - k
  {
    if k == |VqdPatterns| then None
    else
      var t := TokenFrom(html, decode, k);
      if t.Some? then t
      else
        var r := TryPatterns(html, decode, k + 1);
        assert r.Some? ==> exists m :: k <= m < |VqdPatterns| && TokenFrom(html, decode, m) == r
                                       && forall n :: k <= n < m ==> TokenFrom(html, decode, n).None? by {
          if r.Some? {
            var m :| k + 1 <= m < |VqdPatterns| && TokenFrom(html, decode, m) == r
                     && forall n :: k + 1 <= n < m ==> TokenFrom(html, decode, n).None?;
            assert forall n :: k <= n < m ==> TokenFrom(html, decode, n).None?;
          }
        }
        r
  }

  /**
   `_extract_vqd`: the token of the first pattern, in the order double quote,
   ampersand, single quote, whose delimiters are both present and whose bytes
   decode; `None` when no pattern yields one.
   */
  function ExtractVqd(html: seq<byte>, decode: seq<byte> -> Option<string>): (r: Option<string>)
    ensures r.Some? ==> exists m :: 0 <= m < |VqdPatterns| && TokenFrom(html, decode, m) == r
                                    && forall n :: 0 <= n < m ==> TokenFrom(html, decode, n).None?
    ensures r.None? ==> forall m :: 0 <= m < |VqdPatterns| ==> TokenFrom(html, decode, m).None?
  {
    TryPatterns(html, decode, 0)
  }

  /** `_text_extract_json` before parsing: the bytes between the two script markers. */
  function ExtractPayload(html: seq<byte>): (r: Option<seq<byte>>)
    ensures r.Some? ==> exists i :: FirstFrom(html, PageLayoutMarker, 0, i) && exists j ::
      EndsAt(html, Payload, i, j) && r.value == html[i + |PageLayoutMarker|..j]
  {
    MarkerLengths();
    SliceBetween(html, Payload)
  }

  /** Every offset is its marker's length, so each slice starts right after the marker. */
  lemma MarkerLengths()
    ensures |PageLayoutMarker| == Payload.offset == 24
    ensures |DuckbarMarker| == 19
    ensures forall k :: 0 <= k < |VqdPatterns| ==> |VqdPatterns[k].start| == VqdPatterns[k].offset
  {
  }

  // ---------------------------------------------------------------------------
  // The three token forms
  // ---------------------------------------------------------------------------

  const DQ: byte := 34
  const AMP: byte := 38
  const SQ: byte := 39

  lemma PatternBytes()
    ensures DoubleQuoted.start == Ascii("vqd=") + [DQ] && DoubleQuoted.end == [DQ]
    ensures Ampersand.end == [AMP]
    ensures SingleQuoted.start == Ascii("vqd=") + [SQ] && SingleQuoted.end == [SQ]
  {
  }

  /** When `html` begins with the start marker and `c` first appears after `tok`, the slice is `tok`. */
  lemma SliceOfLeadingForm(p: Pattern, tok: seq<byte>, c: byte, rest: seq<byte>)
    requires p.offset == |p.start| && p.end == [c] && c !in tok
    ensures SliceBetween(p.start + tok + [c] + rest, p) == Some(tok)
  {
    var html := p.start + tok + [c] + rest;
    var o := |p.start|;
    assert html[..o] == p.start;
    IndexFromFirst(html, p.start, 0, 0);
    OccursAtSingle(html, c, o + |tok|);
    forall j | o <= j < o + |tok| ensures !OccursAt(html, [c], j) {
      OccursAtSingle(html, c, j);
      assert html[j] == tok[j - o];
    }
    IndexFromFirst(html, [c], o, o + |tok|);
    assert html[o..o + |tok|] == tok;
  }

  /** `vqd="tok"`: the double-quote form is found first. */
  lemma DoubleQuotedForm(tok: seq<byte>, rest: seq<byte>, decode: seq<byte> -> Option<string>)
    requires DQ !in tok && decode(tok).Some?
    ensures ExtractVqd(DoubleQuoted.start + tok + [DQ] + rest, decode) == decode(tok)
  {
    PatternBytes();
    SliceOfLeadingForm(DoubleQuoted, tok, DQ, rest);
  }

  /** Without a double quote in the page the first pattern yields nothing. */
  lemma NoDoubleQuoteNoFirstToken(html: seq<byte>, decode: seq<byte> -> Option<string>)
    requires DQ !in html
    ensures TokenFrom(html, decode, 0).None?
  {
    PatternBytes();
    IndexFromAbsent(html, DoubleQuoted.start, 0, DQ);
  }

  /** Without an ampersand in the page the second pattern yields nothing. */
  lemma NoAmpersandNoSecondToken(html: seq<byte>, decode: seq<byte> -> Option<string>)
    requires AMP !in html
    ensures TokenFrom(html, decode, 1).None?
  {
    PatternBytes();
    match IndexFrom(html, Ampersand.start, 0)
    case None =>
    case Some(i) => IndexFromAbsent(html, Ampersand.end, i + Ampersand.offset, AMP);
  }

  /** The pattern loop settles on the second pattern once the first has failed. */
  lemma SecondTokenWins(html: seq<byte>, decode: seq<byte> -> Option<string>)
    requires TokenFrom(html, decode, 0).None? && TokenFrom(html, decode, 1).Some?
    ensures ExtractVqd(html, decode) == TokenFrom(html, decode, 1)
  {
    assert TryPatterns(html, decode, 1) == TokenFrom(html, decode, 1);
  }

  /** The pattern loop settles on the third pattern once the first two have failed. */
  lemma ThirdTokenWins(html: seq<byte>, decode: seq<byte> -> Option<string>)
    requires TokenFrom(html, decode, 0).None? && TokenFrom(html, decode, 1).None?
    ensures ExtractVqd(html, decode) == TokenFrom(html, decode, 2)
  {
    assert TryPatterns(html, decode, 3).None?;
    assert TryPatterns(html, decode, 1) == TryPatterns(html, decode, 2);
  }

  /** `vqd=tok&`: with no double quote anywhere, the ampersand form is used. */
  lemma AmpersandForm(tok: seq<byte>, rest: seq<byte>, decode: seq<byte> -> Option<string>)
    requires AMP !in tok && DQ !in tok && DQ !in rest && decode(tok).Some?
    ensures ExtractVqd(Ampersand.start + tok + [AMP] + rest, decode) == decode(tok)
  {
    var html := Ampersand.start + tok + [AMP] + rest;
    PatternBytes();
    assert DQ !in html;
    NoDoubleQuoteNoFirstToken(html, decode);
    SliceOfLeadingForm(Ampersand, tok, AMP, rest);
    assert TokenFrom(html, decode, 1) == decode(tok);
    SecondTokenWins(html, decode);
  }

  /** `vqd='tok'`: with no double quote and no ampersand anywhere, the single-quote form is used. */
  lemma SingleQuotedForm(tok: seq<byte>, rest: seq<byte>, decode: seq<byte> -> Option<string>)
    requires SQ !in tok && DQ !in tok + rest && AMP !in tok + rest && decode(tok).Some?
    ensures ExtractVqd(SingleQuoted.start + tok + [SQ] + rest, decode) == decode(tok)
  {
    var html := SingleQuoted.start + tok + [SQ] + rest;
    PatternBytes();
    assert DQ !in html && AMP !in html by {
      assert html == Ascii("vqd=") + [SQ] + (tok + rest)[..|tok|] + [SQ] + (tok + rest)[|tok|..];
    }
    NoDoubleQuoteNoFirstToken(html, decode);
    NoAmpersandNoSecondToken(html, decode);
    SliceOfLeadingForm(SingleQuoted, tok, SQ, rest);
    assert TokenFrom(html, decode, 2) == decode(tok);
    ThirdTokenWins(html, decode);
  }

  /**
   The ampersand pattern pre-empts the single-quote form: for `vqd='tok'&…`
   the token returned keeps both quotes.
   */
  lemma AmpersandPreemptsSingleQuote(tok: seq<byte>, rest: seq<byte>, decode: seq<byte> -> Option<string>)
    requires AMP !in tok && SQ !in tok && DQ !in tok + rest
    requires decode([SQ] + tok + [SQ]).Some?
    ensures ExtractVqd(SingleQuoted.start + tok + [SQ, AMP] + rest, decode) == decode([SQ] + tok + [SQ])
  {
    var html := SingleQuoted.start + tok + [SQ, AMP] + rest;
    PatternBytes();
    assert html == Ampersand.start + ([SQ] + tok + [SQ]) + [AMP] + rest;
    AmpersandForm([SQ] + tok + [SQ], rest, decode);
  }

  /** A malformed handshake page without the `vqd=` marker yields no token. */
  lemma NoMarkerNoToken(html: seq<byte>, decode: seq<byte> -> Option<string>)
    requires forall i :: 0 <= i ==> !OccursAt(html, Ascii("vqd="), i)
    ensures ExtractVqd(html, decode).None?
  {
    var q := Ascii("vqd=");
    PatternBytes();
    forall i | 0 <= i ensures !OccursAt(html, DoubleQuoted.start, i) && !OccursAt(html, SingleQuoted.start, i) {
      if OccursAt(html, DoubleQuoted.start, i) {
        OccursAtPrefix(html, DoubleQuoted.start, q, i);
      }
      if OccursAt(html, SingleQuoted.start, i) {
        OccursAtPrefix(html, SingleQuoted.start, q, i);
      }
    }
    assert TokenFrom(html, decode, 0).None?;
    assert TokenFrom(html, decode, 1).None?;
    assert TokenFrom(html, decode, 2).None?;
  }

  /** A page laid out as start marker, payload, end marker yields exactly the payload. */
  lemma SliceOfMarkedPayload(p: Pattern, payload: seq<byte>, rest: seq<byte>)
    requires p.offset == |p.start|
    requires FirstFrom(payload + p.end, p.end, 0, |payload|)
    ensures SliceBetween(p.start + payload + p.end + rest, p) == Some(payload)
  {
    var html := p.start + payload + p.end + rest;
    var o := |p.start|;
    assert IndexFrom(html, p.start, 0) == Some(0) by {
      LayoutSlices(p.start, payload, p.end, rest);
      StartFound(html, p.start);
    }
    assert IndexFrom(html, p.end, o) == Some(o + |payload|) by {
      EndFound(p.start, payload, p.end, rest);
    }
    assert html[o..o + |payload|] == payload by {
      LayoutSlices(p.start, payload, p.end, rest);
    }
    SliceAt(html, p, 0, o, o + |payload|);
  }

  /** The first two pieces of a four-piece concatenation, sliced back out. */
  lemma LayoutSlices(a: seq<byte>, b: seq<byte>, c: seq<byte>, d: seq<byte>)
    ensures (a + b + c + d)[..|a|] == a
    ensures (a + b + c + d)[|a|..|a| + |b|] == b
  {
    var s := a + b + c + d;
    assert s == a + (b + (c + d));
  }

  /** A page that begins with the marker finds it at position 0. */
  lemma StartFound(html: seq<byte>, marker: seq<byte>)
    requires |marker| <= |html| && html[..|marker|] == marker
    ensures IndexFrom(html, marker, 0) == Some(0)
  {
    IndexFromFirst(html, marker, 0, 0);
  }

  /** The end marker right after the payload is the one found past the start marker. */
  lemma EndFound(pre: seq<byte>, payload: seq<byte>, pat: seq<byte>, rest: seq<byte>)
    requires FirstFrom(payload + pat, pat, 0, |payload|)
    ensures IndexFrom(pre + payload + pat + rest, pat, |pre|) == Some(|pre| + |payload|)
  {
    EndAfterPrefix(pre, payload, pat, rest);
    IndexFromFirst(pre + payload + pat + rest, pat, |pre|, |pre| + |payload|);
  }

  /** `SliceBetween` once both `index` calls are known. */
  lemma SliceAt(html: seq<byte>, p: Pattern, i: nat, from: nat, j: nat)
    requires IndexFrom(html, p.start, 0) == Some(i) && from == i + p.offset
    requires IndexFrom(html, p.end, from) == Some(j)
    ensures SliceBetween(html, p) == Some(html[from..j])
  {
    assert from <= j && j + |p.end| <= |html| by {
      assert OccursAt(html, p.end, j);
    }
  }

  /** The end marker that first follows the payload is also the first one past the start marker in the whole page. */
  lemma EndAfterPrefix(pre: seq<byte>, payload: seq<byte>, pat: seq<byte>, rest: seq<byte>)
    requires FirstFrom(payload + pat, pat, 0, |payload|)
    ensures FirstFrom(pre + payload + pat + rest, pat, |pre|, |pre| + |payload|)
  {
    var tail := payload + pat;
    var html := pre + payload + pat + rest;
    assert html == pre + (tail + rest);
    forall j | 0 <= j <= |payload| ensures OccursAt(html, pat, |pre| + j) <==> OccursAt(tail, pat, j) {
      OccursAtShift(pre, tail + rest, pat, j);
      OccursAtExtend(tail, rest, pat, j);
    }
    forall j | |pre| <= j < |pre| + |payload| ensures !OccursAt(html, pat, j) {
      assert OccursAt(html, pat, |pre| + (j - |pre|)) <==> OccursAt(tail, pat, j - |pre|);
    }
  }

  /** The results page laid out as marker, payload, end marker yields exactly the payload. */
  lemma PayloadBetweenMarkers(payload: seq<byte>, rest: seq<byte>)
    requires FirstFrom(payload + DuckbarMarker, DuckbarMarker, 0, |payload|)
    ensures ExtractPayload(PageLayoutMarker + payload + DuckbarMarker + rest) == Some(payload)
  {
    MarkerLengths();
    SliceOfMarkedPayload(Payload, payload, rest);
  }
}

=== FILE: search_identity.dfy ===
/**
 Identity rotation of the scraping engine: round-robin region selection and the
 user-agent pool with its "used" set, which is cut back to three survivors once
 every agent has been used.
 */
module Identity {
  import opened Common

  // ---------------------------------------------------------------------------
  // Regions
  // ---------------------------------------------------------------------------

  const DefaultRegions: seq<string> := ["wt-wt", "us-en", "uk-en"]

  /** The region index and region chosen by one rotation. */
  datatype RegionChoice = RegionChoice(index: int, region: string)

  /**
   `_rotate_region`: advance the index by one modulo the number of regions and
   return that region; `None` is the `ZeroDivisionError` of an empty list.
   */
  function RotateRegion(regions: seq<string>, index: int): (r: Option<RegionChoice>)
    ensures r.None? <==> |regions| == 0
    ensures r.Some? ==> 0 <= r.value.index < |regions| && r.value.region == regions[r.value.index]
    ensures r.Some? && 0 <= index < |regions| - 1 ==> r.value.index == index + 1
    ensures r.Some? && index == |regions| - 1 ==> r.value.index == 0
  {
    if |regions| == 0 then None
    else
      var next := (index + 1) % |regions|;
      Some(RegionChoice(next, regions[next]))
  }

  /** The region index after `k` rotations. */
  function IndexAfter(regions: seq<string>, index: int, k: nat): int
    decreases k
  {
    if k == 0 || |regions| == 0 then index
    else IndexAfter(regions, RotateRegion(regions, index).value.index, k - 1)
  }

  /** Rotations walk the list round-robin: after `k` of them the index is `(index + k) mod n`. */
  lemma {:induction false} RoundRobin(regions: seq<string>, index: int, k: nat)
    requires |regions| > 0 && 0 <= index < |regions|
    ensures IndexAfter(regions, index, k) == (index + k) % |regions|
    decreases k
  {
    var n := |regions|;
    if k > 0 {
      var next := RotateRegion(regions, index).value.index;
      RoundRobin(regions, next, k - 1);
      ModNext(index, k, n);
    }
  }

  lemma ModNext(index: int, k: nat, n: nat)
    requires n > 0 && 0 <= index < n && k > 0
    ensures ((index + 1) % n + (k - 1)) % n == (index + k) % n
  {
    if index + 1 == n {
      assert (index + 1) % n == 0;
      ModShift(k - 1, n);
      assert index + k == (k - 1) + n;
    } else {
      assert (index + 1) % n == index + 1;
    }
  }

  lemma ModShift(x: int, n: int)
    requires n > 0
    ensures (x + n) % n == x % n
  {
    var q := x / n;
    var r := x % n;
    assert x == n * q + r;
    assert x + n == n * (q + 1) + r by {
      assert n * (q + 1) == n * q + n;
    }
    ModUnique(x + n, n, q + 1, r);
  }

  /** Euclidean division has a unique remainder. */
  lemma ModUnique(y: int, n: int, q: int, r: int)
    requires n > 0 && 0 <= r < n && y == n * q + r
    ensures y % n == r
  {
    var q2 := y / n;
    var r2 := y % n;
    assert y == n * q2 + r2;
    assert n * (q - q2) == r2 - r by {
      assert n * (q - q2) == n * q - n * q2;
    }
    if q - q2 >= 1 {
      assert n * (q - q2) >= n by { MulAtLeast(n, q - q2); }
    } else if q - q2 <= -1 {
      assert n * (q2 - q) >= n by { MulAtLeast(n, q2 - q); }
    }
  }

  lemma MulAtLeast(n: int, m: int)
    requires n > 0 && m >= 1
    ensures n * m >= n
  {
    assert n * m == n * (m - 1) + n;
  }

  /** Every `n` rotations bring the index back to where it started. */
  lemma RotationPeriod(regions: seq<string>, index: int)
    requires |regions| > 0 && 0 <= index < |regions|
    ensures IndexAfter(regions, index, |regions|) == index
  {
    var n := |regions|;
    RoundRobin(regions, index, n);
    ModUnique(index + n, n, 1, index);
  }

  /** From the initial index 0, the first rotation yields `regions[1 % n]`, not `regions[0]`. */
  lemma FirstRotationSkipsFirstRegion(regions: seq<string>)
    requires |regions| > 0
    ensures RotateRegion(regions, 0) == Some(RegionChoice(1 % |regions|, regions[1 % |regions|]))
    ensures |regions| > 1 ==> RotateRegion(regions, 0).value.region == regions[1]
  {
  }

  // ---------------------------------------------------------------------------
  // User agents
  // ---------------------------------------------------------------------------

  const UserAgents: seq<string> := [
    "Mozilla/5.0 (Windows NT 10.0; Win64; x64) AppleWebKit/537.36 (KHTML, like Gecko) Chrome/91.0.4472.124 Safari/537.36",
    "Mozilla/5.0 (Windows NT 10.0; Win64; x64) AppleWebKit/537.36 (KHTML, like Gecko) Chrome/92.0.4515.107 Safari/537.36",
    "Mozilla/5.0 (Windows NT 10.0; Win64; x64) AppleWebKit/537.36 (KHTML, like Gecko) Chrome/93.0.4577.82 Safari/537.36",
    "Mozilla/5.0 (Windows NT 10.0; Win64; x64; rv:90.0) Gecko/20100101 Firefox/90.0",
    "Mozilla/5.0 (Windows NT 10.0; Win64; x64; rv:91.0) Gecko/20100101 Firefox/91.0",
    "Mozilla/5.0 (Windows NT 10.0; Win64; x64) AppleWebKit/537.36 (KHTML, like Gecko) Chrome/92.0.4515.159 Safari/537.36 Edg/92.0.902.78",
    "Mozilla/5.0 (Macintosh; Intel Mac OS X 10_15_7) AppleWebKit/537.36 (KHTML, like Gecko) Chrome/91.0.4472.114 Safari/537.36",
    "Mozilla/5.0 (Macintosh; Intel Mac OS X 10_15_7) AppleWebKit/537.36 (KHTML, like Gecko) Chrome/92.0.4515.131 Safari/537.36",
    "Mozilla/5.0 (Macintosh; Intel Mac OS X 10_15_7) AppleWebKit/605.1.15 (KHTML, like Gecko) Version/14.1.2 Safari/605.1.15",
    "Mozilla/5.0 (Macintosh; Intel Mac OS X 10_15_7) AppleWebKit/605.1.15 (KHTML, like Gecko) Version/15.0 Safari/605.1.15",
    "Mozilla/5.0 (X11; Linux x86_64) AppleWebKit/537.36 (KHTML, like Gecko) Chrome/91.0.4472.114 Safari/537.36",
    "Mozilla/5.0 (X11; Linux x86_64; rv:90.0) Gecko/20100101 Firefox/90.0",
    "Mozilla/5.0 (Linux; Android 11; SM-G991B) AppleWebKit/537.36 (KHTML, like Gecko) Chrome/91.0.4472.120 Mobile Safari/537.36",
    "Mozilla/5.0 (iPhone; CPU iPhone OS 14_6 like Mac OS X) AppleWebKit/605.1.15 (KHTML, like Gecko) Version/14.0 Mobile/15E148 Safari/604.1"
  ]

  /** How many agents survive when the used set is cut back. */
  const RecentKept: nat := 3

  /** The agents of `agents` not yet in `used`, in list order. */
  function Unused(agents: seq<string>, used: set<string>): (r: seq<string>)
    ensures forall a :: a in r <==> a in agents && a !in used
    decreases |agents|
  {
    if |agents| == 0 then []
    else if agents[0] in used then Unused(agents[1..], used)
    else [agents[0]] + Unused(agents[1..], used)
  }

  /** The members of `order` that are in `used`, in the order of `order`. */
  function Listed(order: seq<string>, used: set<string>): (r: seq<string>)
    ensures |r| <= |order|
    ensures forall a :: a in r <==> a in order && a in used
    decreases |order|
  {
    if |order| == 0 then []
    else if order[0] in used then [order[0]] + Listed(order[1..], used)
    else Listed(order[1..], used)
  }

  /** The distinct members of a list. */
  function Members(agents: seq<string>): (r: set<string>)
    ensures forall a :: a in r <==> a in agents
  {
    set a | a in agents
  }

  /**
   `recent_agents = list(used)[-3:] if len(used) > 3 else used`: a used set of
   three or fewer is kept whole; a larger one is cut to the last three members
   in its iteration order. Python does not specify that order, so `order`
   stands for it; whatever it is, at most three used agents survive.
   */
  function Survivors(used: set<string>, order: seq<string>): (r: set<string>)
    ensures r <= used && |r| <= RecentKept
    ensures |used| <= RecentKept ==> r == used
  {
    if |used| <= RecentKept then used
    else
      var listed := Listed(order, used);
      var last := if |listed| <= RecentKept then listed else listed[|listed| - RecentKept..];
      MembersAtMostLength(last);
      Members(last)
  }

  lemma {:induction false} MembersAtMostLength(s: seq<string>)
    ensures |Members(s)| <= |s|
    decreases |s|
  {
    if |s| > 0 {
      MembersAtMostLength(s[1..]);
      assert Members(s) == {s[0]} + Members(s[1..]);
    }
  }

  /** No entry of `s` repeats. */
  predicate Distinct(s: seq<string>) {
    forall i, j :: 0 <= i < j < |s| ==> s[i] != s[j]
  }

  lemma DistinctTail(s: seq<string>)
    requires |s| > 0 && Distinct(s)
    ensures Distinct(s[1..]) && s[0] !in s[1..]
  {
    forall i, j | 0 <= i < j < |s[1..]| ensures s[1..][i] != s[1..][j] {
      assert s[1..][i] == s[i + 1] && s[1..][j] == s[j + 1];
    }
  }

  /** Distinct members of a list are as many as its entries. */
  lemma {:induction false} MembersOfDistinct(s: seq<string>)
    requires Distinct(s)
    ensures |Members(s)| == |s|
    decreases |s|
  {
    if |s| > 0 {
      DistinctTail(s);
      MembersOfDistinct(s[1..]);
      assert Members(s) == {s[0]} + Members(s[1..]);
      assert s[0] !in Members(s[1..]);
    }
  }

  lemma {:induction false} ListedDistinct(order: seq<string>, used: set<string>)
    requires Distinct(order)
    ensures Distinct(Listed(order, used))
    decreases |order|
  {
    if |order| > 0 {
      DistinctTail(order);
      ListedDistinct(order[1..], used);
      var rest := Listed(order[1..], used);
      if order[0] in used {
        var l := [order[0]] + rest;
        assert order[0] !in rest;
        forall i, j | 0 <= i < j < |l| ensures l[i] != l[j] {
          assert l[j] == rest[j - 1];
          if i > 0 { assert l[i] == rest[i - 1]; }
        }
      }
    }
  }

  lemma DistinctSuffix(s: seq<string>, k: nat)
    requires Distinct(s) && k <= |s|
    ensures Distinct(s[k..])
  {
    forall i, j | 0 <= i < j < |s[k..]| ensures s[k..][i] != s[k..][j] {
      assert s[k..][i] == s[i + k] && s[k..][j] == s[j + k];
    }
  }

  /**
   When `order` really lists the used set, as `list(used)` does, and more than
   three agents are used, exactly three survive the cut.
   */
  lemma ThreeSurvive(used: set<string>, order: seq<string>)
    requires Distinct(order)
    requires Members(order) == used && |used| > RecentKept
    ensures |Survivors(used, order)| == RecentKept
  {
    var listed := Listed(order, used);
    ListedDistinct(order, used);
    assert Members(listed) == used;
    MembersOfDistinct(listed);
    assert |listed| > RecentKept;
    var last := listed[|listed| - RecentKept..];
    assert Survivors(used, order) == Members(last);
    DistinctSuffix(listed, |listed| - RecentKept);
    MembersOfDistinct(last);
  }

  /** The agent handed out and the used set afterwards. */
  datatype AgentChoice = AgentChoice(agent: string, used: set<string>)

  /** A pool is diverse when it holds more distinct agents than survive a cut. */
  predicate Diverse(agents: seq<string>) {
    |Members(agents)| > RecentKept
  }

  /** The built-in pool is diverse: its first four agents already differ. */
  lemma UserAgentsDiverse()
    ensures Diverse(UserAgents)
  {
    var u := UserAgents;
    assert u[0][89] == '1' && u[1][89] == '2' && u[2][89] == '3';
    assert |u[3]| == 78 && |u[0]| == 115 && |u[1]| == 115 && |u[2]| == 114;
    var four := {u[0], u[1], u[2], u[3]};
    assert |four| == 4;
    SubsetCard(four, Members(u));
  }

  lemma SubsetCard<T>(a: set<T>, b: set<T>)
    requires a <= b
    ensures |a| <= |b|
  {
    assert b == a + (b - a);
  }

  /** Once every agent of a diverse pool is used, more than three are used, so the cut applies. */
  lemma AllUsedMeansMoreThanThree(agents: seq<string>, used: set<string>)
    requires Diverse(agents)
    requires forall a :: a in agents ==> a in used
    ensures |used| > RecentKept
  {
    SubsetCard(Members(agents), used);
  }

  /** After the cut at most three agents are used, so a diverse pool always has one left. */
  lemma SurvivorsLeaveChoice(agents: seq<string>, kept: set<string>)
    requires Diverse(agents)
    requires |kept| <= RecentKept
    ensures |Unused(agents, kept)| > 0
  {
    var all := Members(agents);
    if all <= kept {
      SubsetCard(all, kept);
    }
    var a :| a in all && a !in kept;
    UnusedHolds(agents, kept, a);
  }

  lemma UnusedHolds(agents: seq<string>, used: set<string>, a: string)
    requires a in agents && a !in used
    ensures |Unused(agents, used)| > 0 && a in Unused(agents, used)
  {
  }

  /**
   `_get_fresh_user_agent` over the pool `agents` (the engine's pool is
   `UserAgents`): pick an agent not yet used (`pick` stands for
   `random.choice`), cutting the used set back to its survivors first when
   every agent of a non-empty pool has been used. The fixed `FallbackAgent`
   is returned when the pool is empty (the used set is then left alone), or
   when even the survivors leave nothing to choose, which a diverse pool rules
   out.
   */
  function FreshUserAgent(agents: seq<string>, used: set<string>, order: seq<string>, pick: nat): (r: AgentChoice)
    ensures |agents| == 0 ==> r == AgentChoice(FallbackAgent, used)
    ensures |Unused(agents, used)| > 0 ==> r.agent in agents && r.agent !in used && r.used == used + {r.agent}
    ensures |Unused(agents, used)| == 0 && Diverse(agents) ==>
      && r.agent in agents
      && r.agent !in Survivors(used, order)
      && r.used == Survivors(used, order) + {r.agent}
      && |r.used| <= RecentKept + 1
  {
    var available := Unused(agents, used);
    if |available| > 0 then
      var agent := available[pick % |available|];
      AgentChoice(agent, used + {agent})
    else if |agents| == 0 then AgentChoice(FallbackAgent, used)
    else
      var kept := Survivors(used, order);
      var again := Unused(agents, kept);
      if |again| > 0 then
        var agent := again[pick % |again|];
        assert |kept + {agent}| <= |kept| + 1;
        AgentChoice(agent, kept + {agent})
      else
        SurvivorsLeaveChoiceUnlessUniform(agents, kept);
        AgentChoice(FallbackAgent, kept)
  }

  /** The agent returned when nothing is left to choose from. */
  const FallbackAgent := "Mozilla/5.0 (Windows NT 10.0; Win64; x64) AppleWebKit/537.36 (KHTML, like Gecko) Chrome/93.0.4577.82 Safari/537.36"

  lemma SurvivorsLeaveChoiceUnlessUniform(agents: seq<string>, kept: set<string>)
    requires |kept| <= RecentKept && |Unused(agents, kept)| == 0
    ensures !Diverse(agents)
  {
    if Diverse(agents) {
      SurvivorsLeaveChoice(agents, kept);
    }
  }

  /** In a diverse pool the agent handed out is always in the pool and recorded as used. */
  lemma AgentFromPool(agents: seq<string>, used: set<string>, order: seq<string>, pick: nat)
    requires Diverse(agents)
    ensures FreshUserAgent(agents, used, order, pick).agent in agents
    ensures FreshUserAgent(agents, used, order, pick).agent in FreshUserAgent(agents, used, order, pick).used
  {
  }

  /** The used set only ever holds agents of the pool. */
  lemma UsedStaysInPool(agents: seq<string>, used: set<string>, order: seq<string>, pick: nat)
    requires Diverse(agents)
    requires forall a :: a in used ==> a in agents
    ensures forall a :: a in FreshUserAgent(agents, used, order, pick).used ==> a in agents
  {
  }

  /** Every agent can be handed out: each one is chosen by some `pick` while it is unused. */
  lemma EveryUnusedAgentReachable(agents: seq<string>, used: set<string>, order: seq<string>, a: string)
    requires a in agents && a !in used
    ensures exists pick: nat :: FreshUserAgent(agents, used, order, pick).agent == a
  {
    var available := Unused(agents, used);
    var k := IndexOfUnused(agents, used, a);
    PickWhileUnused(agents, used, order, k);
  }

  /** The position of an unused agent among the unused ones. */
  lemma IndexOfUnused(agents: seq<string>, used: set<string>, a: string) returns (k: nat)
    requires a in agents && a !in used
    ensures k < |Unused(agents, used)| && Unused(agents, used)[k] == a
  {
    var available := Unused(agents, used);
    UnusedHolds(agents, used, a);
    k :| 0 <= k < |available| && available[k] == a;
  }

  /** A `pick` below the number of unused agents selects that very position. */
  lemma PickWhileUnused(agents: seq<string>, used: set<string>, order: seq<string>, k: nat)
    requires k < |Unused(agents, used)|
    ensures FreshUserAgent(agents, used, order, k).agent == Unused(agents, used)[k]
  {
    var available := Unused(agents, used);
    var n := |available|;
    assert k % n == k by { ModUnique(k, n, 0, k); }
    assert FreshUserAgent(agents, used, order, k).agent == available[k % n];
  }

  /** No agent is handed out twice before the whole pool has been used. */
  lemma NoRepeatBeforeExhaustion(agents: seq<string>, used: set<string>, order: seq<string>, pick: nat)
    requires exists a :: a in agents && a !in used
    ensures FreshUserAgent(agents, used, order, pick).agent !in used
  {
    var a :| a in agents && a !in used;
    UnusedHolds(agents, used, a);
  }
}

=== FILE: search_incidents.dfy ===
/**
 Rate-limit bookkeeping of the scraping engine: the message classifier, the
 sliding-window incident tracker that arms an extended backoff, and the
 backoff gate. Time is an integer clock supplied by the caller.
 */
module Incidents {
  import opened Text

  // ---------------------------------------------------------------------------
  // Classifying errors
  // ---------------------------------------------------------------------------

  const RateLimitTerms: seq<string> := ["rate", "limit", "429", "too many requests", "ratelimit", "202", "blocked"]

  /** Python's `any(term in text for term in terms)`. */
  function AnyTerm(text: string, terms: seq<string>): (r: bool)
    ensures r <==> exists k :: 0 <= k < |terms| && Contains(text, terms[k])
  {
    if |terms| == 0 then false
    else
      var rest := AnyTerm(text, terms[1..]);
      assert rest <==> exists k :: 1 <= k < |terms| && Contains(text, terms[k]) by {
        if rest {
          var k :| 0 <= k < |terms[1..]| && Contains(text, terms[1..][k]);
          assert terms[1..][k] == terms[k + 1];
        }
        if exists k :: 1 <= k < |terms| && Contains(text, terms[k]) {
          var k :| 1 <= k < |terms| && Contains(text, terms[k]);
          assert terms[1..][k - 1] == terms[k];
        }
      }
      Contains(text, terms[0]) || rest
  }

  /**
   `_is_rate_limit_error`: the lower-cased message mentions one of the
   rate-limit terms anywhere, as a plain substring.
   */
  function IsRateLimitError(msg: string): (r: bool)
    ensures r <==> exists k :: 0 <= k < |RateLimitTerms| && Contains(Lower(msg), RateLimitTerms[k])
  {
    AnyTerm(Lower(msg), RateLimitTerms)
  }

  /** A message in which some term occurs at a known position is classified as a rate limit. */
  lemma TermAtPositionClassifies(msg: string, k: nat, i: nat)
    requires k < |RateLimitTerms| && OccursAt(Lower(msg), RateLimitTerms[k], i)
    ensures IsRateLimitError(msg)
  {
    ContainsIff(Lower(msg), RateLimitTerms[k]);
  }

  lemma LowerUpperChar(c: char)
    ensures LowerChar(UpperChar(c)) == LowerChar(c)
  {
  }

  /** The classifier ignores case: shouting the message changes nothing. */
  lemma ClassifierIgnoresCase(msg: string)
    ensures IsRateLimitError(Upper(msg)) == IsRateLimitError(msg)
  {
    forall i | 0 <= i < |msg| ensures Lower(Upper(msg))[i] == Lower(msg)[i] {
      LowerUpperChar(msg[i]);
    }
    assert Lower(Upper(msg)) == Lower(msg);
  }

  /** The term "ratelimit" never decides anything: any text containing it contains "rate". */
  lemma RateLimitTermRedundant(text: string)
    requires Contains(text, "ratelimit")
    ensures Contains(text, "rate")
  {
    ContainsIff(text, "ratelimit");
    var i :| OccursAt(text, "ratelimit", i);
    OccursAtPrefix(text, "ratelimit", "rate", i);
    ContainsIff(text, "rate");
  }

  /** A DuckDuckGo "202" status in the message counts as a rate limit. */
  lemma StatusCodeClassifies()
    ensures IsRateLimitError("DuckDuckGo search failed with status 202")
  {
    var msg := "DuckDuckGo search failed with status 202";
    assert Lower(msg)[37..40] == "202";
    TermAtPositionClassifies(msg, 5, 37);
  }

  /** Being a substring test, "rate" also matches inside unrelated words such as "generate". */
  lemma SubstringMatchesInsideWords()
    ensures IsRateLimitError("could not generate token")
  {
    var msg := "could not generate token";
    assert Lower(msg)[14..18] == "rate";
    TermAtPositionClassifies(msg, 0, 14);
  }

  /** A message free of every term's first letter is not a rate limit. */
  lemma TimeoutIsNotRateLimit()
    ensures !IsRateLimitError("timeout")
  {
    var text := Lower("timeout");
    assert text == "timeout";
    forall k | 0 <= k < |RateLimitTerms| ensures !Contains(text, RateLimitTerms[k]) {
      var c := if k == 0 || k == 4 then 'r' else if k == 1 then 'l' else if k == 2 then '4'
        else if k == 3 then 'y' else if k == 5 then '2' else 'b';
      assert c in RateLimitTerms[k];
      IndexFromAbsent(text, RateLimitTerms[k], 0, c);
    }
  }

  // ---------------------------------------------------------------------------
  // Sliding-window incident tracker
  // ---------------------------------------------------------------------------

  /** The tracker's tunables: window length, incidents that arm the backoff, and its duration. */
  datatype BackoffPolicy = BackoffPolicy(window: int, maxIncidents: int, extendedTime: int)

  const DefaultPolicy := BackoffPolicy(600, 3, 1800)

  /** Recorded incident times and the deadline of the extended backoff (0 initially). */
  datatype Tracker = Tracker(incidents: seq<int>, backoffUntil: int)

  const InitialTracker := Tracker([], 0)

  /** The times of `ts` no older than `window` at `now`, in their original order. */
  function Recent(ts: seq<int>, now: int, window: int): (r: seq<int>)
    ensures |r| <= |ts|
    ensures forall t :: t in r <==> t in ts && now - t <= window
  {
    if |ts| == 0 then []
    else if now - ts[|ts| - 1] <= window then Recent(ts[..|ts| - 1], now, window) + [ts[|ts| - 1]]
    else Recent(ts[..|ts| - 1], now, window)
  }

  /** Filtering distributes over concatenation, so it keeps the original order. */
  lemma {:induction false} RecentAppend(a: seq<int>, b: seq<int>, now: int, window: int)
    ensures Recent(a + b, now, window) == Recent(a, now, window) + Recent(b, now, window)
    decreases |b|
  {
    if |b| > 0 {
      var b' := b[..|b| - 1];
      assert (a + b)[..|a + b| - 1] == a + b';
      assert (a + b)[|a + b| - 1] == b[|b| - 1];
      RecentAppend(a, b', now, window);
    } else {
      assert a + b == a;
    }
  }

  /** Times that are all inside the window are all kept. */
  lemma {:induction false} RecentKeepsAll(ts: seq<int>, now: int, window: int)
    requires forall i :: 0 <= i < |ts| ==> now - ts[i] <= window
    ensures Recent(ts, now, window) == ts
    decreases |ts|
  {
    if |ts| > 0 {
      RecentKeepsAll(ts[..|ts| - 1], now, window);
      assert ts[..|ts| - 1] + [ts[|ts| - 1]] == ts;
    }
  }

  /** Times that are all outside the window are all dropped. */
  lemma RecentDropsAll(ts: seq<int>, now: int, window: int)
    requires forall i :: 0 <= i < |ts| ==> now - ts[i] > window
    ensures Recent(ts, now, window) == []
  {
  }

  /**
   `_record_rate_limit_incident`: append `now`, drop the times older than the
   window, and arm the extended backoff when enough incidents remain.
   */
  function RecordIncident(p: BackoffPolicy, tr: Tracker, now: int): (r: Tracker)
    ensures forall t :: t in r.incidents ==> now - t <= p.window
    ensures forall t :: t in r.incidents <==> (t in tr.incidents || t == now) && now - t <= p.window
    ensures p.window >= 0 ==> |r.incidents| > 0 && r.incidents[|r.incidents| - 1] == now
    ensures |r.incidents| >= p.maxIncidents ==> r.backoffUntil == now + p.extendedTime
    ensures |r.incidents| < p.maxIncidents ==> r.backoffUntil == tr.backoffUntil
  {
    var kept := Recent(tr.incidents + [now], now, p.window);
    if |kept| >= p.maxIncidents then Tracker(kept, now + p.extendedTime)
    else Tracker(kept, tr.backoffUntil)
  }

  /** `_should_apply_extended_backoff`: the clock is still before the deadline. */
  predicate InBackoff(tr: Tracker, now: int) {
    now < tr.backoffUntil
  }

  /** Recording incidents one after another, in the order given. */
  function RecordAll(p: BackoffPolicy, tr: Tracker, times: seq<int>): (r: Tracker)
    decreases |times|
  {
    if |times| == 0 then tr
    else RecordIncident(p, RecordAll(p, tr, times[..|times| - 1]), times[|times| - 1])
  }

  predicate Ascending(times: seq<int>) {
    forall i, j :: 0 <= i <= j < |times| ==> times[i] <= times[j]
  }

  /** Every time of `times` is no older than `window` at `now`. */
  predicate WithinWindow(times: seq<int>, now: int, window: int) {
    forall i :: 0 <= i < |times| ==> now - times[i] <= window
  }

  /** A tail inside the window stays inside it when `now` itself is added. */
  lemma WithinWindowExtend(tail: seq<int>, now: int, window: int)
    requires WithinWindow(tail, now, window) && window >= 0
    ensures WithinWindow(tail + [now], now, window)
  {
    var last := tail + [now];
    forall i | 0 <= i < |last| ensures now - last[i] <= window {
      if i < |tail| { assert last[i] == tail[i]; }
    }
  }

  /** Recording `now` after a tail that lies inside the window extends that tail by `now`. */
  lemma SuffixStep(before: seq<int>, tail: seq<int>, now: int, window: int)
    requires |before| >= |tail| && before[|before| - |tail|..] == tail
    requires WithinWindow(tail, now, window) && window >= 0
    ensures var after := Recent(before + [now], now, window);
      |after| >= |tail| + 1 && after[|after| - |tail| - 1..] == tail + [now]
  {
    var m := |before| - |tail|;
    var head := before[..m];
    var last := tail + [now];
    assert before + [now] == head + last by {
      assert before == head + tail;
    }
    WithinWindowExtend(tail, now, window);
    RecentKeepsSuffix(head, last, now, window);
    var older := Recent(head, now, window);
    assert (older + last)[|older|..] == last;
  }

  /** A suffix inside the window survives the filter whole. */
  lemma RecentKeepsSuffix(head: seq<int>, last: seq<int>, now: int, window: int)
    requires WithinWindow(last, now, window)
    ensures Recent(head + last, now, window) == Recent(head, now, window) + last
  {
    RecentAppend(head, last, now, window);
    RecentKeepsAll(last, now, window);
  }

  /** Dropping the last time of an ascending burst leaves a burst inside the window. */
  lemma BurstPrefix(times: seq<int>, window: int)
    requires |times| > 1 && Ascending(times)
    requires WithinWindow(times, times[|times| - 1], window)
    ensures var init := times[..|times| - 1];
      && Ascending(init)
      && WithinWindow(init, init[|init| - 1], window)
      && WithinWindow(init, times[|times| - 1], window)
  {
    var n := |times|;
    var init := times[..n - 1];
    forall i | 0 <= i < |init| ensures init[n - 2] - init[i] <= window {
      assert init[i] == times[i] && init[n - 2] == times[n - 2];
    }
  }

  /**
   A burst that all lies inside one window survives whole: after recording it,
   the tracker's incidents end with exactly the burst.
   */
  lemma BurstRetained(p: BackoffPolicy, tr: Tracker, times: seq<int>)
    requires |times| > 0 && Ascending(times)
    requires WithinWindow(times, times[|times| - 1], p.window)
    ensures var inc := RecordAll(p, tr, times).incidents;
      |inc| >= |times| && inc[|inc| - |times|..] == times
  {
    RecordAllKept(p, tr, times);
    BurstKept(tr.incidents, times, p.window);
  }

  /** The incidents left after recording `times` one after another, starting from `ts`. */
  function Kept(ts: seq<int>, times: seq<int>, window: int): seq<int>
    decreases |times|
  {
    if |times| == 0 then ts
    else
      var now := times[|times| - 1];
      Recent(Kept(ts, times[..|times| - 1], window) + [now], now, window)
  }

  /** Recording a series keeps exactly the incidents `Kept` describes. */
  lemma {:induction false} RecordAllKept(p: BackoffPolicy, tr: Tracker, times: seq<int>)
    ensures RecordAll(p, tr, times).incidents == Kept(tr.incidents, times, p.window)
    decreases |times|
  {
    if |times| > 0 {
      RecordAllKept(p, tr, times[..|times| - 1]);
    }
  }

  /** `BurstRetained` for the incident list alone. */
  lemma {:induction false} BurstKept(ts: seq<int>, times: seq<int>, window: int)
    requires |times| > 0 && Ascending(times)
    requires WithinWindow(times, times[|times| - 1], window)
    ensures var inc := Kept(ts, times, window);
      |inc| >= |times| && inc[|inc| - |times|..] == times
    decreases |times|
  {
    var n := |times|;
    var now := times[n - 1];
    var init := times[..n - 1];
    var before := Kept(ts, init, window);
    assert window >= 0 by { assert now - times[n - 1] <= window; }
    if n == 1 {
      SuffixStep(before, [], now, window);
      assert [] + [now] == times;
    } else {
      assert Ascending(init) && WithinWindow(init, init[|init| - 1], window) && WithinWindow(init, now, window) by {
        BurstPrefix(times, window);
      }
      BurstKept(ts, init, window);
      SuffixStep(before, init, now, window);
      assert init + [now] == times;
    }
  }

  /**
   The tracker's promise: `maxIncidents` or more incidents inside one window
   arm the extended backoff until `extendedTime` after the last of them.
   */
  lemma BurstArmsBackoff(p: BackoffPolicy, tr: Tracker, times: seq<int>)
    requires |times| > 0 && Ascending(times)
    requires times[|times| - 1] - times[0] <= p.window
    requires |times| >= p.maxIncidents
    ensures RecordAll(p, tr, times).backoffUntil == times[|times| - 1] + p.extendedTime
    ensures InBackoff(RecordAll(p, tr, times), times[|times| - 1]) <==> p.extendedTime > 0
  {
    assert WithinWindow(times, times[|times| - 1], p.window);
    BurstRetained(p, tr, times);
  }

  /** An incident after a quiet spell longer than the window starts the count afresh. */
  lemma QuietSpellResets(p: BackoffPolicy, tr: Tracker, now: int)
    requires p.window >= 0
    requires forall i :: 0 <= i < |tr.incidents| ==> now - tr.incidents[i] > p.window
    ensures RecordIncident(p, tr, now).incidents == [now]
    ensures p.maxIncidents > 1 ==> RecordIncident(p, tr, now).backoffUntil == tr.backoffUntil
  {
    RecentAppend(tr.incidents, [now], now, p.window);
    RecentDropsAll(tr.incidents, now, p.window);
    assert Recent([now], now, p.window) == [now];
  }

  /** With the default policy, three incidents within ten minutes arm thirty minutes of backoff. */
  lemma DefaultThreeStrikes(t0: int)
    ensures RecordAll(DefaultPolicy, InitialTracker, [t0, t0 + 300, t0 + 600]).backoffUntil == t0 + 2400
  {
    var times := [t0, t0 + 300, t0 + 600];
    assert Ascending(times);
    BurstArmsBackoff(DefaultPolicy, InitialTracker, times);
  }
}

=== FILE: search_results.dfy ===
/**
 Turning DuckDuckGo's result rows into search results, and the placeholder
 results returned when a search is refused. HTML entity decoding and URL
 percent-decoding are library transforms, passed in as `Codecs`.
 */
module Results {
  import opened Common
  import opened Values
  import opened Text

  /** One search result: the `title`, `href` and `body` of the result dictionary. */
  datatype SearchResult = SearchResult(title: string, href: string, body: string)

  /** `html.unescape` and `urllib.parse.unquote`, left abstract. */
  datatype Codecs = Codecs(unescape: string -> string, unquote: string -> string)

  // ---------------------------------------------------------------------------
  // Normalisation
  // ---------------------------------------------------------------------------

  /**
   `_normalize`: a falsy value gives `""`; a string has its tags removed and
   its entities decoded; any other truthy value makes `re.sub` raise (`None`).
   */
  function Normalize(raw: Value, c: Codecs): (r: Option<string>)
    ensures !Truthy(raw) ==> r == Some("")
    ensures Truthy(raw) && !raw.Str? ==> r.None?
    ensures raw.Str? && raw.s != "" && '<' !in raw.s ==> r == Some(c.unescape(raw.s))
    ensures raw.Str? && raw.s != "" ==> exists t :: TagFree(t) && |t| <= |raw.s| && r == Some(c.unescape(t))
    ensures raw.Str? ==> r.Some?
  {
    if !Truthy(raw) then Some("")
    else if raw.Str? then
      StripTagsTagFree(raw.s);
      Some(c.unescape(StripTags(raw.s)))
    else None
  }

  /** A tag inside the text is dropped before decoding, and the text on both sides of it is kept. */
  lemma NormalizeDropsTag(a: string, t: string, b: string, c: Codecs)
    requires '<' !in a && '>' !in t && '\n' !in t
    ensures Normalize(Str(a + "<" + t + ">" + b), c) == Some(c.unescape(a + StripTags(b)))
  {
    StripTagsKeepsText(a, t, b);
  }

  /** The decoder only ever sees tag-free text: removing the tags beforehand changes nothing. */
  lemma NormalizeSeesTagFreeText(s: string, c: Codecs)
    requires StripTags(s) != ""
    ensures Normalize(Str(s), c) == Normalize(Str(StripTags(s)), c)
  {
    var once := StripTags(s);
    NormalizeString(s, c);
    NormalizeString(once, c);
    StripTagsIdempotent(s);
  }

  /** A non-empty string is stripped of its tags, then decoded. */
  lemma NormalizeString(s: string, c: Codecs)
    requires s != ""
    ensures Normalize(Str(s), c) == Some(c.unescape(StripTags(s)))
  {
  }

  /** `_normalize_url`: spaces become `+` before percent-decoding; the empty URL stays empty. */
  function NormalizeUrl(url: string, c: Codecs): (r: string)
    ensures url == "" ==> r == ""
    ensures url != "" ==> exists pre :: Replaced(url, ' ', '+', pre) && r == c.unquote(pre)
  {
    if url == "" then ""
    else
      ReplaceCharRemovesAll(url, ' ', '+');
      c.unquote(ReplaceChar(url, ' ', '+'))
  }

  /** A string without the character is left alone by the replacement. */
  lemma ReplaceAbsent(s: string, a: char, b: char)
    requires a !in s
    ensures ReplaceChar(s, a, b) == s
  {
  }

  /**
   A space and a `+` reach the decoder alike: normalising a URL gives what
   normalising it with its spaces already written as `+` gives, and a URL
   without spaces goes to the decoder unchanged.
   */
  lemma NormalizeUrlSpaceIsPlus(url: string, c: Codecs)
    ensures NormalizeUrl(url, c) == NormalizeUrl(ReplaceChar(url, ' ', '+'), c)
    ensures ' ' !in url && url != "" ==> NormalizeUrl(url, c) == c.unquote(url)
  {
    var plus := ReplaceChar(url, ' ', '+');
    ReplaceCharRemovesAll(url, ' ', '+');
    ReplaceAbsent(plus, ' ', '+');
    if ' ' !in url {
      ReplaceAbsent(url, ' ', '+');
    }
  }

  // ---------------------------------------------------------------------------
  // The row loop
  // ---------------------------------------------------------------------------

  /** The URL DuckDuckGo inserts to point back at a Google search for the same query. */
  function GoogleQueryUrl(query: string): string {
    "http://www.google.com/search?q=" + query
  }

  /** `row.get(key)`: a missing key reads as `None`. */
  function RowField(row: Value, key: string): Value
    requires row.Dict?
  {
    DictGet(row.fields, key).GetOr(Null)
  }

  /** What one row contributes: nothing, one result, or an exception that aborts the search. */
  datatype RowOutcome = Skip | Take(result: SearchResult) | Crash

  /**
   One iteration of the row loop: rows without a usable `u`, or pointing back at
   Google, or whose `a` normalises to the empty string are skipped. A row that is
   not a dictionary, lacks `a` or `t`, or holds a non-string where text is
   expected raises.
   */
  function ProcessRow(row: Value, query: string, c: Codecs): (r: RowOutcome)
    ensures !row.Dict? ==> r.Crash?
  {
    if !row.Dict? then Crash
    else
      var href := RowField(row, "u");
      if !Truthy(href) || href == Str(GoogleQueryUrl(query)) then Skip
      else if "a" !in row.fields then Crash
      else match Normalize(row.fields["a"], c)
        case None => Crash
        case Some(body) =>
          if body == "" then Skip
          else if "t" !in row.fields then Crash
          else match Normalize(row.fields["t"], c)
            case None => Crash
            case Some(title) =>
              if !href.Str? then Crash
              else Take(SearchResult(title, NormalizeUrl(href.s, c), body))
  }

  /** The row loop's filter, stated field by field: when a row is skipped and what a kept row holds. */
  lemma RowOutcomes(row: Value, query: string, c: Codecs)
    ensures var r := ProcessRow(row, query, c);
      r.Skip? <==>
        && row.Dict?
        && (|| !Truthy(RowField(row, "u"))
            || RowField(row, "u") == Str(GoogleQueryUrl(query))
            || ("a" in row.fields && Normalize(row.fields["a"], c) == Some("")))
    ensures var r := ProcessRow(row, query, c);
      r.Take? ==>
        && row.Dict? && "a" in row.fields && "t" in row.fields
        && RowField(row, "u").Str?
        && RowField(row, "u").s != "" && RowField(row, "u").s != GoogleQueryUrl(query)
        && r.result.body != ""
        && Normalize(row.fields["a"], c) == Some(r.result.body)
        && Normalize(row.fields["t"], c) == Some(r.result.title)
        && r.result.href == NormalizeUrl(RowField(row, "u").s, c)
  {
  }

  /**
   What each row would contribute. Rows are pure data, so deciding every row up
   front and then walking the outcomes is the same as Python's lazy loop, which
   never looks past the row at which it stops.
   */
  function Outcomes(rows: seq<Value>, query: string, c: Codecs): (r: seq<RowOutcome>)
    ensures |r| == |rows|
  {
    seq(|rows|, i requires 0 <= i < |rows| => ProcessRow(rows[i], query, c))
  }

  /** Every result the outcomes would yield with no cap, in row order. */
  function Takes(outs: seq<RowOutcome>): seq<SearchResult>
    decreases |outs|
  {
    if |outs| == 0 then []
    else if outs[0].Take? then [outs[0].result] + Takes(outs[1..])
    else Takes(outs[1..])
  }

  /** Some row raises. */
  predicate Crashes(outs: seq<RowOutcome>)
    decreases |outs|
  {
    |outs| > 0 && (outs[0].Crash? || Crashes(outs[1..]))
  }

  /**
   Python compares `len(results) >= max_results` after appending, so the loop
   holds at most `Cap(maxResults)` results: at least one even when
   `max_results <= 0`.
   */
  function Cap(maxResults: int): (r: nat)
    ensures r >= 1 && r >= maxResults
    ensures maxResults >= 1 ==> r == maxResults
  {
    if maxResults < 1 then 1 else maxResults
  }

  function Min(a: int, b: int): int {
    if a <= b then a else b
  }

  /**
   The row loop from the point where `acc` has been collected: it stops at the
   first crash, or as soon as it holds `cap` results.
   */
  function Gather(outs: seq<RowOutcome>, cap: nat, acc: seq<SearchResult>): (r: Option<seq<SearchResult>>)
    requires |acc| < cap
    ensures r.Some? ==> |acc| <= |r.value| <= cap && r.value[..|acc|] == acc
    decreases |outs|
  {
    if |outs| == 0 then Some(acc)
    else match outs[0]
      case Crash => None
      case Skip => Gather(outs[1..], cap, acc)
      case Take(res) =>
        if |acc| + 1 >= cap then Some(acc + [res])
        else
          var tail := Gather(outs[1..], cap, acc + [res]);
          assert tail.Some? ==> tail.value[..|acc|] == (tail.value[..|acc| + 1])[..|acc|];
          tail
  }

  /**
   What the loop gathers is the uncapped results in row order, cut short; it is
   cut short of the cap only when no row raised and every result was taken.
   */
  lemma {:induction false} GatherTakes(outs: seq<RowOutcome>, cap: nat, acc: seq<SearchResult>)
    requires |acc| < cap
    ensures var r := Gather(outs, cap, acc);
      r.Some? ==> |r.value| - |acc| <= |Takes(outs)| && r.value == acc + Takes(outs)[..|r.value| - |acc|]
    ensures var r := Gather(outs, cap, acc);
      r.Some? && |r.value| < cap ==> r.value == acc + Takes(outs) && !Crashes(outs)
    decreases |outs|
  {
    if |outs| > 0 {
      var rest := outs[1..];
      match outs[0]
      case Crash =>
      case Skip =>
        GatherTakes(rest, cap, acc);
      case Take(res) =>
        if |acc| + 1 < cap {
          GatherTakes(rest, cap, acc + [res]);
          var r := Gather(outs, cap, acc);
          if r.Some? {
            var n := |r.value| - |acc|;
            assert Takes(outs)[..n] == [res] + Takes(rest)[..n - 1];
          }
        }
    }
  }

  /** Without a crashing row the loop yields the first `cap` results, or all of them. */
  lemma {:induction false} GatherNoCrash(outs: seq<RowOutcome>, cap: nat, acc: seq<SearchResult>)
    requires |acc| < cap
    ensures !Crashes(outs) ==> Gather(outs, cap, acc) == Some(acc + Takes(outs)[..Min(|Takes(outs)|, cap - |acc|)])
    decreases |outs|
  {
    if |outs| == 0 {
      assert Takes(outs)[..0] == [];
      assert acc + [] == acc;
    } else if !Crashes(outs) {
      var rest := outs[1..];
      match outs[0]
      case Crash =>
      case Skip =>
        GatherNoCrash(rest, cap, acc);
      case Take(res) =>
        if |acc| + 1 >= cap {
          assert Takes(outs)[..1] == [res];
        } else {
          var all := Takes(rest);
          GatherNoCrash(rest, cap, acc + [res]);
          assert Takes(outs) == [res] + all;
          ConsPrefix(acc, res, all, Min(|all|, cap - |acc| - 1));
        }
    }
  }

  lemma ConsPrefix<T>(acc: seq<T>, x: T, all: seq<T>, n: nat)
    requires n <= |all|
    ensures acc + [x] + all[..n] == acc + ([x] + all)[..n + 1]
  {
    assert ([x] + all)[..n + 1] == [x] + all[..n];
  }

  /** The loop only fails when some row raises. */
  lemma {:induction false} GatherFails(outs: seq<RowOutcome>, cap: nat, acc: seq<SearchResult>)
    requires |acc| < cap
    ensures Gather(outs, cap, acc).None? ==> Crashes(outs)
    decreases |outs|
  {
    if |outs| > 0 {
      match outs[0]
      case Crash =>
      case Skip =>
        GatherFails(outs[1..], cap, acc);
      case Take(res) =>
        if |acc| + 1 < cap {
          GatherFails(outs[1..], cap, acc + [res]);
        }
    }
  }

  /** Dropping the first row of a prefix: the first row's result, if any, then the rest's. */
  lemma TakesPrefixStep(outs: seq<RowOutcome>, k: nat)
    requires k < |outs|
    ensures |Takes(outs[..k + 1])| == (if outs[0].Take? then 1 else 0) + |Takes(outs[1..][..k])|
  {
    assert outs[..k + 1][1..] == outs[1..][..k];
  }

  /**
   The loop fails exactly when some row raises while fewer than `cap` results
   are held: a row met after the loop has broken off is never read.
   */
  lemma {:induction false} GatherFailsIff(outs: seq<RowOutcome>, cap: nat, acc: seq<SearchResult>)
    requires |acc| < cap
    ensures Gather(outs, cap, acc).None? <==>
      exists k :: 0 <= k < |outs| && outs[k].Crash? && |acc| + |Takes(outs[..k])| < cap
    decreases |outs|
  {
    if |outs| > 0 {
      var rest := outs[1..];
      var step := if outs[0].Take? then 1 else 0;
      var acc' := if outs[0].Take? then acc + [outs[0].result] else acc;
      if outs[0].Crash? {
        assert outs[..0] == [];
        assert outs[0].Crash? && |acc| + |Takes(outs[..0])| < cap;
      } else if |acc| + step >= cap {
        forall k | 1 <= k < |outs| ensures |acc| + |Takes(outs[..k])| >= cap {
          TakesPrefixStep(outs, k - 1);
        }
      } else {
        GatherFailsIff(rest, cap, acc');
        forall k | 1 <= k < |outs|
          ensures |acc| + |Takes(outs[..k])| == |acc'| + |Takes(rest[..k - 1])| && outs[k] == rest[k - 1]
        {
          TakesPrefixStep(outs, k - 1);
        }
        if exists k :: 0 <= k < |rest| && rest[k].Crash? && |acc'| + |Takes(rest[..k])| < cap {
          var k :| 0 <= k < |rest| && rest[k].Crash? && |acc'| + |Takes(rest[..k])| < cap;
          assert outs[k + 1].Crash? && |acc| + |Takes(outs[..k + 1])| < cap;
        }
      }
    }
  }

  /** Once the rows before `k` hold `cap` results, the loop never reads row `k` or any later row. */
  lemma {:induction false} GatherStopsAtCap(outs: seq<RowOutcome>, cap: nat, acc: seq<SearchResult>, k: nat)
    requires |acc| < cap && k <= |outs|
    requires |acc| + |Takes(outs[..k])| >= cap
    ensures Gather(outs, cap, acc) == Gather(outs[..k], cap, acc)
    decreases k
  {
    assert outs[..0] == [];
    var head := outs[..k];
    assert head[0] == outs[0];
    assert head[1..] == outs[1..][..k - 1];
    TakesPrefixStep(outs, k - 1);
    if outs[0].Take? && |acc| + 1 < cap {
      GatherStopsAtCap(outs[1..], cap, acc + [outs[0].result], k - 1);
    } else if outs[0].Skip? {
      GatherStopsAtCap(outs[1..], cap, acc, k - 1);
    }
  }

  /** The row loop of `_duckduckgo_search`; `None` is an exception raised by some row. */
  function Collect(rows: seq<Value>, query: string, maxResults: int, c: Codecs): (r: Option<seq<SearchResult>>)
    ensures var outs := Outcomes(rows, query, c);
      r.Some? ==> |r.value| <= Cap(maxResults) && r.value <= Takes(outs)
    ensures var outs := Outcomes(rows, query, c);
      r.Some? && |r.value| < Cap(maxResults) ==> r.value == Takes(outs)
    ensures var outs := Outcomes(rows, query, c);
      !Crashes(outs) ==> r == Some(Takes(outs)[..Min(|Takes(outs)|, Cap(maxResults))])
    ensures r.None? ==> Crashes(Outcomes(rows, query, c))
    ensures var outs := Outcomes(rows, query, c);
      r.None? <==> exists k :: 0 <= k < |outs| && outs[k].Crash? && |Takes(outs[..k])| < Cap(maxResults)
  {
    var outs := Outcomes(rows, query, c);
    GatherTakes(outs, Cap(maxResults), []);
    GatherFails(outs, Cap(maxResults), []);
    GatherNoCrash(outs, Cap(maxResults), []);
    GatherFailsIff(outs, Cap(maxResults), []);
    Gather(outs, Cap(maxResults), [])
  }

  /** The outcomes of the first `k` rows are the first `k` outcomes. */
  lemma OutcomesPrefix(rows: seq<Value>, query: string, c: Codecs, k: nat)
    requires k <= |rows|
    ensures Outcomes(rows[..k], query, c) == Outcomes(rows, query, c)[..k]
  {
  }

  /** A row that raises before `max_results` results are held makes the whole loop fail. */
  lemma EarlyCrashFails(rows: seq<Value>, query: string, maxResults: int, c: Codecs, k: nat)
    requires k < |rows| && ProcessRow(rows[k], query, c).Crash?
    requires |Takes(Outcomes(rows[..k], query, c))| < Cap(maxResults)
    ensures Collect(rows, query, maxResults, c).None?
  {
    OutcomesPrefix(rows, query, c, k);
    var outs := Outcomes(rows, query, c);
    assert outs[k].Crash? && |Takes(outs[..k])| < Cap(maxResults);
  }

  /**
   Once the first `k` rows yield `max_results` results the loop has broken
   off: whatever the later rows hold, even a row that would raise, the
   results are those of the first `k` rows.
   */
  lemma LaterRowsUnread(rows: seq<Value>, query: string, maxResults: int, c: Codecs, k: nat)
    requires k <= |rows|
    requires |Takes(Outcomes(rows[..k], query, c))| >= Cap(maxResults)
    ensures Collect(rows, query, maxResults, c) == Collect(rows[..k], query, maxResults, c)
  {
    OutcomesPrefix(rows, query, c, k);
    GatherStopsAtCap(Outcomes(rows, query, c), Cap(maxResults), [], k);
  }

  /** Results of outcomes that each carry a body carry a body. */
  lemma {:induction false} TakesKeepBodies(outs: seq<RowOutcome>)
    requires forall i :: 0 <= i < |outs| && outs[i].Take? ==> outs[i].result.body != ""
    ensures forall k :: 0 <= k < |Takes(outs)| ==> Takes(outs)[k].body != ""
    decreases |outs|
  {
    if |outs| > 0 {
      var later := Takes(outs[1..]);
      assert forall i :: 0 <= i < |outs[1..]| && outs[1..][i].Take? ==> outs[1..][i].result.body != "" by {
        forall i | 0 <= i < |outs[1..]| ensures outs[1..][i] == outs[i + 1] { }
      }
      TakesKeepBodies(outs[1..]);
      if outs[0].Take? {
        assert Takes(outs) == [outs[0].result] + later;
      }
    }
  }

  /** No gathered result carries an empty body. */
  lemma TakesAreClean(rows: seq<Value>, query: string, c: Codecs)
    ensures var all := Takes(Outcomes(rows, query, c));
      forall k :: 0 <= k < |all| ==> all[k].body != ""
  {
    var outs := Outcomes(rows, query, c);
    forall i | 0 <= i < |outs| && outs[i].Take? ensures outs[i].result.body != "" {
      RowOutcomes(rows[i], query, c);
    }
    TakesKeepBodies(outs);
  }

  // ---------------------------------------------------------------------------
  // Placeholders
  // ---------------------------------------------------------------------------

  const PlaceholderBody := "Search could not be completed. Please try again later or refine your search query."
  const PlaceholderPrefix := "https://duckduckgo.com/?q="

  function PlaceholderTitle(query: string, i: nat): string {
    if i == 0 then "Search result " + DecimalString(i + 1) + " for '" + query + "'"
    else "Alternative search result for '" + query + "'"
  }

  /**
   `_generate_placeholder_results`: `max_results` stand-in results (none when
   it is not positive), all pointing at a DuckDuckGo search for the query.
   */
  function Placeholders(query: string, maxResults: int): (r: seq<SearchResult>)
    ensures |r| == (if maxResults > 0 then maxResults else 0)
    ensures |r| > 0 ==> r[0].title == "Search result 1 for '" + query + "'"
    ensures forall i :: 1 <= i < |r| ==> r[i].title == "Alternative search result for '" + query + "'"
    ensures forall i :: 0 <= i < |r| ==> r[i].body == PlaceholderBody
    ensures forall i :: 0 <= i < |r| ==> r[i].href == PlaceholderHref(query)
    ensures forall i :: 0 <= i < |r| ==>
      && |r[i].href| == |PlaceholderPrefix| + |query|
      && r[i].href[..|PlaceholderPrefix|] == PlaceholderPrefix
      && ' ' !in r[i].href
  {
    var n := if maxResults > 0 then maxResults else 0;
    var href := PlaceholderHref(query);
    FirstPlaceholderTitle(query);
    seq(n, i requires 0 <= i < n => SearchResult(PlaceholderTitle(query, i), href, PlaceholderBody))
  }

  /** The search link for the query, spaces turned into `+`. */
  function PlaceholderHref(query: string): (r: string)
    ensures |r| == |PlaceholderPrefix| + |query| && r[..|PlaceholderPrefix|] == PlaceholderPrefix
    ensures ' ' !in r
    ensures forall k :: 0 <= k < |query| && query[k] != ' ' ==> r[|PlaceholderPrefix| + k] == query[k]
    ensures Replaced(query, ' ', '+', r[|PlaceholderPrefix|..])
  {
    var q := ReplaceChar(query, ' ', '+');
    ReplaceCharRemovesAll(query, ' ', '+');
    assert ' ' !in PlaceholderPrefix;
    assert (PlaceholderPrefix + q)[|PlaceholderPrefix|..] == q;
    PlaceholderPrefix + q
  }

  lemma FirstPlaceholderTitle(query: string)
    ensures PlaceholderTitle(query, 0) == "Search result 1 for '" + query + "'"
  {
    assert DecimalString(1) == "1";
  }

  /** The query's non-space characters survive in the placeholder link, each in its place. */
  lemma PlaceholderHrefKeepsQuery(query: string, maxResults: int, i: nat, k: nat)
    requires i < |Placeholders(query, maxResults)| && k < |query| && query[k] != ' '
    ensures Placeholders(query, maxResults)[i].href[|PlaceholderPrefix| + k] == query[k]
  {
    assert Placeholders(query, maxResults)[i].href == PlaceholderHref(query);
  }
}

=== FILE: text.dfy ===
/**
 Sequence and string primitives the Python code takes from its standard library:
 `bytes.index`/`str.index`, `in` on strings, ASCII `lower`/`upper`, `replace`,
 `split`, `strip`, `isdigit`/`int`/`str` on counts, and the non-greedy tag
 removal `re.sub("<.*?>", "", s)`.
 */
module Text {
  import opened Common

  /** One byte of a `bytes` object. */
  newtype byte = x: int | 0 <= x < 256

  /** The bytes of an ASCII literal such as `b"vqd="`; exact for every character below 256. */
  function Ascii(s: string): (r: seq<byte>)
    ensures |r| == |s|
  {
    seq(|s|, i requires 0 <= i < |s| => ((s[i] as int) % 256) as byte)
  }

  // ---------------------------------------------------------------------------
  // Searching
  // ---------------------------------------------------------------------------

  /** `pat` occurs in `s` starting at position `i`. */
  predicate OccursAt<T(==)>(s: seq<T>, pat: seq<T>, i: int) {
    0 <= i && i + |pat| <= |s| && s[i..i + |pat|] == pat
  }

  /**
   `s.index(pat, start)`: the first position at or after `start` where `pat`
   occurs; `None` stands for the `ValueError` Python raises when there is none.
   */
  function IndexFrom<T(==)>(s: seq<T>, pat: seq<T>, start: nat): (r: Option<nat>)
    ensures r.Some? ==> start <= r.value && OccursAt(s, pat, r.value)
    ensures r.Some? ==> forall j :: start <= j < r.value ==> !OccursAt(s, pat, j)
    ensures r.None? ==> forall j :: start <= j ==> !OccursAt(s, pat, j)
    decreases |s| - start
  {
    if start + |pat| > |s| then None
    else if s[start..start + |pat|] == pat then Some(start)
    else IndexFrom(s, pat, start + 1)
  }

  /** Python's `pat in s` for strings and bytes. */
  predicate Contains<T(==)>(s: seq<T>, pat: seq<T>) {
    IndexFrom(s, pat, 0).Some?
  }

  lemma ContainsIff<T>(s: seq<T>, pat: seq<T>)
    ensures Contains(s, pat) <==> exists i :: OccursAt(s, pat, i)
  {
    if exists i :: OccursAt(s, pat, i) {
      var i :| OccursAt(s, pat, i);
      assert 0 <= i;
    }
  }

  /** A first occurrence found by other means is the one `IndexFrom` reports. */
  lemma IndexFromFirst<T>(s: seq<T>, pat: seq<T>, start: nat, m: nat)
    requires start <= m && OccursAt(s, pat, m)
    requires forall j :: start <= j < m ==> !OccursAt(s, pat, j)
    ensures IndexFrom(s, pat, start) == Some(m)
  {
  }

  /** Occurrences inside the right operand of a concatenation, shifted by the left one's length. */
  lemma OccursAtShift<T>(a: seq<T>, b: seq<T>, pat: seq<T>, j: int)
    requires 0 <= j
    ensures OccursAt(a + b, pat, |a| + j) <==> OccursAt(b, pat, j)
  {
    if j + |pat| <= |b| {
      assert (a + b)[|a| + j..|a| + j + |pat|] == b[j..j + |pat|];
    }
  }

  /** An occurrence that ends within the left operand is unaffected by what follows. */
  lemma OccursAtExtend<T>(x: seq<T>, y: seq<T>, pat: seq<T>, j: int)
    requires 0 <= j && j + |pat| <= |x|
    ensures OccursAt(x + y, pat, j) <==> OccursAt(x, pat, j)
  {
    assert (x + y)[j..j + |pat|] == x[j..j + |pat|];
  }

  /** Where a pattern occurs, each of its prefixes occurs too. */
  lemma OccursAtPrefix<T>(s: seq<T>, pat: seq<T>, q: seq<T>, i: int)
    requires q <= pat && OccursAt(s, pat, i)
    ensures OccursAt(s, q, i)
  {
    assert s[i..i + |q|] == s[i..i + |pat|][..|q|];
  }

  /** A one-element pattern occurs exactly where that element stands. */
  lemma OccursAtSingle<T>(s: seq<T>, c: T, j: int)
    ensures OccursAt(s, [c], j) <==> 0 <= j < |s| && s[j] == c
  {
    if 0 <= j < |s| {
      assert s[j..j + 1] == [s[j]];
    }
  }

  /** A pattern holding an element absent from `s` is never found. */
  lemma IndexFromAbsent<T>(s: seq<T>, pat: seq<T>, start: nat, c: T)
    requires c in pat && c !in s
    ensures IndexFrom(s, pat, start).None?
  {
    var k :| 0 <= k < |pat| && pat[k] == c;
    forall j | 0 <= j ensures !OccursAt(s, pat, j) {
      if j + |pat| <= |s| {
        assert s[j..j + |pat|][k] == s[j + k];
      }
    }
  }

  // ---------------------------------------------------------------------------
  // Case mapping and replacement (ASCII letters only)
  // ---------------------------------------------------------------------------

  function LowerChar(c: char): char {
    if 'A' <= c <= 'Z' then (c as int + 32) as char else c
  }

  function UpperChar(c: char): char {
    if 'a' <= c <= 'z' then (c as int - 32) as char else c
  }

  /** `s.lower()` restricted to ASCII letters. */
  function Lower(s: string): (r: string)
    ensures |r| == |s|
  {
    seq(|s|, i requires 0 <= i < |s| => LowerChar(s[i]))
  }

  /** `s.upper()` restricted to ASCII letters. */
  function Upper(s: string): (r: string)
    ensures |r| == |s|
  {
    seq(|s|, i requires 0 <= i < |s| => UpperChar(s[i]))
  }

  /** `s.replace(a, b)` for single characters, e.g. `query.replace(" ", "+")`. */
  function ReplaceChar(s: string, a: char, b: char): (r: string)
    ensures |r| == |s|
  {
    seq(|s|, i requires 0 <= i < |s| => if s[i] == a then b else s[i])
  }

  /** `r` is `s` with every `a` turned into `b` and every other character kept in its place. */
  predicate Replaced(s: string, a: char, b: char, r: string) {
    |r| == |s| && forall i :: 0 <= i < |s| ==> r[i] == (if s[i] == a then b else s[i])
  }

  lemma ReplaceCharRemovesAll(s: string, a: char, b: char)
    requires a != b
    ensures a !in ReplaceChar(s, a, b)
    ensures forall i :: 0 <= i < |s| && s[i] != a ==> ReplaceChar(s, a, b)[i] == s[i]
    ensures Replaced(s, a, b, ReplaceChar(s, a, b))
  {
    var r := ReplaceChar(s, a, b);
    forall i | 0 <= i < |r| ensures r[i] != a { }
  }

  // ---------------------------------------------------------------------------
  // split / join
  // ---------------------------------------------------------------------------

  /** The inverse of `Split`: `sep.join(parts)`. */
  function Join(parts: seq<string>, sep: char): string
    decreases |parts|
  {
    if |parts| == 0 then ""
    else if |parts| == 1 then parts[0]
    else parts[0] + [sep] + Join(parts[1..], sep)
  }

  /** `s.split(sep)` for a one-character separator: never empty, and rejoining gives `s` back. */
  function Split(s: string, sep: char): (r: seq<string>)
    ensures |r| >= 1
    ensures forall k :: 0 <= k < |r| ==> sep !in r[k]
    ensures Join(r, sep) == s
    decreases |s|
  {
    match IndexFrom(s, [sep], 0)
    case None =>
      assert sep !in s by {
        forall j | 0 <= j < |s| ensures s[j] != sep {
          assert !OccursAt(s, [sep], j) && s[j..j + 1] == [s[j]];
        }
      }
      [s]
    case Some(i) =>
      assert sep !in s[..i] by {
        forall j | 0 <= j < i ensures s[j] != sep {
          assert !OccursAt(s, [sep], j) && s[j..j + 1] == [s[j]];
        }
      }
      assert s[i..i + 1] == [sep];
      assert s == s[..i] + [sep] + s[i + 1..];
      [s[..i]] + Split(s[i + 1..], sep)
  }

  /** A string without the separator splits into itself alone. */
  lemma SplitNoSep(s: string, sep: char)
    requires sep !in s
    ensures Split(s, sep) == [s]
  {
    IndexFromAbsent(s, [sep], 0, sep);
  }

  /** Splitting at the first separator peels off the leading field. */
  lemma SplitCons(a: string, b: string, sep: char)
    requires sep !in a
    ensures Split(a + [sep] + b, sep) == [a] + Split(b, sep)
  {
    var s := a + [sep] + b;
    OccursAtSingle(s, sep, |a|);
    forall j | 0 <= j < |a| ensures !OccursAt(s, [sep], j) {
      OccursAtSingle(s, sep, j);
    }
    IndexFromFirst(s, [sep], 0, |a|);
    assert s[..|a|] == a && s[|a| + 1..] == b;
  }

  // ---------------------------------------------------------------------------
  // strip
  // ---------------------------------------------------------------------------

  /** Python's `str.isspace` for one character. */
  predicate IsSpace(c: char) {
    var n := c as int;
    || n == 0x20 || 0x09 <= n <= 0x0d || 0x1c <= n <= 0x1f || n == 0x85 || n == 0xa0
    || n == 0x1680 || 0x2000 <= n <= 0x200a || n == 0x2028 || n == 0x2029
    || n == 0x202f || n == 0x205f || n == 0x3000
  }

  function TrimStart(s: string): (r: string)
    ensures |r| <= |s| && r == s[|s| - |r|..]
    ensures forall i :: 0 <= i < |s| - |r| ==> IsSpace(s[i])
    ensures |r| > 0 ==> !IsSpace(r[0])
    decreases |s|
  {
    if |s| > 0 && IsSpace(s[0]) then TrimStart(s[1..]) else s
  }

  function TrimEnd(s: string): (r: string)
    ensures |r| <= |s| && r == s[..|r|]
    ensures forall i :: |r| <= i < |s| ==> IsSpace(s[i])
    ensures |r| > 0 ==> !IsSpace(r[|r| - 1])
    decreases |s|
  {
    if |s| > 0 && IsSpace(s[|s| - 1]) then TrimEnd(s[..|s| - 1]) else s
  }

  /** `s.strip()`: drops leading and trailing whitespace. */
  function Strip(s: string): (r: string)
    ensures |r| > 0 ==> !IsSpace(r[0]) && !IsSpace(r[|r| - 1])
  {
    TrimEnd(TrimStart(s))
  }

  /** A string that starts and ends with a non-space character is its own `strip()`. */
  lemma StripUnchanged(s: string)
    requires |s| > 0 && !IsSpace(s[0]) && !IsSpace(s[|s| - 1])
    ensures Strip(s) == s
  {
  }

  /** A trailing newline after such a string is all that `strip()` removes. */
  lemma StripTrailingNewline(s: string)
    requires |s| > 0 && !IsSpace(s[0]) && !IsSpace(s[|s| - 1])
    ensures Strip(s + "\n") == s
  {
    var t := s + "\n";
    assert TrimStart(t) == t by { assert t[0] == s[0]; }
    assert t[..|t| - 1] == s;
    assert TrimEnd(t) == TrimEnd(s);
  }

  // ---------------------------------------------------------------------------
  // Decimal counts: `str.isdigit`, `int(s)` and `str(n)` over ASCII digits
  // ---------------------------------------------------------------------------

  predicate IsDigit(c: char) {
    '0' <= c <= '9'
  }

  /** `s.isdigit()`: non-empty and every character a digit. */
  predicate IsDigits(s: string) {
    |s| > 0 && forall i :: 0 <= i < |s| ==> IsDigit(s[i])
  }

  /** `int(s)` for a string of digits. */
  function DigitsValue(s: string): nat
    requires forall i :: 0 <= i < |s| ==> IsDigit(s[i])
    decreases |s|
  {
    if |s| == 0 then 0
    else
      assert IsDigit(s[|s| - 1]);
      DigitsValue(s[..|s| - 1]) * 10 + (s[|s| - 1] as int - '0' as int)
  }

  function DigitChar(d: nat): (c: char)
    requires d < 10
    ensures IsDigit(c) && c as int - '0' as int == d
  {
    ('0' as int + d) as char
  }

  /** `str(n)` (and `f"{n}"`) for a non-negative count. */
  function DecimalString(n: nat): (r: string)
    ensures IsDigits(r)
    ensures n > 0 ==> r[0] != '0'
    decreases n
  {
    if n < 10 then [DigitChar(n)]
    else DecimalString(n / 10) + [DigitChar(n % 10)]
  }

  /** `int(str(n)) == n`. */
  lemma {:induction false} DecimalRoundTrip(n: nat)
    ensures DigitsValue(DecimalString(n)) == n
    decreases n
  {
    var s := DecimalString(n);
    if n >= 10 {
      DecimalRoundTrip(n / 10);
      assert s[..|s| - 1] == DecimalString(n / 10);
    }
  }

  // ---------------------------------------------------------------------------
  // Tag removal: re.sub("<.*?>", "", s)
  // ---------------------------------------------------------------------------

  /** Every `>` of `t` comes after a newline of `t`: no tag can close within `t`'s first line. */
  predicate Clear(t: string) {
    forall k :: 0 <= k < |t| && t[k] == '>' ==> '\n' in t[..k]
  }

  /**
   No tag remains: after each `<`, every `>` lies beyond a newline, so the
   pattern `<.*?>` (where `.` excludes newline) matches nowhere.
   */
  predicate TagFree(s: string) {
    forall i :: 0 <= i < |s| && s[i] == '<' ==> Clear(s[i + 1..])
  }

  /**
   The end of the tag opened before position `j`: the first `>` at or after
   `j`, provided no newline comes first.
   */
  function ScanTag(s: string, j: nat): (r: Option<nat>)
    requires j <= |s|
    ensures r.Some? ==> j <= r.value < |s| && s[r.value] == '>'
    ensures r.Some? ==> '\n' !in s[j..r.value] && '>' !in s[j..r.value]
    ensures r.None? ==> Clear(s[j..])
    decreases |s| - j
  {
    if j == |s| then None
    else if s[j] == '>' then Some(j)
    else if s[j] == '\n' then None
    else
      var r := ScanTag(s, j + 1);
      assert r.None? ==> Clear(s[j..]) by {
        if r.None? {
          forall k | 0 <= k < |s[j..]| && s[j..][k] == '>' ensures '\n' in s[j..][..k] {
            assert k >= 1 && s[j + 1..][k - 1] == '>';
            assert s[j..][..k] == [s[j]] + s[j + 1..][..k - 1];
          }
        }
      }
      assert r.Some? ==> s[j..r.value] == [s[j]] + s[j + 1..r.value];
      r
  }

  /** `re.sub("<.*?>", "", s)`: removes every `<…>` whose body has no newline, scanning left to right. */
  function StripTags(s: string): (r: string)
    ensures |r| <= |s|
    ensures '<' !in s ==> r == s
    decreases |s|
  {
    if |s| == 0 then ""
    else if s[0] != '<' then
      assert '<' !in s ==> '<' !in s[1..];
      [s[0]] + StripTags(s[1..])
    else
      match ScanTag(s, 1)
      case Some(j) => StripTags(s[j + 1..])
      case None => ['<'] + StripTags(s[1..])
  }

  /** The scan for a tag's end stops at the first `>` when no newline or `>` comes before it. */
  lemma {:induction false} ScanTagReaches(s: string, j: nat, e: nat)
    requires j <= e < |s| && s[e] == '>'
    requires forall k :: j <= k < e ==> s[k] != '>' && s[k] != '\n'
    ensures ScanTag(s, j) == Some(e)
    decreases e - j
  {
    if j < e {
      ScanTagReaches(s, j + 1, e);
    }
  }

  /** A character other than `<` is kept, and stripping carries on after it. */
  lemma StripTagsCons(c: char, t: string)
    requires c != '<'
    ensures StripTags([c] + t) == [c] + StripTags(t)
  {
    assert ([c] + t)[1..] == t;
  }

  /** Text before the first `<` passes through untouched. */
  lemma {:induction false} StripTagsPrefix(a: string, b: string)
    requires '<' !in a
    ensures StripTags(a + b) == a + StripTags(b)
    decreases |a|
  {
    if |a| == 0 {
      assert a + b == b;
    } else {
      var rest := a[1..];
      HeadSplit(a, b);
      HeadSplit(a, StripTags(b));
      StripTagsCons(a[0], rest + b);
      StripTagsPrefix(rest, b);
    }
  }

  /** Peeling the first character off a concatenation. */
  lemma HeadSplit(a: string, x: string)
    requires |a| > 0
    ensures a + x == [a[0]] + (a[1..] + x)
  {
  }

  /** A tag disappears together with its body, and the text after it is stripped in turn. */
  lemma DropsTag(t: string, b: string)
    requires '>' !in t && '\n' !in t
    ensures StripTags("<" + t + ">" + b) == StripTags(b)
  {
    var s := "<" + t + ">" + b;
    forall k | 1 <= k < |t| + 1 ensures s[k] != '>' && s[k] != '\n' {
      assert s[k] == t[k - 1];
    }
    ScanTagReaches(s, 1, |t| + 1);
    assert s[|t| + 2..] == b;
  }

  /**
   Text outside a tag survives: the characters before the first `<` are kept,
   the tag goes, and stripping carries on after its `>`.
   */
  lemma StripTagsKeepsText(a: string, t: string, b: string)
    requires '<' !in a && '>' !in t && '\n' !in t
    ensures StripTags(a + "<" + t + ">" + b) == a + StripTags(b)
  {
    Assoc(a, t, b);
    StripTagsPrefix(a, "<" + t + ">" + b);
    DropsTag(t, b);
  }

  /** Regrouping a tagged string around its prefix. */
  lemma Assoc(a: string, t: string, b: string)
    ensures a + "<" + t + ">" + b == a + ("<" + t + ">" + b)
  {
  }

  /** A `<` that no `>` closes on its own line is kept, and stripping carries on after it. */
  lemma UnclosedKept(b: string)
    requires Clear(b)
    ensures StripTags("<" + b) == "<" + StripTags(b)
  {
    var s := "<" + b;
    assert s[1..] == b;
    ClearMeansNoClose(s);
  }

  lemma ClearTail(t: string)
    requires |t| > 0 && Clear(t) && t[0] != '\n'
    ensures t[0] != '>' && Clear(t[1..])
  {
    forall k | 0 <= k < |t[1..]| && t[1..][k] == '>' ensures '\n' in t[1..][..k] {
      assert t[k + 1] == '>';
      assert '\n' in t[..k + 1];
      assert t[..k + 1] == [t[0]] + t[1..][..k];
    }
  }

  lemma ClearCons(c: char, t: string)
    requires c != '>' && (c == '\n' || Clear(t))
    ensures Clear([c] + t)
  {
    var u := [c] + t;
    forall k | 0 <= k < |u| && u[k] == '>' ensures '\n' in u[..k] {
      assert k >= 1;
      if c == '\n' {
        assert u[..k][0] == '\n';
      } else {
        assert t[k - 1] == '>';
        assert u[..k] == [c] + t[..k - 1];
      }
    }
  }

  lemma TagFreeCons(c: char, t: string)
    requires TagFree(t) && (c == '<' ==> Clear(t))
    ensures TagFree([c] + t)
  {
    var u := [c] + t;
    forall i | 0 <= i < |u| && u[i] == '<' ensures Clear(u[i + 1..]) {
      if i > 0 {
        assert u[i + 1..] == t[i..];
        assert t[i - 1] == '<';
      }
    }
  }

  lemma TagFreeTail(s: string)
    requires |s| > 0 && TagFree(s)
    ensures TagFree(s[1..])
  {
    forall i | 0 <= i < |s[1..]| && s[1..][i] == '<' ensures Clear(s[1..][i + 1..]) {
      assert s[i + 1] == '<';
      assert s[1..][i + 1..] == s[i + 2..];
    }
  }

  /** A `<` followed by a clear remainder opens no tag. */
  lemma ClearMeansNoClose(s: string)
    requires |s| > 0 && Clear(s[1..])
    ensures ScanTag(s, 1).None?
  {
    forall j | 1 <= j < |s| && s[j] == '>' ensures '\n' in s[1..j] {
      assert s[1..][j - 1] == '>';
      assert s[1..][..j - 1] == s[1..j];
    }
  }

  /** Removing tags never brings a `>` up into the first line. */
  lemma {:induction false} ClearStrip(t: string)
    requires Clear(t)
    ensures Clear(StripTags(t))
    decreases |t|
  {
    if |t| == 0 {
    } else if t[0] == '\n' {
      ClearCons('\n', StripTags(t[1..]));
    } else {
      ClearTail(t);
      ClearStrip(t[1..]);
      if t[0] == '<' {
        ClearMeansNoClose(t);
      }
      ClearCons(t[0], StripTags(t[1..]));
    }
  }

  /** After `StripTags` no tag is left for the pattern to match. */
  lemma {:induction false} StripTagsTagFree(s: string)
    ensures TagFree(StripTags(s))
    decreases |s|
  {
    if |s| == 0 {
    } else if s[0] != '<' {
      StripTagsTagFree(s[1..]);
      TagFreeCons(s[0], StripTags(s[1..]));
    } else {
      match ScanTag(s, 1)
      case Some(j) =>
        StripTagsTagFree(s[j + 1..]);
      case None =>
        StripTagsTagFree(s[1..]);
        ClearStrip(s[1..]);
        TagFreeCons('<', StripTags(s[1..]));
    }
  }

  /** Text without tags passes through unchanged. */
  lemma {:induction false} StripTagsKeepsTagFree(s: string)
    requires TagFree(s)
    ensures StripTags(s) == s
    decreases |s|
  {
    if |s| > 0 {
      TagFreeTail(s);
      StripTagsKeepsTagFree(s[1..]);
      if s[0] == '<' {
        ClearMeansNoClose(s);
      }
    }
  }

  /** Tag removal is idempotent. */
  lemma StripTagsIdempotent(s: string)
    ensures StripTags(StripTags(s)) == StripTags(s)
  {
    StripTagsTagFree(s);
    StripTagsKeepsTagFree(StripTags(s));
  }
}

=== FILE: values.dfy ===
/**
 Python objects as produced by `json.loads`, `orjson.loads` and `yaml.safe_load`:
 the common value tree of the configuration file, of the search engine's row
 payload and of the decision agent's LLM reply.
 */
module Values {
  import opened Common

  datatype Value =
    | Null
    | Bool(b: bool)
    | Int(i: int)
    | Float(f: real)
    | Str(s: string)
    | List(items: seq<Value>)
    | Dict(fields: map<string, Value>)

  /** Python truthiness: `None`, `False`, zero and empty containers are false. */
  predicate Truthy(v: Value) {
    match v
    case Null => false
    case Bool(b) => b
    case Int(i) => i != 0
    case Float(f) => f != 0.0
    case Str(s) => |s| > 0
    case List(items) => |items| > 0
    case Dict(fields) => |fields| > 0
  }

  /** `d.get(key)`: the value stored under `key`, or `None` when the key is absent. */
  function DictGet(fields: map<string, Value>, key: string): (r: Option<Value>)
    ensures r.Some? <==> key in fields
    ensures r.Some? ==> r.value == fields[key]
  {
    if key in fields then Some(fields[key]) else None
  }
}
